=== FILE: README.md ===
# school-saas route handlers in Dafny

This project models the server of school-saas. It is a multi-tenant REST API for running
schools. Each school account registers its own teachers, students, parents, subjects,
classes, cycles, activities, exams, vehicles, drivers, accompaniments and guards. Each school
also keeps student and staff attendance and weekly class schedules.

Each request carries a JWT whose payload `{ id, rol }` says who is calling. Role middleware
lets a request through or answers 401/403. Handlers read and write MongoDB collections and
keep pairs of reverse links in step by hand:

- a class and its teacher;
- a subject and its teachers;
- a vehicle and its driver;
- a cycle and its classes.

The model has these parts:

- **`Common`**: options, the `Outcome` of a read-only handler, JSON body values and their
  truthiness, the `$set` merge of an update body, and the `$pull` / `$addToSet` list operations.
- **`Jwt`**: `verifyToken` and the role gates. It includes the `Bearer <token>` header split, a
  `Request` class whose `user` field the middleware sets, and the roles each exported gate
  admits.
- **`Store`**: one datatype per collection, with the fields the handlers read and write, and a
  class `Db` holding one map per collection.
  Handlers are methods on `Db` whose `modifies` clauses name the collections they write. A
  collection outside that list is unchanged by construction.
- **`Tenant`**: `getSchoolId`, which five route files copy. It gives the school a request acts
  for, no school, or an exception.
- **`Links`**: the `updateMany` / `findByIdAndUpdate` calls that maintain reverse links.
- **One module per route file.** Each handler is a method on `Db` (writes) or a function
  returning an `Outcome` (reads). Each states every status code it can answer and the new state
  of every collection it writes.
  - The validation and summary loops of the attendance, staff-attendance, schedule and
    exam-results handlers are methods with loop invariants. Each is proved against a
    specification function.
  - Reverse-link invariants are stated as predicates and shown preserved by every handler that
    writes both sides: `TeacherLinks`, `TeacherMirror`, `VehicleLinks`, `ClassCycleLinks`, and
    `NoClashes` for schedules.

Ids are natural numbers. Dates are day numbers. The clock reading `new Date()` and fresh
ObjectIds are parameters of the handlers that use them.

## Model

| member | source | states |
|---|---|---|
| Common.MergeFields | server/routes/cycleRoutes.js:80-89 | a field the body provides (truthy, or defined for the few keys copied whenever present) takes the body's value; every other field keeps its old value; keys outside both key sets never change |
| Common.MergeIdempotent | server/routes/cycleRoutes.js:80-89 | applying the same update body twice gives the same document as applying it once |
| Common.Without | server/routes/activityRoutes.js:177-179 | filtering out `x` keeps exactly the other elements, never grows the list, shrinks it when `x` was present, and keeps a list without duplicates duplicate-free |
| Common.AddToSet | server/routes/classRoutes.js:329-331 | after push-if-absent the list holds exactly the old elements plus `x`; a present `x` leaves the list as it was; an absent one is appended at the end |
| Common.WithoutUndoesAddToSet | server/routes/accompanimentsRoutes.js:234-275 | removing an id that was just added to a list not holding it gives the original list back |
| Common.WithoutAppended | server/routes/activityRoutes.js:157-179 | filtering out an id appended to a list that did not hold it gives the list back (proved by induction) |
| Common.Minus | server/routes/classRoutes.js:204-214 | the ids of `a` not in `b`, as in the subjects-to-remove / subjects-to-add filters; never longer than `a` |
| Jwt.GenerateToken | server/config/jwt.js:4-46 | a generated token carries exactly the role and principal id it was made for |
| Jwt.Split | server/config/jwt.js:54 | `split(" ")` yields at least one piece, no piece holds a space, and joining the pieces with spaces gives back the header |
| Jwt.SplitAfterWord | server/config/jwt.js:54 | a word without spaces splits into itself, and a word, a space and a rest split into the word followed by the pieces of the rest |
| Jwt.SplitJoin | server/config/jwt.js:54 | splitting undoes joining for pieces without spaces (induction on the pieces) |
| Jwt.TokenOf | server/config/jwt.js:54 | the second piece of the header exists exactly when the header holds a space |
| Jwt.BearerToken | server/config/jwt.js:54 | the header `<scheme> <token>` yields the token, for a scheme and token without spaces |
| Jwt.Authenticate | server/config/jwt.js:48-62 | a missing or empty header is 401; otherwise the request is authenticated exactly when a second piece exists and verifies, and then carries the verified claims; else 403 |
| Jwt.BearerAuthenticates | server/config/jwt.js:48-62 | a `Bearer <token>` header authenticates the token's claims when it verifies and is rejected otherwise |
| Jwt.HeaderWithoutSpaceRejected | server/config/jwt.js:48-62 | a non-empty header without a space is rejected as an invalid token (403) |
| Jwt.GateRoles | server/config/jwt.js:64-173 | the roles each gate admits, e.g. school-or-admin admits exactly School and Admin; `verifyAny` admits five roles and not Guard |
| Jwt.Verify | server/config/jwt.js:64-173 | a gate passes a request on exactly when it is authenticated with an admitted role, answers 401 exactly when no header was sent, and 403 in every other refusal |
| Jwt.GeneratedTokenAdmission | server/config/jwt.js:64-173 | a token made by a generator and sent as `Bearer <token>` passes its own role's gate and `verifyAny`, and passes any gate exactly when that gate admits its role |
| Jwt.Request.constructor | server/config/jwt.js:48-62 | a fresh request holds the given authorization header and no user |
| Jwt.Request.VerifyToken | server/config/jwt.js:48-62 | the middleware sets `req.user` to the decoded claims and calls next exactly when the header authenticates; otherwise it answers 401 or 403 and leaves `req.user` alone |
| Jwt.Request.Check | server/config/jwt.js:64-173 | a role gate calls next exactly when `Verify` passes the request, with `req.user` set to its claims; a request that authenticates but fails the role test still has `req.user` set |
| Store.Db.constructor | server/server.js:32-44 | an empty database holds no documents in any collection |
| Tenant.GetSchoolId | server/routes/attendanceRoutes.js:9-20 | a school acts for itself; a guard acts for its guard record's school; a guard without a record (or whose file never loaded the Guard model) throws; every other role has no school |
| Tenant.TenantError | server/routes/attendanceRoutes.js:9-20 | no school is answered with 404 and an exception with 500, and each code only for that case |
| Tenant.TenantIsOwnSchool | server/routes/attendanceRoutes.js:9-20 | whenever a tenant is found, the caller is that school or a guard of that school |
| Links.TeacherAddClass | server/routes/classRoutes.js:55-58 | only teacher `t` changes, and it gains class `c` in its classes as a set |
| Links.TeacherPullClass | server/routes/classRoutes.js:185-188 | only teacher `t` changes, and it loses class `c` |
| Links.SubjectsAddClass | server/routes/classRoutes.js:63-66 | each listed subject gains class `c`; the other subjects are untouched |
| Links.SubjectsPullClass | server/routes/classRoutes.js:206-209 | each listed subject loses class `c`; the other subjects are untouched |
| Links.TeachersAddSubject | server/routes/subjectRoutes.js:37-40 | each listed teacher gains subject `s`; the others are untouched |
| Links.TeachersPullSubject | server/routes/subjectRoutes.js:158-161 | each listed teacher loses subject `s`; the others are untouched |
| Links.TeachersOfSubject | server/routes/subjectRoutes.js:158-161 | exactly the teachers whose subjects list `s` |
| Links.SubjectsPullTeacher | server/routes/teacherRoutes.js:182-185 | every subject loses teacher `t` from its teachers, and nothing else changes |
| Links.StudentsUnsetClass | server/routes/classRoutes.js:276-279 | each listed student loses its class reference; the others are untouched |
| Links.StudentsSetParent | server/routes/parentRoutes.js:45-48 | each listed student's parent becomes `p` (or is unset); the others are untouched |
| Links.StudentsUnsetTransport | server/routes/transportationRoutes.js:164-167 | each listed student loses its vehicle; the others are untouched |
| Links.ActivitiesPullParticipant | server/routes/studentRoutes.js:358-361 | every activity loses student `s` from its participants, and nothing else changes |
| Links.DriverAddVehicle | server/routes/transportationRoutes.js:34-37 | only driver `d` changes, and it gains vehicle `v` |
| Links.DriverPullVehicle | server/routes/transportationRoutes.js:157-160 | only driver `d` changes, and it loses vehicle `v` |
| Links.TransportsUnsetDriver | server/routes/driverRoutes.js:167-170 | each listed vehicle loses its driver; the others are untouched |
| Links.ClassesUnsetCycle | server/routes/cycleRoutes.js:118-121 | each listed class loses its cycle; the others are untouched |
| AttendanceRoutes.CountStatus | server/routes/attendanceRoutes.js:127-137 | the number of records with a given status, never more than the number of records |
| AttendanceRoutes.SummaryTotal | server/routes/attendanceRoutes.js:127-137 | the four counters add up to at most the number of records, and to exactly that number when every status is one of the four |
| AttendanceRoutes.SummaryExample | server/routes/attendanceRoutes.js:127-137 | two present and one absent record are summarised as present 2, absent 1, late 0, excused 0 |
| AttendanceRoutes.TallyAttendance | server/routes/attendanceRoutes.js:127-137 | the summary loop returns the per-status counts of the records |
| AttendanceRoutes.FirstRecordError | server/routes/attendanceRoutes.js:112-125 | none exactly when every record is complete and names a student of the school; otherwise the error of a rejected record all of whose predecessors pass (400 missing field, 404 foreign student) |
| AttendanceRoutes.CheckRecords | server/routes/attendanceRoutes.js:111-124 | the check loop answers exactly `FirstRecordError`: the error of the first rejected record, or none |
| AttendanceRoutes.Create | server/routes/attendanceRoutes.js:23-155 | missing date, subject or records 400; without `req.user` 500; a sheet is created (201, with the tallied summary) exactly when a teacher who teaches the subject sends records that all pass the check; such a teacher's rejected records answer the first one's error (400 or 404); a school or guard caller owning the subject ends in 500 with a teacher id and 400 without one, and 403 otherwise |
| AttendanceRoutes.SheetScope | server/routes/attendanceRoutes.js:381-405 | a teacher's scope is its own sheets, a school's or guard's the sheets of its school; other roles have none |
| AttendanceRoutes.Update | server/routes/attendanceRoutes.js:373-445 | no records 400; a role outside teacher, school and guard 403, an unknown guard 404; a sheet that is missing or outside the caller's scope 404; records that fail the check answer the first rejected record's error (400 or 404); otherwise the records are replaced and the summary recomputed |
| AttendanceRoutes.Delete | server/routes/attendanceRoutes.js:448-481 | the sheet is removed exactly when it exists and is in the caller's scope; a caller without a scope 403 (404 for an unknown guard); a missing or out-of-scope sheet 404 |
| AttendanceRoutes.BySubject | server/routes/attendanceRoutes.js:158-231 | a teacher who teaches the subject, or a school or known guard that owns it, gets exactly the subject's sheets in the range and in its scope; any other teacher, school or guard 403, an unknown guard 404, other roles 403 |
| AttendanceRoutes.ByDate | server/routes/attendanceRoutes.js:234-283 | an unparsable date is 400; a caller with a scope gets exactly the sheets of that day in that scope; other callers get their scope's refusal (403, or 404 for an unknown guard) |
| AttendanceRoutes.FindRecord | server/routes/attendanceRoutes.js:353 | the first record naming the student, or none when no record names it |
| AttendanceRoutes.StudentHistory | server/routes/attendanceRoutes.js:286-370 | a missing student 404; parents end in 500; a teacher, a school of the student or a known guard of its school gets one entry per sheet listing the student (range applied only with both bounds; teachers only for subjects they teach); another school's caller 403, an unknown guard 404 |
| StaffAttendanceRoutes.StaffRecordError | server/routes/staffAttendanceRoutes.js:51-103 | a record missing a field is 400, an unknown staff type 400, a member not employed by the school 404 (create only), present/late without check-in 400; otherwise accepted |
| StaffAttendanceRoutes.CountStatus | server/routes/staffAttendanceRoutes.js:38-47 | the number of records with a status, bounded by the number of records |
| StaffAttendanceRoutes.CountType | server/routes/staffAttendanceRoutes.js:38-47 | the number of records of a staff type, bounded by the number of records |
| StaffAttendanceRoutes.TypeTotalsCoverRecords | server/routes/staffAttendanceRoutes.js:59-85 | on an accepted sheet the four staff-type counters add up to the number of records |
| StaffAttendanceRoutes.StatusTotalsCoverRecords | server/models/StaffAttendance.js:25-29 | on a sheet the schema accepts, the four status counters (`summary[record.status]++`) add up to the number of records |
| StaffAttendanceRoutes.FirstStaffError | server/routes/staffAttendanceRoutes.js:51-103 | none exactly when every record is accepted; otherwise 400 or 404 |
| StaffAttendanceRoutes.FirstStaffErrorLocates | server/routes/staffAttendanceRoutes.js:51-103 | the error found is that of a rejected record all of whose predecessors are accepted |
| StaffAttendanceRoutes.TallyStep | server/routes/staffAttendanceRoutes.js:59-100 | counting one more record into the summary of a prefix gives the summary of the longer prefix |
| StaffAttendanceRoutes.ValidateAndTally | server/routes/staffAttendanceRoutes.js:51-103 | the loop answers exactly `FirstStaffError` (the first rejected record's error), and otherwise returns the status and type counts of all records |
| StaffAttendanceRoutes.Create | server/routes/staffAttendanceRoutes.js:24-121 | missing date or records 400; a guard without a record 500; a sheet of the tenant is created (201) exactly when every record is accepted and has a schema status; in the tenant, a rejected record answers the first one's error (400 for a missing field or unknown type or check-in time, 404 for a member the school does not employ) and an accepted sheet with a status outside the schema's enum 500; its summary is the tally, whose status counts and type counts each add up to the number of records |
| StaffAttendanceRoutes.ReplaceRecords | server/routes/staffAttendanceRoutes.js:351-402 | on a found sheet: the records are stored (200) exactly when all are accepted without the existence check and have schema statuses; otherwise the first rejected record's error, or 500 for a status outside the enum, and nothing changes |
| StaffAttendanceRoutes.Update | server/routes/staffAttendanceRoutes.js:327-406 | no records 400; no tenant its error; a sheet outside the tenant 404; on the tenant's sheet a rejected record answers the first one's error (400) and a status outside the enum 500; otherwise the records replace the old ones with a recomputed summary whose counts add up to the number of records |
| StaffAttendanceRoutes.Delete | server/routes/staffAttendanceRoutes.js:409-433 | no tenant its error; one of the tenant's sheets is removed exactly when it exists; anything else is 404 and changes nothing |
| StaffAttendanceRoutes.List | server/routes/staffAttendanceRoutes.js:124-167 | exactly the tenant's sheets in the range (or of the one day) that list a member of the requested type |
| StaffAttendanceRoutes.ByDate | server/routes/staffAttendanceRoutes.js:170-239 | an unparsable date 400; no tenant its error; a tenant's sheet of that day exactly when one exists, 404 otherwise |
| StaffAttendanceRoutes.FindStaffRecord | server/routes/staffAttendanceRoutes.js:307-308 | the first record with that staff id and type, or none when there is none |
| StaffAttendanceRoutes.StaffHistory | server/routes/staffAttendanceRoutes.js:242-324 | an unknown type 400; no tenant its error; a member not employed by the tenant 404; otherwise exactly one entry per tenant sheet in the range mentioning the id and the type |
| StaffAttendanceRoutes.LooseMatchGivesEmptyEntry | server/routes/staffAttendanceRoutes.js:283-288 | a sheet listing the member under another type matches the query yet yields an entry without a status |
| ClassRoutes.Create | server/routes/classRoutes.js:25-73 | tenant errors; otherwise the class is created (201) and its teacher and every listed subject list it; teacher links are preserved |
| ClassRoutes.Updated | server/routes/classRoutes.js:151-239 | school and students never change; an absent teacher or subject list keeps the old one; a capacity of 0 is not applied |
| ClassRoutes.TeacherChangeMovesClass | server/routes/classRoutes.js:181-199 | after a teacher change the new teacher lists the class, the replaced one does not, and no other teacher changes |
| ClassRoutes.SameTeacherKeepsLinks | server/routes/classRoutes.js:151-239 | replacing a class by one with the same teacher keeps every class listed by its teacher |
| ClassRoutes.ReassignKeepsLinks | server/routes/classRoutes.js:181-199 | moving a class to another teacher (pull from the old, add to the new) keeps every class listed by its teacher |
| ClassRoutes.SubjectChangeRelinks | server/routes/classRoutes.js:201-222 | newly listed subjects list the class, dropped ones do not, the rest are untouched |
| ClassRoutes.Update | server/routes/classRoutes.js:151-239 | no tenant its error; a class outside the tenant 404; the update succeeds exactly for the tenant's class, which is updated while teachers and subjects are relinked; teacher links are preserved |
| ClassRoutes.Delete | server/routes/classRoutes.js:242-288 | no tenant its error; a class outside the tenant 404; otherwise the class is removed, its teacher and subjects drop it, and its listed students lose their class reference; teacher links are preserved |
| ClassRoutes.AddStudent | server/routes/classRoutes.js:291-342 | no id 400; no tenant its error; a foreign class or student 404; a full class 400 even for a member; otherwise the student is in the class and names it |
| ClassRoutes.RemoveStudent | server/routes/classRoutes.js:345-378 | no tenant its error; a class outside the tenant 404; otherwise the student leaves the class list and loses its class reference whichever class it names |
| ClassRoutes.List | server/routes/classRoutes.js:76-93 | exactly the tenant's classes |
| ClassRoutes.Detail | server/routes/classRoutes.js:96-148 | no header 403, a bad token 401; an authenticated caller gets the class exactly when it exists and the caller is its teacher, its school or a guard of its school; otherwise a school or known guard 404, any other caller 403 |
| ClassRoutes.Students | server/routes/classRoutes.js:381-434 | a bad or missing token 401, a missing class 404; a caller entitled to the class gets exactly the existing students it lists, any other caller 403 |
| SubjectRoutes.Create | server/routes/subjectRoutes.js:7-47 | a code already used in the school is 400; otherwise the subject is created and every listed teacher lists it; the mirror is preserved |
| SubjectRoutes.List | server/routes/subjectRoutes.js:50-59 | exactly the school's subjects |
| SubjectRoutes.Detail | server/routes/subjectRoutes.js:62-84 | a teacher sees the subjects listing it, a school its own; 404 otherwise |
| SubjectRoutes.TeacherChangeRelinks | server/routes/subjectRoutes.js:108-128 | newly listed teachers list the subject, dropped ones do not, the rest are untouched |
| SubjectRoutes.Update | server/routes/subjectRoutes.js:87-143 | a foreign subject is 404; a given teacher list replaces the old one and teachers are relinked; the teacher mirror is preserved |
| SubjectRoutes.Delete | server/routes/subjectRoutes.js:146-169 | the subject is removed exactly when it is the school's, 404 otherwise; teachers drop it; classes keep listing it |
| SubjectRoutes.AssignTeacher | server/routes/subjectRoutes.js:172-214 | no id 400, a missing subject or teacher 404; otherwise both sides list each other and the mirror is preserved |
| SubjectRoutes.RemoveTeacher | server/routes/subjectRoutes.js:217-244 | a foreign subject 404; otherwise both sides drop the link; the mirror is preserved |
| ActivityRoutes.RegisterRefusal | server/routes/activityRoutes.js:132-164 | a registration goes ahead exactly when the activity exists, is active, has room and does not list the student; a missing activity is 404, the other refusals 400 |
| ActivityRoutes.Joined | server/routes/activityRoutes.js:157 | the student is appended to the participants and nothing else changes |
| ActivityRoutes.RegisterKeepsBounds | server/routes/activityRoutes.js:132-164 | a registration that goes ahead never exceeds the capacity and never lists a student twice |
| ActivityRoutes.DeregisterUndoesRegister | server/routes/activityRoutes.js:167-187 | deregistering right after registering gives back the old participant list |
| ActivityRoutes.Create | server/routes/activityRoutes.js:6-18 | the activity is stored with the caller as its school |
| ActivityRoutes.BuildFilter | server/routes/activityRoutes.js:21-53 | one constraint per provided query parameter: school, category, active only for "true", ends from today for upcoming "true" |
| ActivityRoutes.List | server/routes/activityRoutes.js:21-53 | exactly the activities matching the built filter |
| ActivityRoutes.EmptyQueryListsAll | server/routes/activityRoutes.js:21-53 | with no query parameter every activity is listed |
| ActivityRoutes.Mine | server/routes/activityRoutes.js:56-65 | exactly the caller's activities |
| ActivityRoutes.Detail | server/routes/activityRoutes.js:68-82 | the activity when it exists, 404 otherwise |
| ActivityRoutes.Patched | server/routes/activityRoutes.js:85-108 | every given field is overwritten, school and participants included; the others keep their values |
| ActivityRoutes.Update | server/routes/activityRoutes.js:85-108 | a missing activity 404, another school's 403; otherwise the patch is applied |
| ActivityRoutes.UpdateCanMoveSchool | server/routes/activityRoutes.js:85-108 | the owner can hand its activity to another school through the body |
| ActivityRoutes.Delete | server/routes/activityRoutes.js:111-129 | a school deletes only its own activities (403), an admin any; a missing one is 404; students are untouched |
| ActivityRoutes.Register | server/routes/activityRoutes.js:132-164 | the student is appended exactly when the registration is not refused; otherwise the refusal's status and no change |
| ActivityRoutes.Deregister | server/routes/activityRoutes.js:167-187 | a missing activity 404; otherwise the student is filtered out (nothing when no id is given) |
| StudentRoutes.Register | server/routes/studentRoutes.js:20-55 | an email used by any student is 400; otherwise the student is created for the calling school |
| StudentRoutes.Profile | server/routes/studentRoutes.js:86-99 | without middleware `req.user` is unset: 500; with a user, its record or 404 |
| StudentRoutes.ApplyProfile | server/routes/studentRoutes.js:162-195 | truthy profile fields, a non-empty email and a given class are copied; school, parent, vehicle and activities never change |
| StudentRoutes.EmptyPatchKeepsProfile | server/routes/studentRoutes.js:162-195 | an empty patch leaves the student unchanged |
| StudentRoutes.UpdateProfileOf | server/routes/studentRoutes.js:162-195 | always 200; the student is patched when it exists and nothing changes otherwise |
| StudentRoutes.UpdateOwnProfile | server/routes/studentRoutes.js:102-113 | only a student may update, its own record; others get 403 |
| StudentRoutes.UpdateRefusal | server/routes/studentRoutes.js:116-159 | a missing student 404; a school or guard of another school and every other role 403; an admin, the school or its guard may update |
| StudentRoutes.UpdateById | server/routes/studentRoutes.js:116-159 | the update is applied exactly when not refused, with the refusal's status otherwise |
| StudentRoutes.RegisterActivity | server/routes/studentRoutes.js:197-233 | the activity checks of the public route; the activity is saved before the student is read, so a missing student leaves the activity listing it and answers 500 |
| StudentRoutes.DeregisterActivity | server/routes/studentRoutes.js:236-261 | a missing activity 404; otherwise both sides drop the link, registered or not |
| StudentRoutes.List | server/routes/studentRoutes.js:264-302 | an admin sees all students, a school its own, a guard its school's (404 without a record); other roles 403 |
| StudentRoutes.TeacherStudents | server/routes/studentRoutes.js:305-337 | a missing teacher 404; otherwise the school's students whose class lists an existing subject of the teacher |
| StudentRoutes.Delete | server/routes/studentRoutes.js:340-367 | a school deletes only its own students, an admin any; the student leaves every activity; classes, parents and vehicles keep their references |
| TeacherRoutes.Create | server/routes/teacherRoutes.js:10-60 | an email used by any teacher 400; otherwise an 'Active' teacher of the caller with no classes or subjects |
| TeacherRoutes.Profile | server/routes/teacherRoutes.js:91-104 | the caller's record, or 404 |
| TeacherRoutes.ApplyProfile | server/routes/teacherRoutes.js:107-152 | truthy fields and a non-empty email are copied; school, classes and subjects never change |
| TeacherRoutes.UpdateProfile | server/routes/teacherRoutes.js:107-152 | 200; the record is patched when it exists, nothing changes otherwise |
| TeacherRoutes.List | server/routes/teacherRoutes.js:155-165 | exactly the caller's teachers |
| TeacherRoutes.Delete | server/routes/teacherRoutes.js:168-191 | a foreign teacher 404; otherwise removed and dropped from every subject; classes keep naming it |
| TeacherRoutes.Subjects | server/routes/teacherRoutes.js:194-201 | exactly the subjects listing the caller |
| TeacherRoutes.ParseStatus | server/routes/teacherRoutes.js:256 | a name is accepted exactly when it is one of the four status names, and read back as that status |
| TeacherRoutes.StatusRoundTrip | server/routes/teacherRoutes.js:256 | parsing a status's name gives the status back |
| TeacherRoutes.StatusNamesDistinct | server/models/Exam.js:37 | different statuses have different names |
| TeacherRoutes.ParseStatusComplete | server/routes/teacherRoutes.js:256 | a name that is none of the four is refused |
| TeacherRoutes.CreateExam | server/routes/teacherRoutes.js:204-236 | created exactly when the subject exists and lists the caller, as a 'scheduled' exam of the subject's school without results; 403 otherwise |
| TeacherRoutes.Exams | server/routes/teacherRoutes.js:239-249 | exactly the caller's exams |
| TeacherRoutes.UpdateStatus | server/routes/teacherRoutes.js:252-276 | an unknown name 400 before the lookup; with a known name, exactly a missing or foreign exam is 404; otherwise the status is set and reads back as the name |
| TeacherRoutes.ZeroMarkRefused | server/routes/teacherRoutes.js:298 | a result with a mark of 0 is rejected like a missing mark |
| TeacherRoutes.GradeResults | server/routes/teacherRoutes.js:297-305 | the loop fails exactly when some result is not acceptable; otherwise one graded result per input, 'pass' exactly when the mark reaches the passing mark |
| TeacherRoutes.Passed | server/routes/teacherRoutes.js:303 | the number of passing results, at most the number of results |
| TeacherRoutes.StricterMarkPassesFewer | server/routes/teacherRoutes.js:303 | raising the passing mark never lets more results pass (induction on the results) |
| TeacherRoutes.PostResults | server/routes/teacherRoutes.js:279-320 | no or an empty array 400 before the lookup; then exactly a missing or foreign exam is 404; on the caller's exam any unacceptable result (no student, a zero, missing or non-number mark) 400; otherwise the results are replaced by the graded ones and the exam is 'completed' |
| ParentRoutes.Create | server/routes/parentRoutes.js:12-57 | an email used by any parent 400; otherwise the parent is created and every listed existing child names it |
| ParentRoutes.Profile | server/routes/parentRoutes.js:88-101 | the caller's record, or 404 |
| ParentRoutes.ApplyProfile | server/routes/parentRoutes.js:104-135 | truthy fields and a non-empty email are copied; school and children never change |
| ParentRoutes.UpdateProfile | server/routes/parentRoutes.js:104-135 | 200; the record is patched when it exists |
| ParentRoutes.List | server/routes/parentRoutes.js:138-148 | exactly the caller's parents |
| ParentRoutes.ChildrenOf | server/routes/parentRoutes.js:165-168 | exactly the students naming the parent |
| ParentRoutes.Delete | server/routes/parentRoutes.js:151-174 | the parent is removed and every student naming it loses it |
| ParentRoutes.AddChild | server/routes/parentRoutes.js:177-213 | no id 400; missing parent or student 404; otherwise the parent lists the child and the child names the parent |
| ParentRoutes.Children | server/routes/parentRoutes.js:216-234 | the existing students the parent lists; 404 without a record |
| ParentRoutes.ChildRefusal | server/routes/parentRoutes.js:237-277 | a missing parent record ends in 500, a child not listed 403 |
| ParentRoutes.FindResult | server/routes/parentRoutes.js:255-257 | the first result of the student in the exam, or none |
| ParentRoutes.ChildExams | server/routes/parentRoutes.js:237-277 | one entry per exam holding a result of the child, carrying that result's mark and grade |
| ParentRoutes.ExamEntriesNeverNull | server/routes/parentRoutes.js:237-277 | since only exams holding a result are listed, no entry's marks or status is null |
| ParentRoutes.ChildAttendance | server/routes/parentRoutes.js:280-316 | one entry per sheet listing the child, with its first line's status |
| ParentRoutes.ChildActivities | server/routes/parentRoutes.js:319-344 | the child's listed activities that exist; none when the child record is missing |
| ScheduleRoutes.WeekendRejected | server/routes/scheduleRoutes.js:43-47 | Saturday, Sunday and a lower-case day name are not school days |
| ScheduleRoutes.ClockTime | server/routes/scheduleRoutes.js:58-59 | the `HH:MM` spelling of a time of day has five characters |
| ScheduleRoutes.ClockTimeAccepted | server/routes/scheduleRoutes.js:58-59 | every time of day written `HH:MM`, and `H:MM` for hours below ten, matches the time pattern and reads back as that hour and minute |
| ScheduleRoutes.AcceptedIsClockTime | server/routes/scheduleRoutes.js:58-59 | every string the pattern accepts is one of those spellings of a time of day |
| ScheduleRoutes.OutOfRangeTimesRejected | server/routes/scheduleRoutes.js:58-59 | 24:00, 12:60, 7:5 and 123:45 are refused |
| ScheduleRoutes.PeriodError | server/routes/scheduleRoutes.js:54-82 | a malformed start or end time 400, a subject outside the school 404, a given teacher outside the school 404; otherwise accepted |
| ScheduleRoutes.FirstPeriodError | server/routes/scheduleRoutes.js:54-82 | the error of the first period that fails, every earlier period passing; none exactly when every period passes |
| ScheduleRoutes.CheckPeriods | server/routes/scheduleRoutes.js:54-82 | the loop returns the error of the first failing period, or none when every period passes |
| ScheduleRoutes.ClashSymmetric | server/routes/scheduleRoutes.js:84-92 | sharing a start time on the same class and day is symmetric |
| ScheduleRoutes.NoConflictKeepsNoClashes | server/routes/scheduleRoutes.js:84-92 | adding a schedule after a negative conflict query keeps the schedules free of clashes |
| ScheduleRoutes.Create | server/routes/scheduleRoutes.js:23-107 | a guard 500; for a school the status of the first failing check: class 404, day or empty periods 400, the first period's error, a conflict 400; otherwise created (201), keeping the schedules free of clashes |
| ScheduleRoutes.Update | server/routes/scheduleRoutes.js:155-247 | a guard 500; for a school the status of the first failing check: foreign schedule 404, bad day 400, empty periods 400, the first period's error, a conflict with another schedule 400; otherwise updated |
| ScheduleRoutes.List | server/routes/scheduleRoutes.js:110-126 | exactly the tenant's schedules |
| ScheduleRoutes.ForClass | server/routes/scheduleRoutes.js:129-152 | the tenant's schedules of the class, 404 when there is none |
| ScheduleRoutes.Delete | server/routes/scheduleRoutes.js:250-271 | a guard 500; a school deletes its own schedule, 404 otherwise |
| TransportationRoutes.DriversAfter | server/routes/transportationRoutes.js:104-120 | when the driver changes, the old driver drops the vehicle and the new one lists it; no other listing changes; no change when the driver stays |
| TransportationRoutes.Create | server/routes/transportationRoutes.js:8-44 | a bus number used in the school 400; otherwise an 'active' vehicle without student, listed by its driver; vehicle links are preserved |
| TransportationRoutes.List | server/routes/transportationRoutes.js:47-56 | exactly the caller's vehicles |
| TransportationRoutes.Detail | server/routes/transportationRoutes.js:59-76 | the caller's vehicle, 404 otherwise |
| TransportationRoutes.Patched | server/routes/transportationRoutes.js:79-142 | a non-empty bus number or status and a given driver are applied; school, student and accompaniments never change |
| TransportationRoutes.Update | server/routes/transportationRoutes.js:79-142 | a foreign vehicle 404 first; a bus number used by another vehicle of the school 400; otherwise patched and the drivers relinked; vehicle links are preserved |
| TransportationRoutes.RidersOf | server/routes/transportationRoutes.js:164-167 | exactly the students riding the vehicle |
| TransportationRoutes.Delete | server/routes/transportationRoutes.js:145-175 | the vehicle is removed, its driver drops it and no student rides it any more; vehicle links are preserved |
| TransportationRoutes.AssignStudent | server/routes/transportationRoutes.js:178-224 | no id 400; a foreign vehicle or student 404; a refused `$pull` on the previous vehicle 500 with nothing written; otherwise the vehicle carries the student, the student names the vehicle, and nothing else changes |
| TransportationRoutes.RemoveStudent | server/routes/transportationRoutes.js:227-252 | the student, of any school, loses its vehicle and this vehicle loses its student |
| DriverRoutes.Create | server/routes/driverRoutes.js:7-55 | an email used by any driver 400; otherwise a driver of the caller with no vehicles |
| DriverRoutes.List | server/routes/driverRoutes.js:58-67 | exactly the caller's drivers |
| DriverRoutes.Detail | server/routes/driverRoutes.js:70-86 | the caller's driver, 404 otherwise |
| DriverRoutes.Patched | server/routes/driverRoutes.js:89-151 | a non-empty email and the provided fields are applied; school and vehicles never change |
| DriverRoutes.Update | server/routes/driverRoutes.js:89-151 | a foreign driver 404; a new email used by a driver 400; otherwise patched |
| DriverRoutes.AfterDriverDeleted | server/routes/driverRoutes.js:163-171 | every vehicle the driver lists loses its driver, the others are untouched |
| DriverRoutes.Delete | server/routes/driverRoutes.js:154-179 | the driver is removed and its vehicles lose their driver; under the link invariant no vehicle names it afterwards |
| DriverRoutes.AssignedDrivers | server/routes/driverRoutes.js:208-216 | the driver lists the vehicle as a set; no other driver changes |
| DriverRoutes.AssignedTransports | server/routes/driverRoutes.js:208-216 | a newly listed vehicle names the driver; no other vehicle changes |
| DriverRoutes.AssignVehicle | server/routes/driverRoutes.js:182-222 | no id 400; a foreign driver or vehicle 404; otherwise both sides are linked; vehicle links are preserved |
| DriverRoutes.ReassignLeavesStaleListing | server/routes/driverRoutes.js:182-222 | assigning a vehicle another driver lists leaves both drivers listing it, and deleting the first unsets the vehicle's new driver |
| DriverRoutes.RemoveVehicle | server/routes/driverRoutes.js:225-252 | the driver drops the vehicle and the vehicle loses its driver, whoever it names |
| AccompanimentRoutes.Create | server/routes/accompanimentsRoutes.js:22-60 | tenant errors first; an email used by any accompaniment 400; otherwise created for the tenant's school |
| AccompanimentRoutes.List | server/routes/accompanimentsRoutes.js:63-76 | exactly the tenant's accompaniments |
| AccompanimentRoutes.Detail | server/routes/accompanimentsRoutes.js:79-100 | the tenant's accompaniment, 404 otherwise |
| AccompanimentRoutes.Patched | server/routes/accompanimentsRoutes.js:103-156 | a non-empty email and the truthy fields are applied; the school never changes |
| AccompanimentRoutes.Update | server/routes/accompanimentsRoutes.js:103-156 | a foreign accompaniment 404; a new email used by another 400; otherwise patched |
| AccompanimentRoutes.TransportsPullAccompaniment | server/routes/accompanimentsRoutes.js:183-186 | every vehicle, of any school, stops listing the accompaniment and nothing else changes |
| AccompanimentRoutes.Delete | server/routes/accompanimentsRoutes.js:159-196 | the accompaniment is removed and no vehicle lists it any more |
| AccompanimentRoutes.Boarded | server/routes/accompanimentsRoutes.js:239 | the vehicle lists the accompaniment at the end of its list |
| AccompanimentRoutes.Alighted | server/routes/accompanimentsRoutes.js:273-275 | the vehicle no longer lists the accompaniment and keeps every other one |
| AccompanimentRoutes.AlightUndoesBoard | server/routes/accompanimentsRoutes.js:199-283 | removing an accompaniment just assigned to a vehicle not listing it gives the vehicle back |
| AccompanimentRoutes.Assign | server/routes/accompanimentsRoutes.js:199-246 | no id 400 before the tenant; no tenant its error; a foreign vehicle or accompaniment 404; already assigned 400; otherwise assigned |
| AccompanimentRoutes.Remove | server/routes/accompanimentsRoutes.js:249-283 | a foreign vehicle 404; not assigned 400; otherwise removed |
| AccompanimentRoutes.Transports | server/routes/accompanimentsRoutes.js:286-316 | a foreign accompaniment 404; otherwise the tenant's vehicles listing it |
| AccompanimentRoutes.DispatchAsWritten | server/routes/accompanimentsRoutes.js:79-100 | routes tried in declaration order; the search route is only ever chosen for its own path |
| AccompanimentRoutes.SearchUnreachable | server/routes/accompanimentsRoutes.js:319-348 | the declared order never reaches the search route: `/accompaniments/search` goes to the detail route with id "search" |
| AccompanimentRoutes.Dispatch | server/routes/accompanimentsRoutes.js:319-348 | with search declared first, the search path reaches search, and every other path is dispatched as before |
| CycleRoutes.Create | server/routes/cycleRoutes.js:7-32 | a cycle of the caller with no classes (201) |
| CycleRoutes.List | server/routes/cycleRoutes.js:35-44 | exactly the caller's cycles |
| CycleRoutes.Detail | server/routes/cycleRoutes.js:47-63 | the caller's cycle, 404 otherwise |
| CycleRoutes.Patched | server/routes/cycleRoutes.js:80-89 | provided fields are applied, `isActive` whenever present even when false; school and classes never change |
| CycleRoutes.Update | server/routes/cycleRoutes.js:66-102 | a foreign cycle 404; otherwise patched |
| CycleRoutes.AfterCycleDeleted | server/routes/cycleRoutes.js:117-122 | each class the cycle lists loses its cycle; the others are untouched |
| CycleRoutes.Delete | server/routes/cycleRoutes.js:105-130 | the cycle is removed and its classes lose their cycle; under the link invariant no class names it afterwards |
| CycleRoutes.CyclesWithClass | server/routes/cycleRoutes.js:160-161 | the cycle lists the class as a set; no other cycle changes |
| CycleRoutes.ClassesInCycle | server/routes/cycleRoutes.js:133-173 | a newly listed class names the cycle; no other class changes |
| CycleRoutes.AddClass | server/routes/cycleRoutes.js:133-173 | no id 400; a foreign cycle or class 404; otherwise both sides are linked; class-cycle links are preserved |
| CycleRoutes.MovedClassStaysListed | server/routes/cycleRoutes.js:133-173 | adding a class to a second cycle leaves it listed by the first, and deleting the first unsets the class's new cycle |
| CycleRoutes.RemoveClass | server/routes/cycleRoutes.js:176-203 | the cycle drops the class and the class loses its cycle, whichever it names |
| GuardRoutes.Create | server/routes/guardRoutes.js:44-88 | an email used by any guard 400; otherwise a guard of the caller with role 'guard' |
| GuardRoutes.Profile | server/routes/guardRoutes.js:91-104 | the caller's record, or 404 |
| GuardRoutes.ProfilePatched | server/routes/guardRoutes.js:107-145 | a non-empty email and the truthy profile fields are applied; the school never changes |
| GuardRoutes.UpdateProfile | server/routes/guardRoutes.js:107-145 | 200; the record is patched when it exists, without checking the new email |
| GuardRoutes.ProfileEmailUnchecked | server/routes/guardRoutes.js:107-145 | the handler itself checks no email: the patched record may carry an email another guard already holds, which registration refuses with 400; only the unique index (left out) refuses it, with 500 |
| GuardRoutes.GuardSchool | server/routes/guardRoutes.js:150-168 | the guard's school, 404 without a record |
| GuardRoutes.Students | server/routes/guardRoutes.js:150-168 | exactly the students of the guard's school |
| GuardRoutes.Student | server/routes/guardRoutes.js:171-196 | a student of the guard's school, 404 otherwise |
| GuardRoutes.Teachers | server/routes/guardRoutes.js:201-218 | exactly the teachers of the guard's school |
| GuardRoutes.Teacher | server/routes/guardRoutes.js:221-245 | a teacher of the guard's school, 404 otherwise |
| GuardRoutes.Classes | server/routes/guardRoutes.js:250-271 | exactly the classes of the guard's school |
| GuardRoutes.Class | server/routes/guardRoutes.js:274-311 | a class of the guard's school with the school's students in it, 404 otherwise |
| GuardRoutes.Subjects | server/routes/guardRoutes.js:316-333 | exactly the subjects of the guard's school |
| GuardRoutes.Cycles | server/routes/guardRoutes.js:338-353 | exactly the cycles of the guard's school |
| GuardRoutes.Activities | server/routes/guardRoutes.js:471-488 | exactly the activities of the guard's school |
| GuardRoutes.Exams | server/routes/guardRoutes.js:493-511 | exactly the exams of the guard's school |
| GuardRoutes.Attendance | server/routes/guardRoutes.js:358-397 | the school's daily records, filtered by the given day and class |
| GuardRoutes.Overwritten | server/routes/guardRoutes.js:434-446 | the existing record gets the new status, and a new remark only when one is given |
| GuardRoutes.RecordAttendance | server/routes/guardRoutes.js:400-466 | unknown guard, foreign student or class 404; an existing record of the student and day is overwritten (200), else one is created (201); at most one record per student and day is kept |

## Left out

- Login routes, password hashing (bcrypt), token signing and expiry are left out. `jwt.verify` is an oracle parameter (`Verifier`), and the generators only fix the claims.
- `verifyGuard`, `verifyGuardOrSchool` and `generateGuardToken` are used by the guard and staff-attendance routes, but `server/config/jwt.js` does not export them. They are modelled as the role sets their names state, and `Gate.Exported` says which gates the file exports.
- I/O, Express plumbing and concurrency are left out: JSON parsing, response bodies, `populate`, `sort` and `select`. Each handler is one atomic step. In the running server its writes are separate, non-atomic database calls.
- An ObjectId that fails to cast makes Mongoose throw, and the handler answers 500. Ids here are plain numbers, so that path exists only in the search-route finding below.
- Every missing-model reference is modelled by its status (500) only. These are `Teacher`/`Parent` in attendanceRoutes.js and `Guard` in scheduleRoutes.js.
- The `$regex` search handler of the accompaniment routes is left out. Its route is unreachable, as shown under Findings.
- TransportationRoutes.AssignStudent: whether the database accepts the `$pull` of the scalar `student` field on the previous vehicle is a parameter (`pullAccepted`), not derived from the document; when accepted, the model assumes it leaves that vehicle as it is.
- ActivityRoutes.Register: the student id is taken as given. An absent id, stored as `undefined`, is not modelled.
- GuardRoutes.RecordAttendance: the date is a required day number, so the default of "today" when the date is absent is not modelled. `existing` stands for the result of the day lookup.
- SubjectRoutes.Create: the subject code is taken as given. A missing code is not modelled separately.
- Student, teacher, parent, driver, guard and accompaniment creation take the email as given. Mongoose validation of required fields and formats is left out.
- TeacherRoutes.GradeResults: marks are integers. Floating-point marks and NaN are not modelled.
- Exam.classId is required by the schema but never set by `POST /exams`, so saving such an exam would fail validation. The model stores the exam as the handler builds it and does not model that validation failure.
- Schedule.js uses `export default` while the router uses `require`. The model assumes the module loads.
- The daily per-student records of the guard routes and the subject sheets of attendanceRoutes.js are stored in the same Attendance collection with different shapes. The model keeps them in two maps.
- Documents carry the field names the handlers use (`teacher`, `capacity`, `school` of a class; `participants`, `isActive`, `endDate` of an activity). Class.js declares `classTeacher`, `maxCapacity` and `schoolId` instead, and Activity.js declares none of these paths. Mongoose's strict mode drops undeclared paths on save; the model does not, so it stores and reads these fields as the handlers write them.
- No unique index of the schemas is modelled. A write that breaks one fails on the duplicate key and the handler's catch answers 500; the model performs the write and answers 201 or 200. Where a route checks only within the school or not at all, the answers then differ:
  - `name` and `busNumber` of Transportation.js:8 and :13: `TransportationRoutes.Create` and `Update` check the bus number only within the school (transportationRoutes.js:13, 93-95);
  - `name` of Class.js:8: `ClassRoutes.Create` and `Update`;
  - `name` and `code` of Subject.js:8 and :13: `SubjectRoutes.Create` checks the code only within the school (subjectRoutes.js:12-15);
  - `firstName`, `lastName`, `email` and `phone` of Driver.js:8, 14, 19 and 28: `DriverRoutes.Create` and `Update` check only the email, so two drivers sharing a first name, last name or phone are 500 in the program;
  - the emails of Teacher.js:19, Parent.js:27, Student.js:49, Guard.js:24 and Accompaniment.js:24, and `pupilCode` of Student.js:31: the profile updates (`TeacherRoutes.UpdateProfile`, `ParentRoutes.UpdateProfile`, `StudentRoutes.UpdateProfileOf`, `GuardRoutes.UpdateProfile`) check no email, and the registrations check no pupil code;
  - the compound index on `person`, `personType`, `class` and `date` at Attendance.js:48: a second daily record with the same key is 500 in the program.
- Schema defaults and timestamps (`createdAt`, `updatedAt`) and any field not read by a handler are free-form fields.

## Findings

| source | as written | input that shows it | evidently intended | confidence | as-written member | corrected member |
|---|---|---|---|---|---|---|
| server/routes/accompanimentsRoutes.js:319-348 | `GET /accompaniments/search` is declared after `GET /accompaniments/:id` | `GET /accompaniments/search?query=x` is handled by the detail route with id "search": the ObjectId cast fails and the answer is 500 | the search route declared before `/:id`, so that it is reachable | not executed | AccompanimentRoutes.SearchUnreachable | AccompanimentRoutes.Dispatch |

=== FILE: accompaniment_routes.dfy ===
/**
 * Accompaniments: the adults who ride a school's vehicles. Every route
 * acts for the caller's tenant (a school, or the school of a guard);
 * a vehicle lists its accompaniments in `accompaniments`.
 */
module AccompanimentRoutes {
  import opened Common
  import opened Jwt
  import opened Store
  import opened Tenant
  import TransportationRoutes

  predicate EmailTaken(accompaniments: map<Id, AccompanimentDoc>, email: string)
  {
    exists a :: a in accompaniments && accompaniments[a].email == email
  }

  predicate OwnAccompaniment(accompaniments: map<Id, AccompanimentDoc>, id: Id, school: Id)
  {
    id in accompaniments && accompaniments[id].school == school
  }

  /** The accompaniment file requires the Guard model, so a guard without a
    * record makes `getSchoolId` throw. */
  function SchoolOf(user: AuthContext, guards: map<Id, GuardDoc>): Tenant
  {
    GetSchoolId(user, guards, true)
  }

  /** POST /accompaniments. The email must not be used by an accompaniment
    * of any school. */
  method Create(db: Db, user: AuthContext, email: string, fields: Fields, newId: Id) returns (status: int)
    requires Admits(VerifyGuardOrSchool, user.rol)
    requires newId !in db.accompaniments
    modifies db`accompaniments
    ensures !SchoolOf(user, db.guards).InSchool? ==> status == TenantError(SchoolOf(user, db.guards))
    ensures status == Created <==> SchoolOf(user, db.guards).InSchool? && !EmailTaken(old(db.accompaniments), email)
    ensures SchoolOf(user, db.guards).InSchool? && EmailTaken(old(db.accompaniments), email) ==> status == BadRequest
    ensures status != Created ==> db.accompaniments == old(db.accompaniments)
    ensures status == Created ==>
      db.accompaniments == old(db.accompaniments)[newId := AccompanimentDoc(SchoolOf(user, db.guards).school, email, fields)]
  {
    var t := SchoolOf(user, db.guards);
    if !t.InSchool? {
      return TenantError(t);
    }
    if EmailTaken(db.accompaniments, email) {
      return BadRequest;
    }
    db.accompaniments := db.accompaniments[newId := AccompanimentDoc(t.school, email, fields)];
    return Created;
  }

  /** GET /accompaniments. */
  function List(accompaniments: map<Id, AccompanimentDoc>, guards: map<Id, GuardDoc>, user: AuthContext): (r: Outcome<set<Id>>)
    requires Admits(VerifyGuardOrSchool, user.rol)
    ensures r.Done? <==> SchoolOf(user, guards).InSchool?
    ensures r.Refused? ==> r.status == TenantError(SchoolOf(user, guards))
    ensures r.Done? ==> forall a :: a in r.value <==> OwnAccompaniment(accompaniments, a, SchoolOf(user, guards).school)
  {
    var t := SchoolOf(user, guards);
    if !t.InSchool? then Refused(TenantError(t))
    else Done(set a | a in accompaniments && accompaniments[a].school == t.school)
  }

  /** GET /accompaniments/:id. */
  function Detail(accompaniments: map<Id, AccompanimentDoc>, guards: map<Id, GuardDoc>, user: AuthContext, id: Id)
    : (r: Outcome<AccompanimentDoc>)
    requires Admits(VerifyGuardOrSchool, user.rol)
    ensures !SchoolOf(user, guards).InSchool? ==> r == Refused(TenantError(SchoolOf(user, guards)))
    ensures r.Done? <==> SchoolOf(user, guards).InSchool? && OwnAccompaniment(accompaniments, id, SchoolOf(user, guards).school)
    ensures r.Done? ==> r.value == accompaniments[id]
    ensures SchoolOf(user, guards).InSchool? && r.Refused? ==> r.status == NotFound
  {
    var t := SchoolOf(user, guards);
    if !t.InSchool? then Refused(TenantError(t))
    else if OwnAccompaniment(accompaniments, id, t.school) then Done(accompaniments[id])
    else Refused(NotFound)
  }

  const TextKeys: set<string> :=
    {"firstName", "firstName_ar", "lastName", "lastName_ar", "phoneNumber", "address", "cin", "address_ar"}

  /** The accompaniment after PUT /accompaniments/:id; an empty `email` is
    * one not given. */
  function Patched(a: AccompanimentDoc, email: string, body: Fields): (r: AccompanimentDoc)
    ensures r.school == a.school
    ensures r.email == (if email != "" then email else a.email)
    ensures forall k :: k in a.fields && !Provided(body, k, TextKeys, {}) ==> k in r.fields && r.fields[k] == a.fields[k]
    ensures forall k :: Provided(body, k, TextKeys, {}) ==> k in r.fields && r.fields[k] == body[k]
  {
    a.(email := if email != "" then email else a.email, fields := MergeFields(a.fields, body, TextKeys, {}))
  }

  /** PUT /accompaniments/:id. */
  method Update(db: Db, user: AuthContext, id: Id, email: string, body: Fields) returns (status: int)
    requires Admits(VerifyGuardOrSchool, user.rol)
    modifies db`accompaniments
    ensures !SchoolOf(user, db.guards).InSchool? ==> status == TenantError(SchoolOf(user, db.guards))
    ensures SchoolOf(user, db.guards).InSchool? && !OwnAccompaniment(old(db.accompaniments), id, SchoolOf(user, db.guards).school)
      ==> status == NotFound
    ensures status == Ok <==>
      SchoolOf(user, db.guards).InSchool? && OwnAccompaniment(old(db.accompaniments), id, SchoolOf(user, db.guards).school)
      && !(email != "" && email != old(db.accompaniments)[id].email && EmailTaken(old(db.accompaniments), email))
    ensures status != Ok ==> db.accompaniments == old(db.accompaniments)
    ensures status == Ok ==>
      db.accompaniments == old(db.accompaniments)[id := Patched(old(db.accompaniments)[id], email, body)]
  {
    var t := SchoolOf(user, db.guards);
    if !t.InSchool? {
      return TenantError(t);
    }
    if !OwnAccompaniment(db.accompaniments, id, t.school) {
      return NotFound;
    }
    if email != "" && email != db.accompaniments[id].email && EmailTaken(db.accompaniments, email) {
      return BadRequest;
    }
    db.accompaniments := db.accompaniments[id := Patched(db.accompaniments[id], email, body)];
    return Ok;
  }

  /** `Transportation.updateMany({ accompaniments: a }, { $pull: { accompaniments: a } })`,
    * across every school. */
  function TransportsPullAccompaniment(transports: map<Id, TransportDoc>, a: Id): (r: map<Id, TransportDoc>)
    ensures r.Keys == transports.Keys
    ensures forall t :: t in r ==> r[t].(accompaniments := transports[t].accompaniments) == transports[t]
    ensures forall t, x :: t in r ==> (x in r[t].accompaniments <==> x in transports[t].accompaniments && x != a)
  {
    map t | t in transports :: transports[t].(accompaniments := Without(transports[t].accompaniments, a))
  }

  /** DELETE /accompaniments/:id. */
  method Delete(db: Db, user: AuthContext, id: Id) returns (status: int)
    requires Admits(VerifyGuardOrSchool, user.rol)
    modifies db`accompaniments, db`transports
    ensures !SchoolOf(user, db.guards).InSchool? ==> status == TenantError(SchoolOf(user, db.guards))
    ensures status == Ok <==>
      SchoolOf(user, db.guards).InSchool? && OwnAccompaniment(old(db.accompaniments), id, SchoolOf(user, db.guards).school)
    ensures SchoolOf(user, db.guards).InSchool? && status != Ok ==> status == NotFound
    ensures status != Ok ==> db.accompaniments == old(db.accompaniments) && db.transports == old(db.transports)
    ensures status == Ok ==>
      db.accompaniments == old(db.accompaniments) - {id}
      && db.transports == TransportsPullAccompaniment(old(db.transports), id)
  {
    var t := SchoolOf(user, db.guards);
    if !t.InSchool? {
      return TenantError(t);
    }
    if !OwnAccompaniment(db.accompaniments, id, t.school) {
      return NotFound;
    }
    db.transports := TransportsPullAccompaniment(db.transports, id);
    db.accompaniments := db.accompaniments - {id};
    return Ok;
  }

  /** The vehicle once accompaniment `a` rides it, and once it no longer does. */
  function Boarded(t: TransportDoc, a: Id): (r: TransportDoc)
    ensures r.accompaniments == t.accompaniments + [a]
    ensures r.(accompaniments := t.accompaniments) == t
  {
    t.(accompaniments := t.accompaniments + [a])
  }

  function Alighted(t: TransportDoc, a: Id): (r: TransportDoc)
    ensures forall x :: x in r.accompaniments <==> x in t.accompaniments && x != a
    ensures r.(accompaniments := t.accompaniments) == t
  {
    t.(accompaniments := Without(t.accompaniments, a))
  }

  /** Removing an accompaniment undoes assigning it. */
  lemma AlightUndoesBoard(t: TransportDoc, a: Id)
    requires a !in t.accompaniments
    ensures Alighted(Boarded(t, a), a) == t
  {
    WithoutAppended(t.accompaniments, a);
  }

  /** POST /transportations/:id/accompaniments. The id is checked before the
    * tenant; assigning twice is refused. */
  method Assign(db: Db, user: AuthContext, id: Id, accompanimentId: Option<Id>) returns (status: int)
    requires Admits(VerifyGuardOrSchool, user.rol)
    modifies db`transports
    ensures accompanimentId.None? ==> status == BadRequest
    ensures accompanimentId.Some? && !SchoolOf(user, db.guards).InSchool? ==> status == TenantError(SchoolOf(user, db.guards))
    ensures status == Ok <==>
      accompanimentId.Some? && SchoolOf(user, db.guards).InSchool?
      && TransportationRoutes.OwnVehicle(old(db.transports), id, SchoolOf(user, db.guards).school)
      && OwnAccompaniment(db.accompaniments, accompanimentId.value, SchoolOf(user, db.guards).school)
      && accompanimentId.value !in old(db.transports)[id].accompaniments
    ensures accompanimentId.Some? && SchoolOf(user, db.guards).InSchool?
      && TransportationRoutes.OwnVehicle(old(db.transports), id, SchoolOf(user, db.guards).school)
      && OwnAccompaniment(db.accompaniments, accompanimentId.value, SchoolOf(user, db.guards).school)
      && accompanimentId.value in old(db.transports)[id].accompaniments
      ==> status == BadRequest
    ensures accompanimentId.Some? && SchoolOf(user, db.guards).InSchool?
      && !(TransportationRoutes.OwnVehicle(old(db.transports), id, SchoolOf(user, db.guards).school)
           && OwnAccompaniment(db.accompaniments, accompanimentId.value, SchoolOf(user, db.guards).school))
      ==> status == NotFound
    ensures status != Ok ==> db.transports == old(db.transports)
    ensures status == Ok ==> db.transports == old(db.transports)[id := Boarded(old(db.transports)[id], accompanimentId.value)]
  {
    if accompanimentId.None? {
      return BadRequest;
    }
    var t := SchoolOf(user, db.guards);
    if !t.InSchool? {
      return TenantError(t);
    }
    if !TransportationRoutes.OwnVehicle(db.transports, id, t.school) {
      return NotFound;
    }
    var a := accompanimentId.value;
    if !OwnAccompaniment(db.accompaniments, a, t.school) {
      return NotFound;
    }
    if a in db.transports[id].accompaniments {
      return BadRequest;
    }
    db.transports := db.transports[id := Boarded(db.transports[id], a)];
    return Ok;
  }

  /** DELETE /transportations/:id/accompaniments/:accompanimentId. The
    * accompaniment itself is not looked up. */
  method Remove(db: Db, user: AuthContext, id: Id, accompanimentId: Id) returns (status: int)
    requires Admits(VerifyGuardOrSchool, user.rol)
    modifies db`transports
    ensures !SchoolOf(user, db.guards).InSchool? ==> status == TenantError(SchoolOf(user, db.guards))
    ensures status == Ok <==>
      SchoolOf(user, db.guards).InSchool? && TransportationRoutes.OwnVehicle(old(db.transports), id, SchoolOf(user, db.guards).school)
      && accompanimentId in old(db.transports)[id].accompaniments
    ensures SchoolOf(user, db.guards).InSchool? && TransportationRoutes.OwnVehicle(old(db.transports), id, SchoolOf(user, db.guards).school)
      && accompanimentId !in old(db.transports)[id].accompaniments
      ==> status == BadRequest
    ensures status != Ok ==> db.transports == old(db.transports)
    ensures status == Ok ==> db.transports == old(db.transports)[id := Alighted(old(db.transports)[id], accompanimentId)]
  {
    var t := SchoolOf(user, db.guards);
    if !t.InSchool? {
      return TenantError(t);
    }
    if !TransportationRoutes.OwnVehicle(db.transports, id, t.school) {
      return NotFound;
    }
    if accompanimentId !in db.transports[id].accompaniments {
      return BadRequest;
    }
    db.transports := db.transports[id := Alighted(db.transports[id], accompanimentId)];
    return Ok;
  }

  /** GET /accompaniments/:id/transportations: the tenant's vehicles that
    * the accompaniment rides. */
  function Transports(accompaniments: map<Id, AccompanimentDoc>, transports: map<Id, TransportDoc>,
                      guards: map<Id, GuardDoc>, user: AuthContext, id: Id): (r: Outcome<set<Id>>)
    requires Admits(VerifyGuardOrSchool, user.rol)
    ensures !SchoolOf(user, guards).InSchool? ==> r == Refused(TenantError(SchoolOf(user, guards)))
    ensures r.Done? <==> SchoolOf(user, guards).InSchool? && OwnAccompaniment(accompaniments, id, SchoolOf(user, guards).school)
    ensures SchoolOf(user, guards).InSchool? && r.Refused? ==> r.status == NotFound
    ensures r.Done? ==> forall t :: t in r.value <==>
      TransportationRoutes.OwnVehicle(transports, t, SchoolOf(user, guards).school) && id in transports[t].accompaniments
  {
    var s := SchoolOf(user, guards);
    if !s.InSchool? then Refused(TenantError(s))
    else if !OwnAccompaniment(accompaniments, id, s.school) then Refused(NotFound)
    else Done(set t | t in transports && transports[t].school == s.school && id in transports[t].accompaniments)
  }

  /** The GET routes of the accompaniment router. A request path is a
    * sequence of non-empty segments; `:id` matches any one segment. */
  datatype GetRoute =
    | ListRoute
    | DetailRoute(id: string)
    | TransportsRoute(id: string)
    | SearchRoute
    | Unmatched

  /** Express tries the routes in the order the file declares them: the
    * list, `/accompaniments/:id`, `/accompaniments/:id/transportations`,
    * and `/accompaniments/search` last. */
  function DispatchAsWritten(path: seq<string>): (r: GetRoute)
    ensures r == SearchRoute ==> path == ["accompaniments", "search"]
  {
    if path == ["accompaniments"] then ListRoute
    else if |path| == 2 && path[0] == "accompaniments" && path[1] != "" then DetailRoute(path[1])
    else if |path| == 3 && path[0] == "accompaniments" && path[1] != "" && path[2] == "transportations" then TransportsRoute(path[1])
    else if path == ["accompaniments", "search"] then SearchRoute
    else Unmatched
  }

  /** The search route is shadowed: its path is taken by the detail route,
    * which looks up an accompaniment whose id is "search". */
  lemma SearchUnreachable(path: seq<string>)
    ensures DispatchAsWritten(["accompaniments", "search"]) == DetailRoute("search")
    ensures DispatchAsWritten(path) != SearchRoute
  {
    assert ["accompaniments", "search"][1] == "search";
  }

  /** The dispatch with the search route declared before `/:id`. */
  function Dispatch(path: seq<string>): (r: GetRoute)
    ensures r == SearchRoute <==> path == ["accompaniments", "search"]
    ensures path != ["accompaniments", "search"] ==> r == DispatchAsWritten(path)
  {
    if path == ["accompaniments", "search"] then SearchRoute else DispatchAsWritten(path)
  }
}

=== FILE: activity_routes.dfy ===
/**
 * Activities offered by a school and their participants. Registration
 * checks, in this order, that the activity exists, is active, has room and
 * does not list the student yet; deregistration filters the student out.
 */
module ActivityRoutes {
  import opened Common
  import opened Jwt
  import opened Store

  /** The capacity test `participants.length >= capacity`: an activity
    * without a capacity is never full. */
  predicate Full(a: ActivityDoc)
  {
    a.capacity.Some? && |a.participants| >= a.capacity.value
  }

  /** No more participants than the capacity allows. */
  predicate WithinCapacity(a: ActivityDoc)
  {
    a.capacity.Some? ==> |a.participants| <= a.capacity.value
  }

  /** The status a registration of `s` for activity `id` is refused with,
    * or None when it goes ahead. */
  function RegisterRefusal(activities: map<Id, ActivityDoc>, id: Id, s: Id): (r: Option<int>)
    ensures r.None? <==>
      id in activities && activities[id].isActive && !Full(activities[id]) && s !in activities[id].participants
    ensures r == Some(NotFound) <==> id !in activities
    ensures r.Some? ==> r.value == NotFound || r.value == BadRequest
  {
    if id !in activities then Some(NotFound)
    else if !activities[id].isActive then Some(BadRequest)
    else if Full(activities[id]) then Some(BadRequest)
    else if s in activities[id].participants then Some(BadRequest)
    else None
  }

  /** `participants.push(s)`. */
  function Joined(a: ActivityDoc, s: Id): (r: ActivityDoc)
    ensures r.participants == a.participants + [s]
    ensures r == a.(participants := r.participants)
  {
    a.(participants := a.participants + [s])
  }

  /** A registration that goes ahead never overfills the activity and never
    * lists a student twice. */
  lemma RegisterKeepsBounds(activities: map<Id, ActivityDoc>, id: Id, s: Id)
    requires RegisterRefusal(activities, id, s).None?
    ensures WithinCapacity(Joined(activities[id], s))
    ensures NoDup(activities[id].participants) ==> NoDup(Joined(activities[id], s).participants)
  {
    var p := activities[id].participants;
    if NoDup(p) {
      forall i, j | 0 <= i < j < |p + [s]| ensures (p + [s])[i] != (p + [s])[j] {
        if j == |p| {
          assert (p + [s])[i] == p[i];
        }
      }
    }
  }

  /** Deregistering right after a registration gives the old list back. */
  lemma DeregisterUndoesRegister(activities: map<Id, ActivityDoc>, id: Id, s: Id)
    requires RegisterRefusal(activities, id, s).None?
    ensures Without(Joined(activities[id], s).participants, s) == activities[id].participants
  {
    WithoutAppended(activities[id].participants, s);
  }

  /** POST /activities. The body's fields are kept but `school` is always
    * the caller. */
  method Create(db: Db, user: AuthContext, body: ActivityDoc, newId: Id) returns (status: int)
    requires Admits(VerifySchool, user.rol)
    requires newId !in db.activities
    modifies db`activities
    ensures status == Created
    ensures db.activities == old(db.activities)[newId := body.(school := user.id)]
    ensures db.activities[newId].school == user.id
  {
    db.activities := db.activities[newId := body.(school := user.id)];
    return Created;
  }

  /** The query string of GET /activities; `today` is the clock reading
    * `new Date()` stands for. */
  datatype ListQuery = ListQuery(
    school: Option<Id>, category: string, active: string, upcoming: string, today: Day)

  /** The filter GET /activities builds: one constraint per provided
    * query parameter. */
  datatype ActivityFilter = ActivityFilter(
    school: Option<Id>, category: Option<string>, activeOnly: bool, endsFrom: Option<Day>)

  function BuildFilter(q: ListQuery): (f: ActivityFilter)
    ensures f.school == q.school
    ensures f.category.Some? <==> q.category != ""
    ensures f.category.Some? ==> f.category.value == q.category
    ensures f.activeOnly <==> q.active == "true"
    ensures f.endsFrom.Some? <==> q.upcoming == "true"
    ensures f.endsFrom.Some? ==> f.endsFrom.value == q.today
  {
    ActivityFilter(
      q.school,
      if q.category != "" then Some(q.category) else None,
      q.active == "true",
      if q.upcoming == "true" then Some(q.today) else None)
  }

  predicate Matches(a: ActivityDoc, f: ActivityFilter)
  {
    (f.school.Some? ==> a.school == f.school.value)
    && (f.category.Some? ==> a.category == f.category)
    && (f.activeOnly ==> a.isActive)
    && (f.endsFrom.Some? ==> a.endDate.Some? && a.endDate.value >= f.endsFrom.value)
  }

  /** GET /activities (public). */
  function List(activities: map<Id, ActivityDoc>, q: ListQuery): (r: set<Id>)
    ensures forall a :: a in r <==> a in activities && Matches(activities[a], BuildFilter(q))
  {
    set a | a in activities && Matches(activities[a], BuildFilter(q))
  }

  /** An empty query string lists every activity. */
  lemma EmptyQueryListsAll(activities: map<Id, ActivityDoc>, today: Day)
    ensures List(activities, ListQuery(None, "", "", "", today)) == activities.Keys
  {
  }

  /** GET /school/activities: the caller's activities. */
  function Mine(activities: map<Id, ActivityDoc>, user: AuthContext): (r: set<Id>)
    requires Admits(VerifySchool, user.rol)
    ensures forall a :: a in r <==> a in activities && activities[a].school == user.id
  {
    set a | a in activities && activities[a].school == user.id
  }

  /** GET /activities/:id (public). */
  function Detail(activities: map<Id, ActivityDoc>, id: Id): (r: Outcome<ActivityDoc>)
    ensures r.Done? <==> id in activities
    ensures r.Done? ==> r.value == activities[id]
    ensures r.Refused? ==> r.status == NotFound
  {
    if id in activities then Done(activities[id]) else Refused(NotFound)
  }

  /** The body of PUT /activities/:id, applied with `$set`: every given
    * field is overwritten, `school` and `participants` included. */
  datatype ActivityPatch = ActivityPatch(
    school: Option<Id>,
    participants: Option<seq<Id>>,
    capacity: Option<int>,
    isActive: Option<bool>,
    category: Option<string>,
    endDate: Option<Day>,
    fields: Fields)

  function Patched(a: ActivityDoc, p: ActivityPatch): (r: ActivityDoc)
    ensures p.school.Some? ==> r.school == p.school.value
    ensures p.school.None? ==> r.school == a.school
    ensures p.participants.Some? ==> r.participants == p.participants.value
    ensures p.participants.None? ==> r.participants == a.participants
    ensures r.capacity == (if p.capacity.Some? then p.capacity else a.capacity)
    ensures r.isActive == p.isActive.GetOr(a.isActive)
    ensures r.category == (if p.category.Some? then p.category else a.category)
    ensures r.endDate == (if p.endDate.Some? then p.endDate else a.endDate)
    ensures forall k :: k in r.fields <==> k in a.fields || k in p.fields
    ensures forall k :: k in p.fields ==> r.fields[k] == p.fields[k]
    ensures forall k :: k in a.fields && k !in p.fields ==> r.fields[k] == a.fields[k]
  {
    ActivityDoc(
      p.school.GetOr(a.school),
      p.participants.GetOr(a.participants),
      if p.capacity.Some? then p.capacity else a.capacity,
      p.isActive.GetOr(a.isActive),
      if p.category.Some? then p.category else a.category,
      if p.endDate.Some? then p.endDate else a.endDate,
      a.fields + p.fields)
  }

  /** PUT /activities/:id: 404 for a missing activity, 403 for another
    * school's. */
  method Update(db: Db, user: AuthContext, id: Id, patch: ActivityPatch) returns (status: int)
    requires Admits(VerifySchool, user.rol)
    modifies db`activities
    ensures id !in old(db.activities) ==> status == NotFound
    ensures id in old(db.activities) && old(db.activities)[id].school != user.id ==> status == Forbidden
    ensures status == Ok <==> id in old(db.activities) && old(db.activities)[id].school == user.id
    ensures status == Ok ==> db.activities == old(db.activities)[id := Patched(old(db.activities)[id], patch)]
    ensures status != Ok ==> db.activities == old(db.activities)
  {
    if id !in db.activities {
      return NotFound;
    }
    if db.activities[id].school != user.id {
      return Forbidden;
    }
    db.activities := db.activities[id := Patched(db.activities[id], patch)];
    return Ok;
  }

  /** The owner may hand its activity to another school through the
    * update body. */
  lemma UpdateCanMoveSchool(a: ActivityDoc, other: Id)
    ensures Patched(a, ActivityPatch(Some(other), None, None, None, None, None, map[])).school == other
  {
  }

  /** DELETE /activities/:id: a school only its own, an admin any. The
    * students that list the activity keep listing it. */
  method Delete(db: Db, user: AuthContext, id: Id) returns (status: int)
    requires Admits(VerifySchoolOrAdmin, user.rol)
    modifies db`activities
    ensures id !in old(db.activities) ==> status == NotFound
    ensures status == Ok <==>
      id in old(db.activities) && (user.rol == School ==> old(db.activities)[id].school == user.id)
    ensures status != Ok ==> db.activities == old(db.activities) && (status == NotFound || status == Forbidden)
    ensures status == Ok ==> db.activities == old(db.activities) - {id}
    ensures db.students == old(db.students)
  {
    if id !in db.activities {
      return NotFound;
    }
    if user.rol == School && db.activities[id].school != user.id {
      return Forbidden;
    }
    db.activities := db.activities - {id};
    return Ok;
  }

  /** POST /activities/:id/register (no authentication). The student id is
    * taken from the body as given. */
  method Register(db: Db, id: Id, studentId: Id) returns (status: int)
    modifies db`activities
    ensures status == Ok <==> RegisterRefusal(old(db.activities), id, studentId).None?
    ensures status != Ok ==>
      status == RegisterRefusal(old(db.activities), id, studentId).value && db.activities == old(db.activities)
    ensures status == Ok ==>
      db.activities == old(db.activities)[id := Joined(old(db.activities)[id], studentId)]
      && WithinCapacity(db.activities[id])
  {
    var refusal := RegisterRefusal(db.activities, id, studentId);
    if refusal.Some? {
      return refusal.value;
    }
    RegisterKeepsBounds(db.activities, id, studentId);
    db.activities := db.activities[id := Joined(db.activities[id], studentId)];
    return Ok;
  }

  /** POST /activities/:id/deregister (no authentication). Without a
    * student id in the body nothing is filtered out. */
  method Deregister(db: Db, id: Id, studentId: Option<Id>) returns (status: int)
    modifies db`activities
    ensures status == Ok <==> id in old(db.activities)
    ensures status != Ok ==> status == NotFound && db.activities == old(db.activities)
    ensures status == Ok && studentId.Some? ==>
      db.activities == old(db.activities)[id := old(db.activities)[id].(
        participants := Without(old(db.activities)[id].participants, studentId.value))]
      && studentId.value !in db.activities[id].participants
    ensures studentId.None? ==> db.activities == old(db.activities)
  {
    if id !in db.activities {
      return NotFound;
    }
    if studentId.Some? {
      var a := db.activities[id];
      db.activities := db.activities[id := a.(participants := Without(a.participants, studentId.value))];
    }
    return Ok;
  }
}

=== FILE: attendance.dfy ===
/**
 * Subject attendance sheets: one sheet per subject and date, holding one
 * record per student and a summary counting each status. None of these
 * routes has authentication middleware, so `user` is None unless some
 * other layer sets `req.user`; reading `req.user.rol` then raises a
 * TypeError and the handler answers 500.
 */
module AttendanceRoutes {
  import opened Common
  import opened Jwt
  import opened Store

  /** How many records carry status `st`. */
  function CountStatus(records: seq<AttRecord>, st: AttStatus): (n: nat)
    ensures n <= |records|
  {
    if records == [] then 0
    else
      CountStatus(records[..|records| - 1], st)
        + (if records[|records| - 1].status == Some(st) then 1 else 0)
  }

  /** The summary `records.forEach(r => summary[r.status]++)` builds. A
    * status outside the four counted ones increments a key the summary
    * does not keep. */
  function SummaryOf(records: seq<AttRecord>): Summary
  {
    Summary(
      CountStatus(records, Present), CountStatus(records, Absent),
      CountStatus(records, Late), CountStatus(records, Excused))
  }

  function Total(s: Summary): nat
  {
    s.present + s.absent + s.late + s.excused
  }

  predicate Counted(st: Option<AttStatus>)
  {
    st == Some(Present) || st == Some(Absent) || st == Some(Late) || st == Some(Excused)
  }

  /** Every record is counted at most once, and exactly once when its
    * status is one of the four the summary keeps. */
  lemma {:induction false} SummaryTotal(records: seq<AttRecord>)
    ensures Total(SummaryOf(records)) <= |records|
    ensures (forall i :: 0 <= i < |records| ==> Counted(records[i].status)) ==>
      Total(SummaryOf(records)) == |records|
  {
    if records != [] {
      var init := records[..|records| - 1];
      SummaryTotal(init);
      assert forall i :: 0 <= i < |init| ==> init[i] == records[i];
    }
  }

  /** Two present and one absent record give {present: 2, absent: 1}. */
  lemma SummaryExample(a: Id, b: Id, c: Id)
    ensures SummaryOf([AttRecord(Some(a), Some(Present), None), AttRecord(Some(b), Some(Present), None),
                       AttRecord(Some(c), Some(Absent), None)])
         == Summary(2, 1, 0, 0)
  {
    var rs := [AttRecord(Some(a), Some(Present), None), AttRecord(Some(b), Some(Present), None),
               AttRecord(Some(c), Some(Absent), None)];
    var r2, r1 := rs[..2], rs[..1];
    assert rs[..|rs| - 1] == r2 && r2[..|r2| - 1] == r1 && r1[..|r1| - 1] == [];
    assert CountStatus(r1, Present) == 1 && CountStatus(r1, Absent) == 0;
    assert CountStatus(r1, Late) == 0 && CountStatus(r1, Excused) == 0;
    assert CountStatus(r2, Present) == 2 && CountStatus(r2, Absent) == 0;
    assert CountStatus(r2, Late) == 0 && CountStatus(r2, Excused) == 0;
  }

  /** The summary loop of the create and update handlers. */
  method TallyAttendance(records: seq<AttRecord>) returns (summary: Summary)
    ensures summary == SummaryOf(records)
  {
    summary := Summary(0, 0, 0, 0);
    var i := 0;
    while i < |records|
      invariant 0 <= i <= |records|
      invariant summary == SummaryOf(records[..i])
    {
      assert records[..i + 1][..i] == records[..i];
      match records[i].status {
        case Some(Present) => summary := summary.(present := summary.present + 1);
        case Some(Absent) => summary := summary.(absent := summary.absent + 1);
        case Some(Late) => summary := summary.(late := summary.late + 1);
        case Some(Excused) => summary := summary.(excused := summary.excused + 1);
        case _ =>
      }
      i := i + 1;
    }
    assert records[..|records|] == records;
  }

  /** A record names a student and a status. */
  predicate Complete(r: AttRecord)
  {
    r.student.Some? && r.status.Some?
  }

  /** A record is accepted for a sheet of `school`. */
  predicate RecordValid(r: AttRecord, students: map<Id, StudentDoc>, school: Id)
  {
    Complete(r) && r.student.value in students && students[r.student.value].school == school
  }

  /** The status a rejected record draws: 400 when a field is missing,
    * 404 when the student is not one of the school's. */
  function RecordError(r: AttRecord): int
  {
    if Complete(r) then NotFound else BadRequest
  }

  predicate AllValid(records: seq<AttRecord>, students: map<Id, StudentDoc>, school: Id)
  {
    forall i :: 0 <= i < |records| ==> RecordValid(records[i], students, school)
  }

  /** The status of the first rejected record, or None when every record
    * is accepted. */
  function FirstRecordError(records: seq<AttRecord>, students: map<Id, StudentDoc>, school: Id): (r: Option<int>)
    ensures r.None? <==> AllValid(records, students, school)
    ensures r.Some? ==>
      exists i :: 0 <= i < |records| && !RecordValid(records[i], students, school)
                  && AllValid(records[..i], students, school) && r.value == RecordError(records[i])
  {
    if records == [] then None
    else if !RecordValid(records[0], students, school) then
      assert AllValid(records[..0], students, school);
      Some(RecordError(records[0]))
    else
      var rest := FirstRecordError(records[1..], students, school);
      assert forall i :: 1 <= i < |records| ==> records[1..][i - 1] == records[i];
      assert forall i :: 1 <= i <= |records| ==> records[..i] == [records[0]] + records[1..][..i - 1];
      rest
  }

  /** The `for (const record of records)` check loop. */
  method CheckRecords(records: seq<AttRecord>, students: map<Id, StudentDoc>, school: Id)
    returns (error: Option<int>)
    ensures error == FirstRecordError(records, students, school)
  {
    var i := 0;
    while i < |records|
      invariant 0 <= i <= |records|
      invariant FirstRecordError(records[i..], students, school) == FirstRecordError(records, students, school)
    {
      if !RecordValid(records[i], students, school) {
        return Some(RecordError(records[i]));
      }
      assert records[i..][1..] == records[i + 1..];
      i := i + 1;
    }
    return None;
  }

  /** `subject` is one of the subjects `teacher` is assigned to. */
  predicate Teaches(subjects: map<Id, SubjectDoc>, subject: Id, teacher: Id)
  {
    subject in subjects && teacher in subjects[subject].teachers
  }

  predicate OwnsSubject(subjects: map<Id, SubjectDoc>, subject: Id, school: Id)
  {
    subject in subjects && subjects[subject].school == school
  }

  /** POST /attendance. A school or guard caller names the teacher in the
    * body and the handler looks it up through `Teacher`, which this file
    * never requires: that path raises a ReferenceError (500), and without a
    * teacher it answers 400, so only teachers ever create a sheet. */
  method Create(db: Db, user: Option<AuthContext>, date: Option<Day>, subject: Option<Id>,
                records: Option<seq<AttRecord>>, teacher: Option<Id>, newId: Id)
    returns (status: int)
    requires newId !in db.attendances
    modifies db`attendances
    ensures date.None? || subject.None? || records.None? || |records.value| == 0 ==> status == BadRequest
    ensures date.Some? && subject.Some? && records.Some? && |records.value| > 0 && user.None? ==>
      status == ServerError
    ensures status == Created <==>
      date.Some? && subject.Some? && records.Some? && |records.value| > 0 && user.Some?
      && user.value.rol == Teacher && Teaches(db.subjects, subject.value, user.value.id)
      && AllValid(records.value, db.students, db.subjects[subject.value].school)
    ensures status == Created ==>
      db.attendances == old(db.attendances)[newId := AttendanceDoc(date.value, subject.value,
        db.subjects[subject.value].school, Some(user.value.id), records.value, SummaryOf(records.value))]
    ensures status != Created ==> db.attendances == old(db.attendances)
    ensures date.Some? && subject.Some? && records.Some? && |records.value| > 0 && user.Some? ==>
      var u := user.value;
      (u.rol == Teacher && !Teaches(db.subjects, subject.value, u.id) ==> status == Forbidden)
      && (u.rol == School ==>
            status == if !OwnsSubject(db.subjects, subject.value, u.id) then Forbidden
                      else if teacher.Some? then ServerError else BadRequest)
      && (u.rol == Guard ==>
            status == if u.id !in db.guards then NotFound
                      else if !OwnsSubject(db.subjects, subject.value, db.guards[u.id].school) then Forbidden
                      else if teacher.Some? then ServerError else BadRequest)
      && (u.rol == Admin || u.rol == Student || u.rol == Parent ==> status == Forbidden)
    // a teacher of the subject whose records fail the check gets the first rejected record's status
    ensures date.Some? && subject.Some? && records.Some? && |records.value| > 0 && user.Some?
      && user.value.rol == Teacher && Teaches(db.subjects, subject.value, user.value.id)
      && !AllValid(records.value, db.students, db.subjects[subject.value].school)
      ==> status == FirstRecordError(records.value, db.students, db.subjects[subject.value].school).value
  {
    if date.None? || subject.None? || records.None? || |records.value| == 0 {
      return BadRequest;
    }
    if user.None? {
      return ServerError;
    }
    var u := user.value;
    if u.rol == Teacher {
      if !Teaches(db.subjects, subject.value, u.id) {
        return Forbidden;
      }
    } else if u.rol == School {
      if !OwnsSubject(db.subjects, subject.value, u.id) {
        return Forbidden;
      }
      return if teacher.Some? then ServerError else BadRequest;
    } else if u.rol == Guard {
      if u.id !in db.guards {
        return NotFound;
      }
      if !OwnsSubject(db.subjects, subject.value, db.guards[u.id].school) {
        return Forbidden;
      }
      return if teacher.Some? then ServerError else BadRequest;
    } else {
      return Forbidden;
    }
    var school := db.subjects[subject.value].school;
    var error := CheckRecords(records.value, db.students, school);
    if error.Some? {
      return error.value;
    }
    var summary := TallyAttendance(records.value);
    db.attendances := db.attendances[newId := AttendanceDoc(date.value, subject.value, school, Some(u.id),
                                                            records.value, summary)];
    return Created;
  }

  /** Which sheets a caller may update, delete or list by date. */
  datatype Scope = OwnSheets(teacher: Id) | SchoolSheets(school: Id) | NoScope(status: int)

  function SheetScope(user: AuthContext, guards: map<Id, GuardDoc>): (s: Scope)
    ensures s.NoScope? <==> !(user.rol == Teacher || user.rol == School || (user.rol == Guard && user.id in guards))
    ensures s.NoScope? ==> s.status == if user.rol == Guard then NotFound else Forbidden
    ensures s.SchoolSheets? ==>
      (user.rol == School && s.school == user.id) || (user.rol == Guard && s.school == guards[user.id].school)
    ensures s.OwnSheets? <==> user.rol == Teacher
    ensures s.OwnSheets? ==> s.teacher == user.id
  {
    match user.rol
    case Teacher => OwnSheets(user.id)
    case School => SchoolSheets(user.id)
    case Guard => if user.id in guards then SchoolSheets(guards[user.id].school) else NoScope(NotFound)
    case _ => NoScope(Forbidden)
  }

  predicate InScope(sheet: AttendanceDoc, scope: Scope)
  {
    match scope
    case OwnSheets(t) => sheet.teacher == Some(t)
    case SchoolSheets(s) => sheet.school == s
    case NoScope(_) => false
  }

  /** PUT /attendance/:id: replaces the records and recomputes the summary.
    * An empty records array is accepted; the records are checked against
    * the school of the sheet. */
  method Update(db: Db, user: Option<AuthContext>, id: Id, records: Option<seq<AttRecord>>)
    returns (status: int)
    modifies db`attendances
    ensures records.None? ==> status == BadRequest
    ensures records.Some? && user.None? ==> status == ServerError
    ensures records.Some? && user.Some? && SheetScope(user.value, db.guards).NoScope? ==>
      status == SheetScope(user.value, db.guards).status
    ensures records.Some? && user.Some? && !SheetScope(user.value, db.guards).NoScope?
      && !(id in db.attendances && InScope(db.attendances[id], SheetScope(user.value, db.guards)))
      ==> status == NotFound
    ensures status == Ok <==>
      records.Some? && user.Some? && id in old(db.attendances)
      && InScope(old(db.attendances)[id], SheetScope(user.value, db.guards))
      && AllValid(records.value, db.students, old(db.attendances)[id].school)
    ensures status == Ok ==>
      db.attendances == old(db.attendances)[id := old(db.attendances)[id].(
        records := records.value, summary := SummaryOf(records.value))]
    ensures status != Ok ==> db.attendances == old(db.attendances)
    ensures records.Some? && user.Some? && id in old(db.attendances)
      && InScope(old(db.attendances)[id], SheetScope(user.value, db.guards))
      && !AllValid(records.value, db.students, old(db.attendances)[id].school)
      ==> status == FirstRecordError(records.value, db.students, old(db.attendances)[id].school).value
  {
    if records.None? {
      return BadRequest;
    }
    if user.None? {
      return ServerError;
    }
    var scope := SheetScope(user.value, db.guards);
    if scope.NoScope? {
      return scope.status;
    }
    if !(id in db.attendances && InScope(db.attendances[id], scope)) {
      return NotFound;
    }
    var sheet := db.attendances[id];
    var error := CheckRecords(records.value, db.students, sheet.school);
    if error.Some? {
      return error.value;
    }
    var summary := TallyAttendance(records.value);
    db.attendances := db.attendances[id := sheet.(records := records.value, summary := summary)];
    return Ok;
  }

  /** DELETE /attendance/:id. */
  method Delete(db: Db, user: Option<AuthContext>, id: Id) returns (status: int)
    modifies db`attendances
    ensures user.None? ==> status == ServerError
    ensures status == Ok <==>
      user.Some? && id in old(db.attendances) && InScope(old(db.attendances)[id], SheetScope(user.value, db.guards))
    ensures status == Ok ==> db.attendances == old(db.attendances) - {id}
    ensures status != Ok ==> db.attendances == old(db.attendances)
    ensures user.Some? && SheetScope(user.value, db.guards).NoScope? ==>
      status == SheetScope(user.value, db.guards).status
    ensures user.Some? && !SheetScope(user.value, db.guards).NoScope?
      && !(id in old(db.attendances) && InScope(old(db.attendances)[id], SheetScope(user.value, db.guards)))
      ==> status == NotFound
  {
    if user.None? {
      return ServerError;
    }
    var scope := SheetScope(user.value, db.guards);
    if scope.NoScope? {
      return scope.status;
    }
    if !(id in db.attendances && InScope(db.attendances[id], scope)) {
      return NotFound;
    }
    db.attendances := db.attendances - {id};
    return Ok;
  }

  /** GET /attendance/subject/:subjectId: the sheets of one subject in the
    * date range, restricted to the caller's own sheets (teacher) or school
    * (school, guard) once the caller is shown to teach or own the subject. */
  function BySubject(attendances: map<Id, AttendanceDoc>, subjects: map<Id, SubjectDoc>,
                     guards: map<Id, GuardDoc>, user: Option<AuthContext>, subjectId: Id, range: DateRange)
    : (r: Outcome<set<Id>>)
    ensures user.None? ==> r == Refused(ServerError)
    ensures r.Done? ==> user.Some? && forall a :: a in r.value <==>
      a in attendances && attendances[a].subject == subjectId && InRange(attendances[a].date, range)
      && InScope(attendances[a], SheetScope(user.value, guards))
    ensures user.Some? ==> match user.value.rol
      case Teacher => (r.Done? <==> Teaches(subjects, subjectId, user.value.id)) && (r.Refused? ==> r.status == Forbidden)
      case School => (r.Done? <==> OwnsSubject(subjects, subjectId, user.value.id)) && (r.Refused? ==> r.status == Forbidden)
      case Guard =>
        if user.value.id !in guards then r == Refused(NotFound)
        else (r.Done? <==> OwnsSubject(subjects, subjectId, guards[user.value.id].school))
             && (r.Refused? ==> r.status == Forbidden)
      case _ => r == Refused(Forbidden)
  {
    if user.None? then Refused(ServerError)
    else
      var u := user.value;
      var allowed :=
        match u.rol
        case Teacher => if Teaches(subjects, subjectId, u.id) then None else Some(Forbidden)
        case School => if OwnsSubject(subjects, subjectId, u.id) then None else Some(Forbidden)
        case Guard =>
          if u.id !in guards then Some(NotFound)
          else if OwnsSubject(subjects, subjectId, guards[u.id].school) then None else Some(Forbidden)
        case _ => Some(Forbidden);
      if allowed.Some? then Refused(allowed.value)
      else
        var scope := SheetScope(u, guards);
        Done(set a | a in attendances && attendances[a].subject == subjectId
                     && InRange(attendances[a].date, range) && InScope(attendances[a], scope))
  }

  /** GET /attendance/date/:date: the sheets of one day in the caller's
    * scope; an unparsable date (None) is answered with 400. */
  function ByDate(attendances: map<Id, AttendanceDoc>, guards: map<Id, GuardDoc>,
                  user: Option<AuthContext>, date: Option<Day>)
    : (r: Outcome<set<Id>>)
    ensures date.None? ==> r == Refused(BadRequest)
    ensures date.Some? && user.None? ==> r == Refused(ServerError)
    ensures r.Done? ==> date.Some? && user.Some? && forall a :: a in r.value <==>
      a in attendances && attendances[a].date == date.value
      && InScope(attendances[a], SheetScope(user.value, guards))
    ensures date.Some? && user.Some? ==> var scope := SheetScope(user.value, guards);
      (r.Done? <==> !scope.NoScope?) && (scope.NoScope? ==> r == Refused(scope.status))
  {
    if date.None? then Refused(BadRequest)
    else if user.None? then Refused(ServerError)
    else
      var scope := SheetScope(user.value, guards);
      if scope.NoScope? then Refused(scope.status)
      else Done(set a | a in attendances && attendances[a].date == date.value && InScope(attendances[a], scope))
  }

  /** `record.records.find(r => r.student == studentId)`. */
  function FindRecord(records: seq<AttRecord>, student: Id): (r: Option<AttRecord>)
    ensures r.None? <==> forall i :: 0 <= i < |records| ==> records[i].student != Some(student)
    ensures r.Some? ==>
      exists i :: 0 <= i < |records| && records[i] == r.value && records[i].student == Some(student)
                  && forall j :: 0 <= j < i ==> records[j].student != Some(student)
  {
    if records == [] then None
    else if records[0].student == Some(student) then Some(records[0])
    else
      var r := FindRecord(records[1..], student);
      assert forall i :: 0 < i < |records| ==> records[1..][i - 1] == records[i];
      r
  }

  /** One entry of a student's attendance history. */
  datatype HistoryEntry = HistoryEntry(date: Day, subject: Id, teacher: Option<Id>,
                                       status: Option<AttStatus>, remarks: Option<string>)

  predicate Lists(sheet: AttendanceDoc, student: Id)
  {
    exists i :: 0 <= i < |sheet.records| && sheet.records[i].student == Some(student)
  }

  function EntryOf(sheet: AttendanceDoc, student: Id): HistoryEntry
  {
    var rec := FindRecord(sheet.records, student);
    HistoryEntry(sheet.date, sheet.subject, sheet.teacher,
      if rec.Some? then rec.value.status else None,
      if rec.Some? then rec.value.remarks else None)
  }

  /** GET /attendance/student/:studentId: one entry per sheet listing the
    * student. The date range only applies when both bounds are given. A
    * parent caller reaches `Parent.findById`, and `Parent` is never
    * required in this file: 500. A school or guard asking about another
    * school's student is refused with 403, not 404. */
  function StudentHistory(attendances: map<Id, AttendanceDoc>, students: map<Id, StudentDoc>,
                          subjects: map<Id, SubjectDoc>, guards: map<Id, GuardDoc>,
                          user: Option<AuthContext>, studentId: Id, range: DateRange)
    : (r: Outcome<map<Id, HistoryEntry>>)
    ensures studentId !in students ==> r == Refused(NotFound)
    ensures studentId in students && user.None? ==> r == Refused(ServerError)
    ensures studentId in students && user.Some? ==> match user.value.rol
      case Parent => r == Refused(ServerError)
      case School => if students[studentId].school != user.value.id then r == Refused(Forbidden) else r.Done?
      case Guard =>
        if user.value.id !in guards then r == Refused(NotFound)
        else if students[studentId].school != guards[user.value.id].school then r == Refused(Forbidden)
        else r.Done?
      case Admin => r == Refused(Forbidden)
      case Student => r == Refused(Forbidden)
      case Teacher => r.Done?
    ensures r.Done? ==> forall a :: a in r.value <==>
      a in attendances && Lists(attendances[a], studentId)
      && (range.start.Some? && range.end.Some? ==> InRange(attendances[a].date, range))
      && (user.value.rol == Teacher ==> Teaches(subjects, attendances[a].subject, user.value.id))
    ensures r.Done? ==> forall a :: a in r.value ==>
      FindRecord(attendances[a].records, studentId).Some? && r.value[a] == EntryOf(attendances[a], studentId)
  {
    if studentId !in students then Refused(NotFound)
    else if user.None? then Refused(ServerError)
    else
      var u := user.value;
      var student := students[studentId];
      var denied :=
        match u.rol
        case Parent => Some(ServerError)
        case School => if student.school != u.id then Some(Forbidden) else None
        case Teacher => None
        case Guard =>
          if u.id !in guards then Some(NotFound)
          else if student.school != guards[u.id].school then Some(Forbidden) else None
        case _ => Some(Forbidden);
      if denied.Some? then Refused(denied.value)
      else
        var effective := if range.start.Some? && range.end.Some? then range else DateRange(None, None);
        var hits := set a | a in attendances && Lists(attendances[a], studentId)
                           && InRange(attendances[a].date, effective)
                           && (u.rol == Teacher ==> Teaches(subjects, attendances[a].subject, u.id));
        var entries := map a | a in hits :: EntryOf(attendances[a], studentId);
        Done(entries)
  }
}

=== FILE: class_routes.dfy ===
/**
 * Classes: creation and update keep the reverse links on teachers and
 * subjects, enrolment keeps `Class.students` and `Student.class`, and two
 * read routes decode the bearer token themselves instead of using a gate.
 */
module ClassRoutes {
  import opened Common
  import opened Jwt
  import opened Store
  import opened Tenant
  import opened Links

  /** The body of POST /classes. Absent fields are None; a capacity of 0
    * is stored as given. */
  datatype ClassBody = ClassBody(
    capacity: Option<int>, teacher: Option<Id>, subjects: Option<seq<Id>>, cycle: Option<Id>, fields: Fields)

  /** Every class whose teacher exists is listed among that teacher's classes. */
  predicate TeacherLinks(classes: map<Id, ClassDoc>, teachers: map<Id, TeacherDoc>)
  {
    forall c :: c in classes && classes[c].teacher.Some? && classes[c].teacher.value in teachers ==>
      c in teachers[classes[c].teacher.value].classes
  }

  /** POST /classes. The teacher and subjects are linked without checking
    * that they belong to the school. */
  method Create(db: Db, user: AuthContext, body: ClassBody, newId: Id) returns (status: int)
    requires Admits(VerifyGuardOrSchool, user.rol)
    requires newId !in db.classes
    modifies db`classes, db`teachers, db`subjects
    ensures !GetSchoolId(user, db.guards, true).InSchool? ==>
      status == TenantError(GetSchoolId(user, db.guards, true))
      && db.classes == old(db.classes) && db.teachers == old(db.teachers) && db.subjects == old(db.subjects)
    ensures GetSchoolId(user, db.guards, true).InSchool? ==>
      status == Created
      && db.classes == old(db.classes)[newId := ClassDoc(GetSchoolId(user, db.guards, true).school, body.teacher,
           body.subjects.GetOr([]), [], body.capacity, body.cycle, body.fields)]
      && db.teachers == (if body.teacher.Some? then TeacherAddClass(old(db.teachers), body.teacher.value, newId)
                         else old(db.teachers))
      && db.subjects == SubjectsAddClass(old(db.subjects), Elems(body.subjects.GetOr([])), newId)
    // the new class appears in its teacher's and every listed subject's classes
    ensures status == Created && body.teacher.Some? && body.teacher.value in db.teachers ==>
      newId in db.teachers[body.teacher.value].classes
    ensures status == Created ==> forall s :: s in db.subjects && s in body.subjects.GetOr([]) ==>
      newId in db.subjects[s].classes
    ensures TeacherLinks(old(db.classes), old(db.teachers)) ==> TeacherLinks(db.classes, db.teachers)
  {
    var tenant := GetSchoolId(user, db.guards, true);
    if !tenant.InSchool? {
      return TenantError(tenant);
    }
    var subjects := body.subjects.GetOr([]);
    db.classes := db.classes[newId := ClassDoc(tenant.school, body.teacher, subjects, [], body.capacity,
                                               body.cycle, body.fields)];
    if body.teacher.Some? {
      db.teachers := TeacherAddClass(db.teachers, body.teacher.value, newId);
    }
    db.subjects := SubjectsAddClass(db.subjects, Elems(subjects), newId);
    return Created;
  }

  /** The body of PUT /classes/:id. `teacher` is None when absent and
    * Some(None) when given but falsy (the class then loses its teacher);
    * `subjects`, when present, replaces the list even when empty. */
  datatype ClassUpdate = ClassUpdate(
    capacity: Option<int>, cycle: Option<Id>, teacher: Option<Option<Id>>, subjects: Option<seq<Id>>,
    fields: Fields)

  /** Free-form fields copied when truthy, and `isActive` whenever given. */
  const TextKeys: set<string> := {"name", "grade", "section", "academicYear", "room", "schedule"}
  const FlagKeys: set<string> := {"isActive"}

  /** The class after `$set: updateObj`. */
  function Updated(c: ClassDoc, u: ClassUpdate): (r: ClassDoc)
    ensures r.school == c.school && r.students == c.students
    ensures u.teacher.None? ==> r.teacher == c.teacher
    ensures u.subjects.None? ==> r.subjects == c.subjects
    ensures u.capacity == Some(0) ==> r.capacity == c.capacity
  {
    c.(capacity := if u.capacity.Some? && u.capacity.value != 0 then u.capacity else c.capacity,
       cycle := if u.cycle.Some? then u.cycle else c.cycle,
       teacher := if u.teacher.Some? then u.teacher.value else c.teacher,
       subjects := if u.subjects.Some? then u.subjects.value else c.subjects,
       fields := MergeFields(c.fields, u.fields, TextKeys, FlagKeys))
  }

  /** The teachers after a teacher change: the class is pulled from the
    * previous teacher, then added to the new one. */
  function TeachersAfter(teachers: map<Id, TeacherDoc>, c: Id, old_: Option<Id>, new_: Option<Id>)
    : map<Id, TeacherDoc>
  {
    var pulled := if old_.Some? then TeacherPullClass(teachers, old_.value, c) else teachers;
    if new_.Some? then TeacherAddClass(pulled, new_.value, c) else pulled
  }

  /** After a teacher change the new teacher lists the class, a replaced
    * teacher no longer does, and no other teacher is touched. */
  lemma TeacherChangeMovesClass(teachers: map<Id, TeacherDoc>, c: Id, old_: Option<Id>, new_: Option<Id>)
    ensures var r := TeachersAfter(teachers, c, old_, new_);
      r.Keys == teachers.Keys
      && (new_.Some? && new_.value in teachers ==> c in r[new_.value].classes)
      && (old_.Some? && old_ != new_ && old_.value in teachers ==> c !in r[old_.value].classes)
      && (forall t :: t in teachers && Some(t) != old_ && Some(t) != new_ ==> r[t] == teachers[t])
  {
  }

  /** The subjects after a subject-list change: dropped subjects lose the
    * class, newly listed ones gain it. */
  function SubjectsAfter(subjects: map<Id, SubjectDoc>, c: Id, before: seq<Id>, after: seq<Id>)
    : map<Id, SubjectDoc>
  {
    SubjectsAddClass(SubjectsPullClass(subjects, Elems(Minus(before, after)), c), Elems(Minus(after, before)), c)
  }

  /** Replacing a class by one with the same teacher keeps the links. */
  lemma SameTeacherKeepsLinks(classes: map<Id, ClassDoc>, teachers: map<Id, TeacherDoc>, id: Id, d: ClassDoc)
    requires TeacherLinks(classes, teachers) && id in classes && d.teacher == classes[id].teacher
    ensures TeacherLinks(classes[id := d], teachers)
  {
    var after := classes[id := d];
    forall c | c in after && after[c].teacher.Some? && after[c].teacher.value in teachers
      ensures c in teachers[after[c].teacher.value].classes
    {
      assert after[c].teacher == classes[c].teacher;
    }
  }

  /** Moving a class to teacher `nt` (pull from the old, add to the new)
    * keeps every class listed by its teacher. */
  lemma ReassignKeepsLinks(classes: map<Id, ClassDoc>, teachers: map<Id, TeacherDoc>, id: Id, d: ClassDoc)
    requires TeacherLinks(classes, teachers) && id in classes
    ensures TeacherLinks(classes[id := d], TeachersAfter(teachers, id, classes[id].teacher, d.teacher))
  {
    var after := classes[id := d];
    var ts := TeachersAfter(teachers, id, classes[id].teacher, d.teacher);
    var pulled := if classes[id].teacher.Some? then TeacherPullClass(teachers, classes[id].teacher.value, id) else teachers;
    forall c | c in after && after[c].teacher.Some? && after[c].teacher.value in ts
      ensures c in ts[after[c].teacher.value].classes
    {
      var t := after[c].teacher.value;
      if c != id {
        assert c in teachers[t].classes;
        assert c in pulled[t].classes;
      }
    }
  }

  /** After a subject-list change every newly listed subject lists the
    * class, every dropped one no longer does, and the others are untouched. */
  lemma SubjectChangeRelinks(subjects: map<Id, SubjectDoc>, c: Id, before: seq<Id>, after: seq<Id>)
    ensures var r := SubjectsAfter(subjects, c, before, after);
      r.Keys == subjects.Keys
      && (forall s :: s in subjects && s in after && s !in before ==> c in r[s].classes)
      && (forall s :: s in subjects && s in before && s !in after ==> c !in r[s].classes)
      && (forall s :: s in subjects && (s in before <==> s in after) ==> r[s] == subjects[s])
  {
  }

  predicate InSchool(classes: map<Id, ClassDoc>, id: Id, school: Id)
  {
    id in classes && classes[id].school == school
  }

  /** PUT /classes/:id. */
  method Update(db: Db, user: AuthContext, id: Id, u: ClassUpdate) returns (status: int)
    requires Admits(VerifyGuardOrSchool, user.rol)
    modifies db`classes, db`teachers, db`subjects
    ensures status == Ok <==>
      GetSchoolId(user, db.guards, true).InSchool? && InSchool(old(db.classes), id, GetSchoolId(user, db.guards, true).school)
    ensures status == Ok ==>
      var c := old(db.classes)[id];
      db.classes == old(db.classes)[id := Updated(c, u)]
      && db.teachers == (if u.teacher.Some? then TeachersAfter(old(db.teachers), id, c.teacher, u.teacher.value)
                         else old(db.teachers))
      && db.subjects == (if u.subjects.Some? then SubjectsAfter(old(db.subjects), id, c.subjects, u.subjects.value)
                         else old(db.subjects))
    ensures status != Ok ==>
      db.classes == old(db.classes) && db.teachers == old(db.teachers) && db.subjects == old(db.subjects)
    ensures TeacherLinks(old(db.classes), old(db.teachers)) ==> TeacherLinks(db.classes, db.teachers)
    ensures !GetSchoolId(user, db.guards, true).InSchool? ==> status == TenantError(GetSchoolId(user, db.guards, true))
    ensures GetSchoolId(user, db.guards, true).InSchool? && !InSchool(old(db.classes), id, GetSchoolId(user, db.guards, true).school) ==> status == NotFound
  {
    var tenant := GetSchoolId(user, db.guards, true);
    if !tenant.InSchool? {
      return TenantError(tenant);
    }
    if !InSchool(db.classes, id, tenant.school) {
      return NotFound;
    }
    var c := db.classes[id];
    if TeacherLinks(db.classes, db.teachers) {
      if u.teacher.Some? {
        ReassignKeepsLinks(db.classes, db.teachers, id, Updated(c, u));
      } else {
        SameTeacherKeepsLinks(db.classes, db.teachers, id, Updated(c, u));
      }
    }
    if u.teacher.Some? {
      db.teachers := TeachersAfter(db.teachers, id, c.teacher, u.teacher.value);
    }
    if u.subjects.Some? {
      db.subjects := SubjectsAfter(db.subjects, id, c.subjects, u.subjects.value);
    }
    db.classes := db.classes[id := Updated(c, u)];
    return Ok;
  }

  /** DELETE /classes/:id. Every student listed in the class loses its
    * class reference, even one whose reference names another class. */
  method Delete(db: Db, user: AuthContext, id: Id) returns (status: int)
    requires Admits(VerifyGuardOrSchool, user.rol)
    modifies db`classes, db`teachers, db`subjects, db`students
    ensures status == Ok <==>
      GetSchoolId(user, db.guards, true).InSchool? && InSchool(old(db.classes), id, GetSchoolId(user, db.guards, true).school)
    ensures status == Ok ==>
      var c := old(db.classes)[id];
      db.classes == old(db.classes) - {id}
      && db.teachers == (if c.teacher.Some? then TeacherPullClass(old(db.teachers), c.teacher.value, id)
                         else old(db.teachers))
      && db.subjects == SubjectsPullClass(old(db.subjects), Elems(c.subjects), id)
      && db.students == StudentsUnsetClass(old(db.students), Elems(c.students))
    ensures status != Ok ==>
      db.classes == old(db.classes) && db.teachers == old(db.teachers) && db.subjects == old(db.subjects)
      && db.students == old(db.students)
    ensures status == Ok ==> forall s :: s in db.subjects && s in old(db.classes)[id].subjects ==>
      id !in db.subjects[s].classes
    ensures TeacherLinks(old(db.classes), old(db.teachers)) ==> TeacherLinks(db.classes, db.teachers)
    ensures !GetSchoolId(user, db.guards, true).InSchool? ==> status == TenantError(GetSchoolId(user, db.guards, true))
    ensures GetSchoolId(user, db.guards, true).InSchool? && !InSchool(old(db.classes), id, GetSchoolId(user, db.guards, true).school) ==> status == NotFound
  {
    var tenant := GetSchoolId(user, db.guards, true);
    if !tenant.InSchool? {
      return TenantError(tenant);
    }
    if !InSchool(db.classes, id, tenant.school) {
      return NotFound;
    }
    var c := db.classes[id];
    if c.teacher.Some? {
      db.teachers := TeacherPullClass(db.teachers, c.teacher.value, id);
    }
    db.subjects := SubjectsPullClass(db.subjects, Elems(c.subjects), id);
    db.students := StudentsUnsetClass(db.students, Elems(c.students));
    db.classes := db.classes - {id};
    return Ok;
  }

  /** The capacity test `students.length >= capacity`: a class without a
    * capacity is never full. */
  predicate Full(c: ClassDoc)
  {
    c.capacity.Some? && |c.students| >= c.capacity.value
  }

  /** POST /classes/:id/students. The capacity test runs before the
    * membership test, so re-adding a member of a full class answers 400.
    * A class the student attended before keeps listing it. */
  method AddStudent(db: Db, user: AuthContext, id: Id, studentId: Option<Id>) returns (status: int)
    requires Admits(VerifyGuardOrSchool, user.rol)
    modifies db`classes, db`students
    ensures studentId.None? ==> status == BadRequest
    ensures status == Ok <==>
      studentId.Some? && GetSchoolId(user, db.guards, true).InSchool?
      && InSchool(old(db.classes), id, GetSchoolId(user, db.guards, true).school)
      && studentId.value in old(db.students) && old(db.students)[studentId.value].school == GetSchoolId(user, db.guards, true).school
      && !Full(old(db.classes)[id])
    ensures status == Ok && studentId.value !in old(db.classes)[id].students ==>
      db.classes == old(db.classes)[id := old(db.classes)[id].(students := old(db.classes)[id].students + [studentId.value])]
      && db.students == old(db.students)[studentId.value := old(db.students)[studentId.value].(classId := Some(id))]
    ensures status != Ok || studentId.value in old(db.classes)[id].students ==>
      db.classes == old(db.classes) && db.students == old(db.students)
    ensures (studentId.Some? && GetSchoolId(user, db.guards, true).InSchool?
             && InSchool(old(db.classes), id, GetSchoolId(user, db.guards, true).school)
             && studentId.value in old(db.students)
             && old(db.students)[studentId.value].school == GetSchoolId(user, db.guards, true).school
             && Full(old(db.classes)[id]))
      ==> status == BadRequest
    ensures studentId.Some? && !GetSchoolId(user, db.guards, true).InSchool? ==> status == TenantError(GetSchoolId(user, db.guards, true))
    ensures studentId.Some? && GetSchoolId(user, db.guards, true).InSchool?
      && !(InSchool(old(db.classes), id, GetSchoolId(user, db.guards, true).school)
           && studentId.value in old(db.students) && old(db.students)[studentId.value].school == GetSchoolId(user, db.guards, true).school)
      ==> status == NotFound
  {
    if studentId.None? {
      return BadRequest;
    }
    var sid := studentId.value;
    var tenant := GetSchoolId(user, db.guards, true);
    if !tenant.InSchool? {
      return TenantError(tenant);
    }
    if !InSchool(db.classes, id, tenant.school) {
      return NotFound;
    }
    if !(sid in db.students && db.students[sid].school == tenant.school) {
      return NotFound;
    }
    var c := db.classes[id];
    if Full(c) {
      return BadRequest;
    }
    if sid !in c.students {
      db.classes := db.classes[id := c.(students := c.students + [sid])];
      db.students := db.students[sid := db.students[sid].(classId := Some(id))];
    }
    return Ok;
  }

  /** DELETE /classes/:id/students/:studentId. The student's class
    * reference is cleared whatever class it names and whichever school the
    * student belongs to. */
  method RemoveStudent(db: Db, user: AuthContext, id: Id, studentId: Id) returns (status: int)
    requires Admits(VerifyGuardOrSchool, user.rol)
    modifies db`classes, db`students
    ensures status == Ok <==>
      GetSchoolId(user, db.guards, true).InSchool? && InSchool(old(db.classes), id, GetSchoolId(user, db.guards, true).school)
    ensures status == Ok ==>
      db.classes == old(db.classes)[id := old(db.classes)[id].(students := Without(old(db.classes)[id].students, studentId))]
      && db.students == StudentsUnsetClass(old(db.students), {studentId})
      && studentId !in db.classes[id].students
    ensures status != Ok ==> db.classes == old(db.classes) && db.students == old(db.students)
    ensures !GetSchoolId(user, db.guards, true).InSchool? ==> status == TenantError(GetSchoolId(user, db.guards, true))
    ensures GetSchoolId(user, db.guards, true).InSchool? && !InSchool(old(db.classes), id, GetSchoolId(user, db.guards, true).school) ==> status == NotFound
  {
    var tenant := GetSchoolId(user, db.guards, true);
    if !tenant.InSchool? {
      return TenantError(tenant);
    }
    if !InSchool(db.classes, id, tenant.school) {
      return NotFound;
    }
    var c := db.classes[id];
    db.classes := db.classes[id := c.(students := Without(c.students, studentId))];
    db.students := StudentsUnsetClass(db.students, {studentId});
    return Ok;
  }

  /** GET /classes: the tenant's classes. */
  function List(classes: map<Id, ClassDoc>, tenant: Tenant): (r: Outcome<set<Id>>)
    ensures !tenant.InSchool? ==> r == Refused(TenantError(tenant))
    ensures r.Done? ==> forall c :: c in r.value <==> InSchool(classes, c, tenant.school)
  {
    if !tenant.InSchool? then Refused(TenantError(tenant))
    else Done(set c | c in classes && classes[c].school == tenant.school)
  }

  /** Who may look at a class: its teacher, its school, or a guard of its
    * school. */
  predicate Entitled(c: ClassDoc, guards: map<Id, GuardDoc>, u: AuthContext)
  {
    match u.rol
    case Teacher => c.teacher == Some(u.id)
    case School => c.school == u.id
    case Guard => u.id in guards && c.school == guards[u.id].school
    case _ => false
  }

  /** GET /classes/:id, which decodes the token itself: no header means
    * no access (403), a token that does not verify 401. A school or guard
    * sees its school's classes; a teacher sees a class whose teacher it is,
    * and is never answered 404. */
  function Detail(classes: map<Id, ClassDoc>, guards: map<Id, GuardDoc>, header: Option<string>,
                  verifier: Verifier, id: Id)
    : (r: Outcome<Id>)
    ensures Authenticate(header, verifier).NoHeader? ==> r == Refused(Forbidden)
    ensures Authenticate(header, verifier).InvalidToken? ==> r == Refused(Unauthorized)
    ensures r.Done? ==> r.value == id
    ensures Authenticate(header, verifier).Authenticated? ==> var u := Authenticate(header, verifier).user;
      (r.Done? <==> id in classes && Entitled(classes[id], guards, u))
      && (r.Refused? ==> r.status == if u.rol == School || (u.rol == Guard && u.id in guards) then NotFound
                                     else Forbidden)
  {
    match Authenticate(header, verifier)
    case NoHeader => Refused(Forbidden)
    case InvalidToken => Refused(Unauthorized)
    case Authenticated(u) =>
      match u.rol
      case School => if InSchool(classes, id, u.id) then Done(id) else Refused(NotFound)
      case Guard =>
        if u.id !in guards then Refused(Forbidden)
        else if InSchool(classes, id, guards[u.id].school) then Done(id) else Refused(NotFound)
      case Teacher =>
        if id in classes && classes[id].teacher == Some(u.id) then Done(id) else Refused(Forbidden)
      case _ => Refused(Forbidden)
  }

  /** GET /classes/:id/students: the existing students the class lists. */
  function Students(classes: map<Id, ClassDoc>, students: map<Id, StudentDoc>, guards: map<Id, GuardDoc>,
                    header: Option<string>, verifier: Verifier, id: Id)
    : (r: Outcome<set<Id>>)
    ensures !Authenticate(header, verifier).Authenticated? ==> r == Refused(Unauthorized)
    ensures Authenticate(header, verifier).Authenticated? && id !in classes ==> r == Refused(NotFound)
    ensures r.Done? ==> id in classes && forall s :: s in r.value <==> s in students && s in classes[id].students
    ensures Authenticate(header, verifier).Authenticated? && id in classes ==>
      if Entitled(classes[id], guards, Authenticate(header, verifier).user) then r.Done? else r == Refused(Forbidden)
  {
    match Authenticate(header, verifier)
    case NoHeader => Refused(Unauthorized)
    case InvalidToken => Refused(Unauthorized)
    case Authenticated(u) =>
      if id !in classes then Refused(NotFound)
      else
        var c := classes[id];
        if !Entitled(c, guards, u) then Refused(Forbidden)
        else Done(set s | s in students && s in c.students)
  }
}

=== FILE: common.dfy ===
/**
 * Values shared by every route module: identifiers, optional values, the
 * loosely typed request-body values the handlers test for truthiness, the
 * "copy the provided fields" merge the update handlers perform, and the
 * array operations Mongo updates ($addToSet, $pull) and `Array.filter`
 * perform on id lists.
 */
module Common {

  /** A document id (an ObjectId in the running system). */
  type Id = nat

  /** A calendar date, as a day number. */
  type Day = int

  datatype Option<T> = None | Some(value: T)
  {
    function GetOr(default: T): T
    {
      if this.Some? then this.value else default
    }
  }

  // HTTP status codes the handlers answer with
  const Ok: int := 200
  const Created: int := 201
  const BadRequest: int := 400
  const Unauthorized: int := 401
  const Forbidden: int := 403
  const NotFound: int := 404
  const ServerError: int := 500

  /** The answer of a read-only handler: the data sent back with 200, or
    * the error status. */
  datatype Outcome<T> = Done(value: T) | Refused(status: int)

  /** Optional `startDate` / `endDate` bounds of a query, both inclusive. */
  datatype DateRange = DateRange(start: Option<Day>, end: Option<Day>)

  predicate InRange(d: Day, range: DateRange)
  {
    (range.start.None? || range.start.value <= d) && (range.end.None? || d <= range.end.value)
  }

  /** A scalar value of a JSON request body. */
  datatype JsValue =
    | JsString(s: string)
    | JsNumber(n: int)
    | JsBool(b: bool)
    | JsNull
    | JsRef(ref: Id)

  /** JavaScript truthiness of a body value. */
  predicate Truthy(v: JsValue)
  {
    match v
    case JsString(s) => s != ""
    case JsNumber(n) => n != 0
    case JsBool(b) => b
    case JsNull => false
    case JsRef(_) => true
  }

  /** The free-form fields of a document, by name. */
  type Fields = map<string, JsValue>

  /** Whether an update body provides field `k`: keys in `truthyKeys` are
    * copied when present and truthy (`if (x) updateObj.x = x`), keys in
    * `definedKeys` whenever present (`if (x !== undefined) ...`). */
  predicate Provided(body: Fields, k: string, truthyKeys: set<string>, definedKeys: set<string>)
  {
    k in body && (k in definedKeys || (k in truthyKeys && Truthy(body[k])))
  }

  /** The document after `$set` of the update object built from `body`. */
  function MergeFields(doc: Fields, body: Fields, truthyKeys: set<string>, definedKeys: set<string>): (r: Fields)
    // a provided field takes the body's value
    ensures forall k :: Provided(body, k, truthyKeys, definedKeys) ==> k in r && r[k] == body[k]
    // every other field, including an absent or falsy one, keeps its old value
    ensures forall k :: !Provided(body, k, truthyKeys, definedKeys) ==>
      (k in r <==> k in doc) && (k in doc ==> r[k] == doc[k])
    // in particular fields outside both key sets are never written
    ensures forall k :: k !in truthyKeys && k !in definedKeys ==>
      (k in r <==> k in doc) && (k in doc ==> r[k] == doc[k])
  {
    doc + map k | k in body && Provided(body, k, truthyKeys, definedKeys) :: body[k]
  }

  /** Merging an update body twice is the same as merging it once. */
  lemma MergeIdempotent(doc: Fields, body: Fields, truthyKeys: set<string>, definedKeys: set<string>)
    ensures MergeFields(MergeFields(doc, body, truthyKeys, definedKeys), body, truthyKeys, definedKeys)
         == MergeFields(doc, body, truthyKeys, definedKeys)
  {
    var once := MergeFields(doc, body, truthyKeys, definedKeys);
    var twice := MergeFields(once, body, truthyKeys, definedKeys);
    assert forall k :: k in twice <==> k in once;
    assert forall k :: k in twice ==> twice[k] == once[k];
  }

  /** No id occurs twice. */
  predicate NoDup(s: seq<Id>)
  {
    forall i, j :: 0 <= i < j < |s| ==> s[i] != s[j]
  }

  /** `s.filter(e => e != x)`, which is also what `$pull: x` leaves. */
  function Without(s: seq<Id>, x: Id): (r: seq<Id>)
    ensures |r| <= |s|
    ensures forall y :: y in r <==> y in s && y != x
    ensures x !in s ==> r == s
    ensures x in s ==> |r| < |s|
    ensures NoDup(s) ==> NoDup(r)
  {
    if s == [] then []
    else if s[0] == x then Without(s[1..], x)
    else
      var rest := Without(s[1..], x);
      assert s == [s[0]] + s[1..];
      assert NoDup(s) ==> s[0] !in s[1..] && NoDup(s[1..]) by {
        if NoDup(s) {
          forall j | 0 <= j < |s[1..]| ensures s[1..][j] != s[0] {
            assert s[1..][j] == s[j + 1];
          }
        }
      }
      [s[0]] + rest
  }

  /** `$addToSet: x`, and also `if (!s.includes(x)) s.push(x)`. */
  function AddToSet(s: seq<Id>, x: Id): (r: seq<Id>)
    ensures forall y :: y in r <==> y in s || y == x
    ensures x in s ==> r == s
    ensures x !in s ==> |r| == |s| + 1 && r[..|s|] == s
    ensures NoDup(s) ==> NoDup(r)
  {
    if x in s then s else s + [x]
  }

  /** Adding then removing an id that was absent gives the list back. */
  lemma WithoutUndoesAddToSet(s: seq<Id>, x: Id)
    requires x !in s
    ensures Without(AddToSet(s, x), x) == s
  {
    WithoutAppended(s, x);
  }

  lemma {:induction false} WithoutAppended(s: seq<Id>, x: Id)
    requires x !in s
    ensures Without(s + [x], x) == s
  {
    if s == [] {
      assert [x][1..] == [];
    } else {
      assert (s + [x])[1..] == s[1..] + [x];
      WithoutAppended(s[1..], x);
    }
  }

  /** `a.filter(id => !b.includes(id))`, the ids to unlink or link when an
    * update replaces list `a` by list `b` (or the reverse). */
  function Minus(a: seq<Id>, b: seq<Id>): (r: seq<Id>)
    ensures |r| <= |a|
    ensures forall y :: y in r <==> y in a && y !in b
  {
    if a == [] then []
    else if a[0] in b then Minus(a[1..], b)
    else
      var rest := Minus(a[1..], b);
      assert a == [a[0]] + a[1..];
      [a[0]] + rest
  }

  /** Whether a sequence holds any id. */
  predicate Meets(a: seq<Id>, b: seq<Id>)
  {
    exists x :: x in a && x in b
  }

  /** The set of the ids listed in a sequence. */
  function Elems(s: seq<Id>): (r: set<Id>)
    ensures forall x :: x in r <==> x in s
  {
    set x | x in s
  }
}

=== FILE: cycle_routes.dfy ===
/**
 * A school's academic cycles. A cycle lists its classes in `classes`; a
 * class names its cycle in `cycle`.
 */
module CycleRoutes {
  import opened Common
  import opened Jwt
  import opened Store
  import opened Links
  import ClassRoutes

  /** Every class whose cycle exists is listed by that cycle. */
  predicate ClassCycleLinks(classes: map<Id, ClassDoc>, cycles: map<Id, CycleDoc>)
  {
    forall k :: k in classes && classes[k].cycle.Some? && classes[k].cycle.value in cycles
      ==> k in cycles[classes[k].cycle.value].classes
  }

  predicate OwnCycle(cycles: map<Id, CycleDoc>, id: Id, school: Id)
  {
    id in cycles && cycles[id].school == school
  }

  /** POST /cycles: a cycle of the caller's school, with no classes yet. */
  method Create(db: Db, user: AuthContext, fields: Fields, newId: Id) returns (status: int)
    requires Admits(VerifySchool, user.rol)
    requires newId !in db.cycles
    modifies db`cycles
    ensures status == Created
    ensures db.cycles == old(db.cycles)[newId := CycleDoc(user.id, [], fields)]
    ensures OwnCycle(db.cycles, newId, user.id) && db.cycles[newId].classes == []
  {
    db.cycles := db.cycles[newId := CycleDoc(user.id, [], fields)];
    return Created;
  }

  /** GET /cycles. */
  function List(cycles: map<Id, CycleDoc>, user: AuthContext): (r: set<Id>)
    requires Admits(VerifySchool, user.rol)
    ensures forall c :: c in r <==> OwnCycle(cycles, c, user.id)
  {
    set c | c in cycles && cycles[c].school == user.id
  }

  /** GET /cycles/:id. */
  function Detail(cycles: map<Id, CycleDoc>, user: AuthContext, id: Id): (r: Outcome<CycleDoc>)
    requires Admits(VerifySchool, user.rol)
    ensures r.Done? <==> OwnCycle(cycles, id, user.id)
    ensures r.Done? ==> r.value == cycles[id]
    ensures r.Refused? ==> r.status == NotFound
  {
    if OwnCycle(cycles, id, user.id) then Done(cycles[id]) else Refused(NotFound)
  }

  const TextKeys: set<string> :=
    {"name", "description", "startDate", "endDate", "type", "academicYear",
     "gradePostingStartDate", "gradePostingEndDate"}
  const DefinedKeys: set<string> := {"isActive"}

  /** The cycle after PUT /cycles/:id. */
  function Patched(c: CycleDoc, body: Fields): (r: CycleDoc)
    ensures r.school == c.school && r.classes == c.classes
    ensures forall k :: k in c.fields && !Provided(body, k, TextKeys, DefinedKeys) ==> k in r.fields && r.fields[k] == c.fields[k]
    ensures forall k :: Provided(body, k, TextKeys, DefinedKeys) ==> k in r.fields && r.fields[k] == body[k]
    // `isActive: false` is applied, an empty name is not
    ensures "isActive" in body ==> "isActive" in r.fields && r.fields["isActive"] == body["isActive"]
  {
    assert "isActive" in body ==> Provided(body, "isActive", TextKeys, DefinedKeys);
    c.(fields := MergeFields(c.fields, body, TextKeys, DefinedKeys))
  }

  /** PUT /cycles/:id. */
  method Update(db: Db, user: AuthContext, id: Id, body: Fields) returns (status: int)
    requires Admits(VerifySchool, user.rol)
    modifies db`cycles
    ensures status == Ok <==> OwnCycle(old(db.cycles), id, user.id)
    ensures status != Ok ==> status == NotFound && db.cycles == old(db.cycles)
    ensures status == Ok ==> db.cycles == old(db.cycles)[id := Patched(old(db.cycles)[id], body)]
  {
    if !OwnCycle(db.cycles, id, user.id) {
      return NotFound;
    }
    db.cycles := db.cycles[id := Patched(db.cycles[id], body)];
    return Ok;
  }

  /** The classes after cycle `c` is deleted: each class the cycle lists
    * loses its cycle, whichever cycle it now names. */
  function AfterCycleDeleted(classes: map<Id, ClassDoc>, cycles: map<Id, CycleDoc>, c: Id): (r: map<Id, ClassDoc>)
    requires c in cycles
    ensures r.Keys == classes.Keys
    ensures forall k :: k in r && k in cycles[c].classes ==> r[k].cycle.None?
    ensures forall k :: k in r && k !in cycles[c].classes ==> r[k] == classes[k]
  {
    if |cycles[c].classes| > 0 then ClassesUnsetCycle(classes, Elems(cycles[c].classes)) else classes
  }

  /** DELETE /cycles/:id. */
  method Delete(db: Db, user: AuthContext, id: Id) returns (status: int)
    requires Admits(VerifySchool, user.rol)
    modifies db`cycles, db`classes
    ensures status == Ok <==> OwnCycle(old(db.cycles), id, user.id)
    ensures status != Ok ==> status == NotFound && db.cycles == old(db.cycles) && db.classes == old(db.classes)
    ensures status == Ok ==>
      db.cycles == old(db.cycles) - {id} && db.classes == AfterCycleDeleted(old(db.classes), old(db.cycles), id)
    ensures ClassCycleLinks(old(db.classes), old(db.cycles)) ==> ClassCycleLinks(db.classes, db.cycles)
    // under the one-way link, no class is left naming the deleted cycle
    ensures status == Ok && ClassCycleLinks(old(db.classes), old(db.cycles)) ==>
      forall k :: k in db.classes ==> db.classes[k].cycle != Some(id)
  {
    if !OwnCycle(db.cycles, id, user.id) {
      return NotFound;
    }
    db.classes := AfterCycleDeleted(db.classes, db.cycles, id);
    db.cycles := db.cycles - {id};
    return Ok;
  }

  /** The cycles and classes after class `k` is added to cycle `c`: when
    * `c` does not list `k` yet, it lists it and `k` names `c`; the cycle
    * `k` named before keeps listing it. */
  function CyclesWithClass(cycles: map<Id, CycleDoc>, c: Id, k: Id): (r: map<Id, CycleDoc>)
    requires c in cycles
    ensures r.Keys == cycles.Keys
    ensures k in r[c].classes && Elems(r[c].classes) == Elems(cycles[c].classes) + {k}
    ensures forall x :: x in cycles && x != c ==> r[x] == cycles[x]
  {
    if k in cycles[c].classes then cycles else cycles[c := cycles[c].(classes := cycles[c].classes + [k])]
  }

  function ClassesInCycle(classes: map<Id, ClassDoc>, cycles: map<Id, CycleDoc>, c: Id, k: Id): (r: map<Id, ClassDoc>)
    requires c in cycles && k in classes
    ensures r.Keys == classes.Keys
    ensures k !in cycles[c].classes ==> r[k] == classes[k].(cycle := Some(c))
    ensures forall x :: x in classes && x != k ==> r[x] == classes[x]
  {
    if k in cycles[c].classes then classes else classes[k := classes[k].(cycle := Some(c))]
  }

  /** POST /cycles/:id/classes. */
  method AddClass(db: Db, user: AuthContext, id: Id, classId: Option<Id>) returns (status: int)
    requires Admits(VerifySchool, user.rol)
    modifies db`cycles, db`classes
    ensures classId.None? ==> status == BadRequest
    ensures status == Ok <==>
      classId.Some? && OwnCycle(old(db.cycles), id, user.id) && ClassRoutes.InSchool(old(db.classes), classId.value, user.id)
    ensures status != Ok ==> db.cycles == old(db.cycles) && db.classes == old(db.classes)
    ensures classId.Some? && status != Ok ==> status == NotFound
    ensures status == Ok ==>
      db.cycles == CyclesWithClass(old(db.cycles), id, classId.value)
      && db.classes == ClassesInCycle(old(db.classes), old(db.cycles), id, classId.value)
    ensures ClassCycleLinks(old(db.classes), old(db.cycles)) ==> ClassCycleLinks(db.classes, db.cycles)
  {
    if classId.None? {
      return BadRequest;
    }
    if !OwnCycle(db.cycles, id, user.id) {
      return NotFound;
    }
    var k := classId.value;
    if !ClassRoutes.InSchool(db.classes, k, user.id) {
      return NotFound;
    }
    var classes := ClassesInCycle(db.classes, db.cycles, id, k);
    db.cycles := CyclesWithClass(db.cycles, id, k);
    db.classes := classes;
    return Ok;
  }

  /** Adding a class to a second cycle leaves it listed by the first, and
    * deleting the first cycle then takes the class out of the second. */
  lemma MovedClassStaysListed()
    ensures var cycles := map[1 := CycleDoc(0, [5], map[]), 2 := CycleDoc(0, [], map[])];
            var classes := map[5 := ClassDoc(0, None, [], [], None, Some(1), map[])];
            var cycles' := CyclesWithClass(cycles, 2, 5);
            var classes' := ClassesInCycle(classes, cycles, 2, 5);
            ClassCycleLinks(classes', cycles')
            && 5 in cycles'[1].classes && 5 in cycles'[2].classes
            && classes'[5].cycle == Some(2)
            && AfterCycleDeleted(classes', cycles', 1)[5].cycle.None?
  {
    var cycles := map[1 := CycleDoc(0, [5], map[]), 2 := CycleDoc(0, [], map[])];
    var classes := map[5 := ClassDoc(0, None, [], [], None, Some(1), map[])];
    var cycles' := CyclesWithClass(cycles, 2, 5);
    assert cycles'[1].classes == [5];
  }

  /** DELETE /cycles/:id/classes/:classId. The class loses its cycle even
    * when it names another cycle or belongs to another school. */
  method RemoveClass(db: Db, user: AuthContext, id: Id, classId: Id) returns (status: int)
    requires Admits(VerifySchool, user.rol)
    modifies db`cycles, db`classes
    ensures status == Ok <==> OwnCycle(old(db.cycles), id, user.id)
    ensures status != Ok ==> status == NotFound && db.cycles == old(db.cycles) && db.classes == old(db.classes)
    ensures status == Ok ==>
      db.cycles == old(db.cycles)[id := old(db.cycles)[id].(classes := Without(old(db.cycles)[id].classes, classId))]
      && db.classes == ClassesUnsetCycle(old(db.classes), {classId})
      && classId !in db.cycles[id].classes
    ensures ClassCycleLinks(old(db.classes), old(db.cycles)) ==> ClassCycleLinks(db.classes, db.cycles)
  {
    if !OwnCycle(db.cycles, id, user.id) {
      return NotFound;
    }
    db.cycles := db.cycles[id := db.cycles[id].(classes := Without(db.cycles[id].classes, classId))];
    db.classes := ClassesUnsetCycle(db.classes, {classId});
    return Ok;
  }
}

=== FILE: driver_routes.dfy ===
/**
 * A school's drivers. A driver lists its vehicles in `vehicles`; the
 * vehicle names the driver in `driver`. Driver emails are unique across
 * every school.
 */
module DriverRoutes {
  import opened Common
  import opened Jwt
  import opened Store
  import opened Links
  import TransportationRoutes

  predicate EmailTaken(drivers: map<Id, DriverDoc>, email: string)
  {
    exists d :: d in drivers && drivers[d].email == email
  }

  predicate OwnDriver(drivers: map<Id, DriverDoc>, id: Id, school: Id)
  {
    id in drivers && drivers[id].school == school
  }

  /** Every vehicle a driver lists names that driver back. */
  predicate ListingsAccurate(transports: map<Id, TransportDoc>, drivers: map<Id, DriverDoc>)
  {
    forall d, v :: d in drivers && v in drivers[d].vehicles && v in transports ==> transports[v].driver == Some(d)
  }

  /** POST /drivers. The email must not be used by a driver of any school. */
  method Create(db: Db, user: AuthContext, email: string, fields: Fields, newId: Id) returns (status: int)
    requires Admits(VerifySchool, user.rol)
    requires newId !in db.drivers
    modifies db`drivers
    ensures status == BadRequest <==> EmailTaken(old(db.drivers), email)
    ensures status == BadRequest ==> db.drivers == old(db.drivers)
    ensures status != BadRequest ==>
      status == Created && db.drivers == old(db.drivers)[newId := DriverDoc(user.id, email, [], fields)]
  {
    if EmailTaken(db.drivers, email) {
      return BadRequest;
    }
    db.drivers := db.drivers[newId := DriverDoc(user.id, email, [], fields)];
    return Created;
  }

  /** GET /drivers: the caller's drivers. */
  function List(drivers: map<Id, DriverDoc>, user: AuthContext): (r: set<Id>)
    requires Admits(VerifySchool, user.rol)
    ensures forall d :: d in r <==> OwnDriver(drivers, d, user.id)
  {
    set d | d in drivers && drivers[d].school == user.id
  }

  /** GET /drivers/:id. */
  function Detail(drivers: map<Id, DriverDoc>, user: AuthContext, id: Id): (r: Outcome<DriverDoc>)
    requires Admits(VerifySchool, user.rol)
    ensures r.Done? <==> OwnDriver(drivers, id, user.id)
    ensures r.Done? ==> r.value == drivers[id]
    ensures r.Refused? ==> r.status == NotFound
  {
    if OwnDriver(drivers, id, user.id) then Done(drivers[id]) else Refused(NotFound)
  }

  const TextKeys: set<string> :=
    {"firstName", "lastName", "phoneNumber", "address", "licenseNumber", "licenseExpiry",
     "dateOfBirth", "dateOfHire", "emergencyContact", "image", "status"}
  const DefinedKeys: set<string> := {"notes"}

  /** The driver after PUT /drivers/:id; an empty `email` is one not given. */
  function Patched(d: DriverDoc, email: string, body: Fields): (r: DriverDoc)
    ensures r.email == (if email != "" then email else d.email)
    ensures r.school == d.school && r.vehicles == d.vehicles
    ensures forall k :: k in d.fields && !Provided(body, k, TextKeys, DefinedKeys) ==> k in r.fields && r.fields[k] == d.fields[k]
    ensures forall k :: Provided(body, k, TextKeys, DefinedKeys) ==> k in r.fields && r.fields[k] == body[k]
  {
    d.(email := if email != "" then email else d.email, fields := MergeFields(d.fields, body, TextKeys, DefinedKeys))
  }

  /** PUT /drivers/:id. A new email must not be used by any driver. */
  method Update(db: Db, user: AuthContext, id: Id, email: string, body: Fields) returns (status: int)
    requires Admits(VerifySchool, user.rol)
    modifies db`drivers
    ensures !OwnDriver(old(db.drivers), id, user.id) ==> status == NotFound
    ensures status == Ok <==>
      OwnDriver(old(db.drivers), id, user.id)
      && !(email != "" && email != old(db.drivers)[id].email && EmailTaken(old(db.drivers), email))
    ensures status != Ok ==> db.drivers == old(db.drivers)
    ensures status == Ok ==> db.drivers == old(db.drivers)[id := Patched(old(db.drivers)[id], email, body)]
  {
    if !OwnDriver(db.drivers, id, user.id) {
      return NotFound;
    }
    if email != "" && email != db.drivers[id].email && EmailTaken(db.drivers, email) {
      return BadRequest;
    }
    db.drivers := db.drivers[id := Patched(db.drivers[id], email, body)];
    return Ok;
  }

  /** The vehicles after driver `d` is deleted: every vehicle `d` lists
    * loses its driver, whoever that driver now is. */
  function AfterDriverDeleted(transports: map<Id, TransportDoc>, drivers: map<Id, DriverDoc>, d: Id): (r: map<Id, TransportDoc>)
    requires d in drivers
    ensures r.Keys == transports.Keys
    ensures forall v :: v in r && v in drivers[d].vehicles ==> r[v].driver.None?
    ensures forall v :: v in r && v !in drivers[d].vehicles ==> r[v] == transports[v]
  {
    if |drivers[d].vehicles| > 0 then TransportsUnsetDriver(transports, Elems(drivers[d].vehicles)) else transports
  }

  /** DELETE /drivers/:id. */
  method Delete(db: Db, user: AuthContext, id: Id) returns (status: int)
    requires Admits(VerifySchool, user.rol)
    modifies db`drivers, db`transports
    ensures status == Ok <==> OwnDriver(old(db.drivers), id, user.id)
    ensures status != Ok ==> status == NotFound && db.drivers == old(db.drivers) && db.transports == old(db.transports)
    ensures status == Ok ==>
      db.drivers == old(db.drivers) - {id}
      && db.transports == AfterDriverDeleted(old(db.transports), old(db.drivers), id)
    ensures TransportationRoutes.VehicleLinks(old(db.transports), old(db.drivers)) ==> TransportationRoutes.VehicleLinks(db.transports, db.drivers)
    // under the one-way link, no vehicle is left naming the deleted driver
    ensures status == Ok && TransportationRoutes.VehicleLinks(old(db.transports), old(db.drivers)) ==>
      forall v :: v in db.transports ==> db.transports[v].driver != Some(id)
  {
    if !OwnDriver(db.drivers, id, user.id) {
      return NotFound;
    }
    db.transports := AfterDriverDeleted(db.transports, db.drivers, id);
    db.drivers := db.drivers - {id};
    return Ok;
  }

  /** The drivers and vehicles after vehicle `v` is assigned to driver `d`:
    * when `d` does not list `v` yet, `d` lists it and `v` names `d`; the
    * previous driver of `v` is not told. */
  function AssignedDrivers(drivers: map<Id, DriverDoc>, d: Id, v: Id): (r: map<Id, DriverDoc>)
    requires d in drivers
    ensures r.Keys == drivers.Keys
    ensures v in r[d].vehicles && Elems(r[d].vehicles) == Elems(drivers[d].vehicles) + {v}
    ensures forall k :: k in drivers && k != d ==> r[k] == drivers[k]
  {
    if v in drivers[d].vehicles then drivers else drivers[d := drivers[d].(vehicles := drivers[d].vehicles + [v])]
  }

  function AssignedTransports(transports: map<Id, TransportDoc>, drivers: map<Id, DriverDoc>, d: Id, v: Id): (r: map<Id, TransportDoc>)
    requires d in drivers && v in transports
    ensures r.Keys == transports.Keys
    ensures v !in drivers[d].vehicles ==> r[v].driver == Some(d)
    ensures forall k :: k in transports && k != v ==> r[k] == transports[k]
  {
    if v in drivers[d].vehicles then transports else transports[v := transports[v].(driver := Some(d))]
  }

  /** POST /drivers/:id/vehicles. */
  method AssignVehicle(db: Db, user: AuthContext, id: Id, vehicleId: Option<Id>) returns (status: int)
    requires Admits(VerifySchool, user.rol)
    modifies db`drivers, db`transports
    ensures vehicleId.None? ==> status == BadRequest
    ensures status == Ok <==>
      vehicleId.Some? && OwnDriver(old(db.drivers), id, user.id) && TransportationRoutes.OwnVehicle(old(db.transports), vehicleId.value, user.id)
    ensures status != Ok ==> db.drivers == old(db.drivers) && db.transports == old(db.transports)
    ensures vehicleId.Some? && status != Ok ==> status == NotFound
    ensures status == Ok ==>
      db.drivers == AssignedDrivers(old(db.drivers), id, vehicleId.value)
      && db.transports == AssignedTransports(old(db.transports), old(db.drivers), id, vehicleId.value)
    ensures TransportationRoutes.VehicleLinks(old(db.transports), old(db.drivers)) ==> TransportationRoutes.VehicleLinks(db.transports, db.drivers)
  {
    if vehicleId.None? {
      return BadRequest;
    }
    if !OwnDriver(db.drivers, id, user.id) {
      return NotFound;
    }
    var v := vehicleId.value;
    if !TransportationRoutes.OwnVehicle(db.transports, v, user.id) {
      return NotFound;
    }
    var transports := AssignedTransports(db.transports, db.drivers, id, v);
    db.drivers := AssignedDrivers(db.drivers, id, v);
    db.transports := transports;
    return Ok;
  }

  /** Assigning a vehicle that another driver lists leaves that driver's
    * listing in place: two drivers then list the same vehicle, and
    * deleting the first one takes the vehicle away from the second. */
  lemma ReassignLeavesStaleListing()
    ensures var drivers := map[1 := DriverDoc(0, "a", [10], map[]), 2 := DriverDoc(0, "b", [], map[])];
            var transports := map[10 := TransportDoc(0, "B1", Some(1), None, [], "active", map[])];
            var drivers' := AssignedDrivers(drivers, 2, 10);
            var transports' := AssignedTransports(transports, drivers, 2, 10);
            ListingsAccurate(transports, drivers)
            && TransportationRoutes.VehicleLinks(transports', drivers')
            && 10 in drivers'[1].vehicles && 10 in drivers'[2].vehicles
            && !ListingsAccurate(transports', drivers')
            && AfterDriverDeleted(transports', drivers', 1)[10].driver.None?
  {
    var drivers := map[1 := DriverDoc(0, "a", [10], map[]), 2 := DriverDoc(0, "b", [], map[])];
    var transports := map[10 := TransportDoc(0, "B1", Some(1), None, [], "active", map[])];
    var drivers' := AssignedDrivers(drivers, 2, 10);
    var transports' := AssignedTransports(transports, drivers, 2, 10);
    assert drivers'[1].vehicles == [10];
    assert transports'[10].driver == Some(2);
  }

  /** DELETE /drivers/:id/vehicles/:vehicleId. The vehicle loses its driver
    * even when it names another driver, and whatever school it belongs to. */
  method RemoveVehicle(db: Db, user: AuthContext, id: Id, vehicleId: Id) returns (status: int)
    requires Admits(VerifySchool, user.rol)
    modifies db`drivers, db`transports
    ensures status == Ok <==> OwnDriver(old(db.drivers), id, user.id)
    ensures status != Ok ==> status == NotFound && db.drivers == old(db.drivers) && db.transports == old(db.transports)
    ensures status == Ok ==>
      db.drivers == DriverPullVehicle(old(db.drivers), id, vehicleId)
      && db.transports == TransportsUnsetDriver(old(db.transports), {vehicleId})
    ensures TransportationRoutes.VehicleLinks(old(db.transports), old(db.drivers)) ==> TransportationRoutes.VehicleLinks(db.transports, db.drivers)
  {
    if !OwnDriver(db.drivers, id, user.id) {
      return NotFound;
    }
    db.drivers := DriverPullVehicle(db.drivers, id, vehicleId);
    db.transports := TransportsUnsetDriver(db.transports, {vehicleId});
    return Ok;
  }
}

=== FILE: guard_routes.dfy ===
/**
 * Guards: staff accounts a school registers. A guard reads the records of
 * its own school and keeps a per-student, per-day attendance record.
 */
module GuardRoutes {
  import opened Common
  import opened Jwt
  import opened Store

  predicate EmailTaken(guards: map<Id, GuardDoc>, email: string)
  {
    exists g :: g in guards && guards[g].email == email
  }

  /** POST /guards. The new guard belongs to the calling school and has
    * the role 'guard'; the email must not be used by any guard. */
  method Create(db: Db, user: AuthContext, email: string, fields: Fields, newId: Id) returns (status: int)
    requires Admits(VerifySchool, user.rol)
    requires newId !in db.guards
    modifies db`guards
    ensures status == BadRequest <==> EmailTaken(old(db.guards), email)
    ensures status == BadRequest ==> db.guards == old(db.guards)
    ensures status != BadRequest ==>
      status == Created
      && db.guards == old(db.guards)[newId := GuardDoc(user.id, email, fields["rol" := JsString("guard")])]
  {
    if EmailTaken(db.guards, email) {
      return BadRequest;
    }
    db.guards := db.guards[newId := GuardDoc(user.id, email, fields["rol" := JsString("guard")])];
    return Created;
  }

  /** GET /guard/profile. */
  function Profile(guards: map<Id, GuardDoc>, user: AuthContext): (r: Outcome<GuardDoc>)
    requires Admits(VerifyGuard, user.rol)
    ensures r.Done? <==> user.id in guards
    ensures r.Done? ==> r.value == guards[user.id]
    ensures r.Refused? ==> r.status == NotFound
  {
    if user.id in guards then Done(guards[user.id]) else Refused(NotFound)
  }

  const ProfileKeys: set<string> :=
    {"firstName", "firstName_ar", "lastName", "lastName_ar", "phoneNumber", "address", "cin",
     "address_ar", "dateOfBirth"}

  /** The guard after PUT /guard/profile; an empty `email` is one not given. */
  function ProfilePatched(g: GuardDoc, email: string, body: Fields): (r: GuardDoc)
    ensures r.school == g.school
    ensures r.email == (if email != "" then email else g.email)
    ensures forall k :: k in g.fields && !Provided(body, k, ProfileKeys, {}) ==> k in r.fields && r.fields[k] == g.fields[k]
    ensures forall k :: Provided(body, k, ProfileKeys, {}) ==> k in r.fields && r.fields[k] == body[k]
  {
    g.(email := if email != "" then email else g.email, fields := MergeFields(g.fields, body, ProfileKeys, {}))
  }

  /** PUT /guard/profile. A guard without a record gets 200 and nothing
    * changes; the new email is not checked against other guards. */
  method UpdateProfile(db: Db, user: AuthContext, email: string, body: Fields) returns (status: int)
    requires Admits(VerifyGuard, user.rol)
    modifies db`guards
    ensures status == Ok
    ensures user.id !in old(db.guards) ==> db.guards == old(db.guards)
    ensures user.id in old(db.guards) ==>
      db.guards == old(db.guards)[user.id := ProfilePatched(old(db.guards)[user.id], email, body)]
  {
    if user.id in db.guards {
      db.guards := db.guards[user.id := ProfilePatched(db.guards[user.id], email, body)];
    }
    return Ok;
  }

  /** Unlike registration, the profile handler makes no email check of its
    * own: it carries an email another guard already holds into the patched
    * record. Only the unique email index of the Guard schema, which this
    * model leaves out, refuses that write (the handler then answers 500). */
  lemma ProfileEmailUnchecked()
    ensures var guards := map[1 := GuardDoc(0, "a", map[]), 2 := GuardDoc(0, "b", map[])];
            var guards' := guards[2 := ProfilePatched(guards[2], "a", map[])];
            EmailTaken(guards, "a") && guards'[1].email == guards'[2].email
  {
    var guards := map[1 := GuardDoc(0, "a", map[]), 2 := GuardDoc(0, "b", map[])];
    assert guards[1].email == "a";
  }

  /** The school a guard acts for: 404 when the guard has no record. */
  function GuardSchool(guards: map<Id, GuardDoc>, user: AuthContext): (r: Outcome<Id>)
    requires Admits(VerifyGuard, user.rol)
    ensures r.Done? <==> user.id in guards
    ensures r.Done? ==> r.value == guards[user.id].school
    ensures r.Refused? ==> r.status == NotFound
  {
    if user.id in guards then Done(guards[user.id].school) else Refused(NotFound)
  }

  /** GET /guard/students. */
  function Students(students: map<Id, StudentDoc>, guards: map<Id, GuardDoc>, user: AuthContext): (r: Outcome<set<Id>>)
    requires Admits(VerifyGuard, user.rol)
    ensures r.Refused? <==> GuardSchool(guards, user).Refused?
    ensures r.Refused? ==> r.status == NotFound
    ensures r.Done? ==> forall s :: s in r.value <==>
      s in students && students[s].school == GuardSchool(guards, user).value
  {
    match GuardSchool(guards, user)
    case Refused(code) => Refused(code)
    case Done(school) => Done(set s | s in students && students[s].school == school)
  }

  /** GET /guard/students/:id. */
  function Student(students: map<Id, StudentDoc>, guards: map<Id, GuardDoc>, user: AuthContext, id: Id): (r: Outcome<StudentDoc>)
    requires Admits(VerifyGuard, user.rol)
    ensures r.Done? <==>
      GuardSchool(guards, user).Done? && id in students && students[id].school == GuardSchool(guards, user).value
    ensures r.Done? ==> r.value == students[id]
    ensures r.Refused? ==> r.status == NotFound
  {
    match GuardSchool(guards, user)
    case Refused(code) => Refused(code)
    case Done(school) => if id in students && students[id].school == school then Done(students[id]) else Refused(NotFound)
  }

  /** GET /guard/teachers. */
  function Teachers(teachers: map<Id, TeacherDoc>, guards: map<Id, GuardDoc>, user: AuthContext): (r: Outcome<set<Id>>)
    requires Admits(VerifyGuard, user.rol)
    ensures r.Refused? <==> GuardSchool(guards, user).Refused?
    ensures r.Refused? ==> r.status == NotFound
    ensures r.Done? ==> forall t :: t in r.value <==>
      t in teachers && teachers[t].school == GuardSchool(guards, user).value
  {
    match GuardSchool(guards, user)
    case Refused(code) => Refused(code)
    case Done(school) => Done(set t | t in teachers && teachers[t].school == school)
  }

  /** GET /guard/teachers/:id. */
  function Teacher(teachers: map<Id, TeacherDoc>, guards: map<Id, GuardDoc>, user: AuthContext, id: Id): (r: Outcome<TeacherDoc>)
    requires Admits(VerifyGuard, user.rol)
    ensures r.Done? <==>
      GuardSchool(guards, user).Done? && id in teachers && teachers[id].school == GuardSchool(guards, user).value
    ensures r.Done? ==> r.value == teachers[id]
    ensures r.Refused? ==> r.status == NotFound
  {
    match GuardSchool(guards, user)
    case Refused(code) => Refused(code)
    case Done(school) => if id in teachers && teachers[id].school == school then Done(teachers[id]) else Refused(NotFound)
  }

  /** GET /guard/classes. */
  function Classes(classes: map<Id, ClassDoc>, guards: map<Id, GuardDoc>, user: AuthContext): (r: Outcome<set<Id>>)
    requires Admits(VerifyGuard, user.rol)
    ensures r.Refused? <==> GuardSchool(guards, user).Refused?
    ensures r.Refused? ==> r.status == NotFound
    ensures r.Done? ==> forall k :: k in r.value <==>
      k in classes && classes[k].school == GuardSchool(guards, user).value
  {
    match GuardSchool(guards, user)
    case Refused(code) => Refused(code)
    case Done(school) => Done(set k | k in classes && classes[k].school == school)
  }

  /** A class with the students of the guard's school who are in it. */
  datatype ClassView = ClassView(doc: ClassDoc, students: set<Id>)

  /** GET /guard/classes/:id. */
  function Class(classes: map<Id, ClassDoc>, students: map<Id, StudentDoc>, guards: map<Id, GuardDoc>,
                 user: AuthContext, id: Id): (r: Outcome<ClassView>)
    requires Admits(VerifyGuard, user.rol)
    ensures r.Done? <==>
      GuardSchool(guards, user).Done? && id in classes && classes[id].school == GuardSchool(guards, user).value
    ensures r.Refused? ==> r.status == NotFound
    ensures r.Done? ==> r.value.doc == classes[id]
    ensures r.Done? ==> forall s :: s in r.value.students <==>
      s in students && students[s].classId == Some(id) && students[s].school == classes[id].school
  {
    match GuardSchool(guards, user)
    case Refused(code) => Refused(code)
    case Done(school) =>
      if id in classes && classes[id].school == school then
        Done(ClassView(classes[id], set s | s in students && students[s].classId == Some(id) && students[s].school == school))
      else Refused(NotFound)
  }

  /** GET /guard/subjects. */
  function Subjects(subjects: map<Id, SubjectDoc>, guards: map<Id, GuardDoc>, user: AuthContext): (r: Outcome<set<Id>>)
    requires Admits(VerifyGuard, user.rol)
    ensures r.Refused? <==> GuardSchool(guards, user).Refused?
    ensures r.Refused? ==> r.status == NotFound
    ensures r.Done? ==> forall k :: k in r.value <==>
      k in subjects && subjects[k].school == GuardSchool(guards, user).value
  {
    match GuardSchool(guards, user)
    case Refused(code) => Refused(code)
    case Done(school) => Done(set k | k in subjects && subjects[k].school == school)
  }

  /** GET /guard/cycles. */
  function Cycles(cycles: map<Id, CycleDoc>, guards: map<Id, GuardDoc>, user: AuthContext): (r: Outcome<set<Id>>)
    requires Admits(VerifyGuard, user.rol)
    ensures r.Refused? <==> GuardSchool(guards, user).Refused?
    ensures r.Refused? ==> r.status == NotFound
    ensures r.Done? ==> forall k :: k in r.value <==>
      k in cycles && cycles[k].school == GuardSchool(guards, user).value
  {
    match GuardSchool(guards, user)
    case Refused(code) => Refused(code)
    case Done(school) => Done(set k | k in cycles && cycles[k].school == school)
  }

  /** GET /guard/activities. */
  function Activities(activities: map<Id, ActivityDoc>, guards: map<Id, GuardDoc>, user: AuthContext): (r: Outcome<set<Id>>)
    requires Admits(VerifyGuard, user.rol)
    ensures r.Refused? <==> GuardSchool(guards, user).Refused?
    ensures r.Refused? ==> r.status == NotFound
    ensures r.Done? ==> forall k :: k in r.value <==>
      k in activities && activities[k].school == GuardSchool(guards, user).value
  {
    match GuardSchool(guards, user)
    case Refused(code) => Refused(code)
    case Done(school) => Done(set k | k in activities && activities[k].school == school)
  }

  /** GET /guard/exams. */
  function Exams(exams: map<Id, ExamDoc>, guards: map<Id, GuardDoc>, user: AuthContext): (r: Outcome<set<Id>>)
    requires Admits(VerifyGuard, user.rol)
    ensures r.Refused? <==> GuardSchool(guards, user).Refused?
    ensures r.Refused? ==> r.status == NotFound
    ensures r.Done? ==> forall k :: k in r.value <==>
      k in exams && exams[k].school == GuardSchool(guards, user).value
  {
    match GuardSchool(guards, user)
    case Refused(code) => Refused(code)
    case Done(school) => Done(set k | k in exams && exams[k].school == school)
  }

  /** The query of GET /guard/attendance: a day and a class, each optional. */
  predicate Listed(d: DailyAttendanceDoc, school: Id, date: Option<Day>, classId: Option<Id>)
  {
    d.school == school && (date.None? || d.date == date.value) && (classId.None? || d.classId == classId.value)
  }

  /** GET /guard/attendance. */
  function Attendance(records: map<Id, DailyAttendanceDoc>, guards: map<Id, GuardDoc>, user: AuthContext,
                      date: Option<Day>, classId: Option<Id>): (r: Outcome<set<Id>>)
    requires Admits(VerifyGuard, user.rol)
    ensures r.Refused? <==> GuardSchool(guards, user).Refused?
    ensures r.Refused? ==> r.status == NotFound
    ensures r.Done? ==> forall k :: k in r.value ==> k in records && records[k].school == GuardSchool(guards, user).value
    ensures r.Done? && date.Some? ==> forall k :: k in r.value ==> records[k].date == date.value
    ensures r.Done? && classId.Some? ==> forall k :: k in r.value ==> records[k].classId == classId.value
    ensures r.Done? ==> forall k :: k in records && Listed(records[k], GuardSchool(guards, user).value, date, classId) ==> k in r.value
  {
    match GuardSchool(guards, user)
    case Refused(code) => Refused(code)
    case Done(school) => Done(set k | k in records && Listed(records[k], school, date, classId))
  }

  /** A record of `student` on `day`, of any school: what the upsert looks for. */
  predicate SameDay(d: DailyAttendanceDoc, student: Id, day: Day)
  {
    d.student == student && d.date == day
  }

  /** At most one record per student and day. */
  predicate OnePerDay(records: map<Id, DailyAttendanceDoc>)
  {
    forall a, b :: a in records && b in records && SameDay(records[b], records[a].student, records[a].date) ==> a == b
  }

  /** The existing record after the upsert overwrites it: a new status,
    * and a new remark only when one was given. */
  function Overwritten(d: DailyAttendanceDoc, status: string, remark: Option<string>): (r: DailyAttendanceDoc)
    ensures r.status == status
    ensures r.remark == (if remark.Some? && remark.value != "" then remark else d.remark)
    ensures r.student == d.student && r.classId == d.classId && r.school == d.school && r.date == d.date
  {
    d.(status := status, remark := if remark.Some? && remark.value != "" then remark else d.remark)
  }

  /** POST /guard/attendance. `existing` is the record the day lookup
    * finds, if any: the lookup matches the student and the day only, not
    * the school. */
  method RecordAttendance(db: Db, user: AuthContext, studentId: Id, classId: Id, status: string, date: Day,
                          remark: Option<string>, existing: Option<Id>, newId: Id) returns (code: int)
    requires Admits(VerifyGuard, user.rol)
    requires existing.Some? ==>
      existing.value in db.dailyAttendances && SameDay(db.dailyAttendances[existing.value], studentId, date)
    requires existing.None? ==> forall k :: k in db.dailyAttendances ==> !SameDay(db.dailyAttendances[k], studentId, date)
    requires newId !in db.dailyAttendances
    modifies db`dailyAttendances
    ensures code == NotFound <==>
      !(user.id in db.guards
        && studentId in db.students && db.students[studentId].school == db.guards[user.id].school
        && classId in db.classes && db.classes[classId].school == db.guards[user.id].school)
    ensures code == NotFound ==> db.dailyAttendances == old(db.dailyAttendances)
    ensures code != NotFound && existing.Some? ==>
      code == Ok
      && db.dailyAttendances == old(db.dailyAttendances)[existing.value :=
           Overwritten(old(db.dailyAttendances)[existing.value], status, remark)]
    ensures code != NotFound && existing.None? ==>
      code == Created
      && db.dailyAttendances == old(db.dailyAttendances)[newId :=
           DailyAttendanceDoc(studentId, classId, db.guards[user.id].school, status, date, remark)]
    ensures OnePerDay(old(db.dailyAttendances)) ==> OnePerDay(db.dailyAttendances)
    // whichever branch ran, the day's record now holds the status
    ensures code != NotFound ==>
      exists k :: k in db.dailyAttendances && SameDay(db.dailyAttendances[k], studentId, date) && db.dailyAttendances[k].status == status
  {
    if user.id !in db.guards {
      return NotFound;
    }
    var school := db.guards[user.id].school;
    if !(studentId in db.students && db.students[studentId].school == school) {
      return NotFound;
    }
    if !(classId in db.classes && db.classes[classId].school == school) {
      return NotFound;
    }
    if existing.Some? {
      var k := existing.value;
      db.dailyAttendances := db.dailyAttendances[k := Overwritten(db.dailyAttendances[k], status, remark)];
      assert SameDay(db.dailyAttendances[k], studentId, date);
      return Ok;
    }
    db.dailyAttendances := db.dailyAttendances[newId := DailyAttendanceDoc(studentId, classId, school, status, date, remark)];
    assert SameDay(db.dailyAttendances[newId], studentId, date);
    return Created;
  }
}

=== FILE: jwt.dfy ===
/**
 * Bearer-token authentication and the role gates placed in front of the
 * routes. Signing and signature checking are an oracle `verifier`: it maps a
 * token string to the claims it was signed with, or to None when the token
 * is malformed, expired or forged.
 */
module Jwt {
  import opened Common

  /** The `rol` claim of a token. */
  datatype Role = Admin | School | Student | Teacher | Parent | Guard

  /** The decoded token payload `{ id, rol }`, stored as `req.user`. */
  datatype AuthContext = AuthContext(id: Id, rol: Role)

  /** Oracle standing for `jwt.verify` with the server's secret. */
  type Verifier = string -> Option<AuthContext>

  /** Claims signed by the five exported generators (admin, school, student,
    * teacher, parent); there is no exported generator for guards. */
  function GenerateToken(rol: Role, principal: Id): (claims: AuthContext)
    requires rol != Guard
    ensures claims.rol == rol && claims.id == principal
  {
    AuthContext(principal, rol)
  }

  /** Pieces joined by single spaces: the inverse of `Split`. */
  function Join(pieces: seq<string>): string
    requires |pieces| >= 1
  {
    if |pieces| == 1 then pieces[0] else pieces[0] + " " + Join(pieces[1..])
  }

  /** JavaScript `s.split(" ")`. */
  function Split(s: string): (pieces: seq<string>)
    ensures |pieces| >= 1
    ensures forall i :: 0 <= i < |pieces| ==> ' ' !in pieces[i]
    ensures Join(pieces) == s
  {
    if s == [] then [""]
    else
      var rest := Split(s[1..]);
      if s[0] == ' ' then
        assert s == " " + s[1..];
        [""] + rest
      else
        var first := [s[0]] + rest[0];
        var pieces := [first] + rest[1..];
        assert pieces[1..] == rest[1..];
        assert Join(pieces) == s by {
          if |rest| == 1 {
            assert Join(pieces) == first == [s[0]] + Join(rest);
          } else {
            assert Join(rest) == rest[0] + " " + Join(rest[1..]);
            assert Join(pieces) == first + " " + Join(rest[1..]);
          }
          assert s == [s[0]] + s[1..];
        }
        pieces
  }

  /** A string without spaces splits into itself, and one followed by a
    * space splits into itself and the split of the remainder. */
  lemma {:induction false} SplitAfterWord(a: string, t: string)
    requires ' ' !in a
    ensures Split(a) == [a]
    ensures Split(a + " " + t) == [a] + Split(t)
  {
    if a != [] {
      assert (a + " " + t)[1..] == a[1..] + " " + t;
      assert a[1..] == a[1..];
      SplitAfterWord(a[1..], t);
      assert [a[0]] + a[1..] == a;
    } else {
      assert (a + " " + t) == " " + t;
      assert (" " + t)[1..] == t;
    }
  }

  /** Splitting undoes joining whenever no piece holds a space. */
  lemma {:induction false} SplitJoin(pieces: seq<string>)
    requires |pieces| >= 1
    requires forall i :: 0 <= i < |pieces| ==> ' ' !in pieces[i]
    ensures Split(Join(pieces)) == pieces
  {
    SplitAfterWord(pieces[0], "");
    if |pieces| > 1 {
      SplitAfterWord(pieces[0], Join(pieces[1..]));
      SplitJoin(pieces[1..]);
      assert [pieces[0]] + pieces[1..] == pieces;
    }
  }

  /** `authHeader.split(" ")[1]`; None stands for `undefined`. */
  function TokenOf(header: string): (token: Option<string>)
    ensures token.Some? <==> ' ' in header
  {
    var pieces := Split(header);
    assert ' ' in header ==> |pieces| >= 2 by {
      if |pieces| == 1 {
        assert header == pieces[0];
      }
    }
    assert |pieces| >= 2 ==> ' ' in header by {
      if |pieces| >= 2 {
        assert header == pieces[0] + " " + Join(pieces[1..]);
        assert header[|pieces[0]|] == ' ';
      }
    }
    if |pieces| >= 2 then Some(pieces[1]) else None
  }

  /** `Bearer <token>` yields the token, for a token without spaces. */
  lemma BearerToken(scheme: string, token: string)
    requires ' ' !in scheme && ' ' !in token
    ensures TokenOf(scheme + " " + token) == Some(token)
  {
    SplitJoin([scheme, token]);
    assert Join([scheme, token]) == scheme + " " + token by {
      assert [scheme, token][1..] == [token];
    }
  }

  /** Outcome of `verifyToken`. */
  datatype AuthOutcome = NoHeader | InvalidToken | Authenticated(user: AuthContext)

  /** `verifyToken`: a missing or empty header is rejected with 401; a token
    * the verifier refuses (including no token at all) with 403. */
  function Authenticate(header: Option<string>, verifier: Verifier): (r: AuthOutcome)
    ensures r.NoHeader? <==> header.None? || header.value == ""
    ensures r.Authenticated? ==>
      header.Some? && TokenOf(header.value).Some? && verifier(TokenOf(header.value).value) == Some(r.user)
    ensures r.InvalidToken? ==>
      header.Some? && (TokenOf(header.value).None? || verifier(TokenOf(header.value).value).None?)
  {
    if header.None? || header.value == "" then NoHeader
    else
      match TokenOf(header.value)
      case None => InvalidToken
      case Some(token) =>
        match verifier(token)
        case None => InvalidToken
        case Some(decoded) => Authenticated(decoded)
  }

  /** A `Bearer <token>` header authenticates exactly the token's claims. */
  lemma BearerAuthenticates(token: string, verifier: Verifier)
    requires ' ' !in token
    ensures Authenticate(Some("Bearer " + token), verifier)
         == if verifier(token).Some? then Authenticated(verifier(token).value) else InvalidToken
  {
    BearerToken("Bearer", token);
    assert "Bearer" + " " + token == "Bearer " + token;
  }

  /** A non-empty header without a space carries no token: 403. */
  lemma HeaderWithoutSpaceRejected(header: string, verifier: Verifier)
    requires header != "" && ' ' !in header
    ensures Authenticate(Some(header), verifier) == InvalidToken
  {
  }

  /** The middleware placed in front of a route (`AnyToken` is `verifyToken`
    * used alone). `VerifyGuard` and
    * `VerifyGuardOrSchool` are imported by routes but not exported. */
  datatype Gate =
    | AnyToken
    | VerifyAdmin
    | VerifySchool
    | VerifyStudent
    | VerifyTeacher
    | VerifyParent
    | VerifySchoolOrAdmin
    | VerifySchoolOrTeacher
    | VerifySchoolOrStudent
    | VerifyParentOrSchool
    | VerifyTeacherOrSchoolOrAdmin
    | VerifyAny
    | VerifyGuard
    | VerifyGuardOrSchool
  {
    predicate Exported()
    {
      !(this.VerifyGuard? || this.VerifyGuardOrSchool?)
    }
  }

  const AllRoles: set<Role> := {Admin, School, Student, Teacher, Parent, Guard}

  /** The role test each gate applies after `verifyToken`. */
  predicate Admits(g: Gate, r: Role)
  {
    match g
    case AnyToken => true
    case VerifyAdmin => r == Admin
    case VerifySchool => r == School
    case VerifyStudent => r == Student
    case VerifyTeacher => r == Teacher
    case VerifyParent => r == Parent
    case VerifySchoolOrAdmin => r == School || r == Admin
    case VerifySchoolOrTeacher => r == School || r == Teacher
    case VerifySchoolOrStudent => r == School || r == Student
    case VerifyParentOrSchool => r == Parent || r == School
    case VerifyTeacherOrSchoolOrAdmin => r == Teacher || r == School || r == Admin
    case VerifyAny => r != Guard
    case VerifyGuard => r == Guard
    case VerifyGuardOrSchool => r == Guard || r == School
  }

  function RolesOf(g: Gate): set<Role>
  {
    set r | r in AllRoles && Admits(g, r)
  }

  /** The roles each gate lets through. `verifyAny` names five roles and
    * so leaves guards out. */
  lemma GateRoles()
    ensures RolesOf(VerifyAdmin) == {Admin}
    ensures RolesOf(VerifySchool) == {School}
    ensures RolesOf(VerifyTeacher) == {Teacher}
    ensures RolesOf(VerifySchoolOrAdmin) == {School, Admin}
    ensures RolesOf(VerifySchoolOrTeacher) == {School, Teacher}
    ensures RolesOf(VerifyParentOrSchool) == {Parent, School}
    ensures RolesOf(VerifyTeacherOrSchoolOrAdmin) == {Teacher, School, Admin}
    ensures RolesOf(VerifyAny) == {Admin, School, Student, Teacher, Parent}
    ensures Guard !in RolesOf(VerifyAny)
    ensures RolesOf(VerifyGuardOrSchool) == {Guard, School}
  {
    assert Guard in AllRoles && Admin in AllRoles && School in AllRoles;
    assert Student in AllRoles && Teacher in AllRoles && Parent in AllRoles;
  }

  /** What a gate does with a request. */
  datatype Decision = Next(user: AuthContext) | Respond(status: int)

  function Verify(g: Gate, header: Option<string>, verifier: Verifier): (d: Decision)
    ensures d.Next? ==> Admits(g, d.user.rol) && Authenticate(header, verifier) == Authenticated(d.user)
    ensures d.Respond? ==> d.status == Unauthorized || d.status == Forbidden
    ensures d == Respond(Unauthorized) <==> Authenticate(header, verifier).NoHeader?
    ensures Authenticate(header, verifier).Authenticated? && Admits(g, Authenticate(header, verifier).user.rol)
      ==> d.Next?
  {
    match Authenticate(header, verifier)
    case NoHeader => Respond(Unauthorized)
    case InvalidToken => Respond(Forbidden)
    case Authenticated(user) => if Admits(g, user.rol) then Next(user) else Respond(Forbidden)
  }

  /** The single-role gate a generated token is meant for. */
  function OwnGate(rol: Role): Gate
  {
    match rol
    case Admin => VerifyAdmin
    case School => VerifySchool
    case Student => VerifyStudent
    case Teacher => VerifyTeacher
    case Parent => VerifyParent
    case Guard => VerifyGuard
  }

  /** A token made by a generator, sent as `Bearer <token>`, passes exactly
    * the gates that admit its role; in particular its own gate and
    * `verifyAny`. */
  lemma GeneratedTokenAdmission(g: Gate, rol: Role, principal: Id, token: string, verifier: Verifier)
    requires rol != Guard && ' ' !in token
    requires verifier(token) == Some(GenerateToken(rol, principal))
    ensures Verify(g, Some("Bearer " + token), verifier)
         == if Admits(g, rol) then Next(AuthContext(principal, rol)) else Respond(Forbidden)
    ensures Verify(OwnGate(rol), Some("Bearer " + token), verifier) == Next(AuthContext(principal, rol))
    ensures Verify(VerifyAny, Some("Bearer " + token), verifier) == Next(AuthContext(principal, rol))
  {
    BearerAuthenticates(token, verifier);
  }

  /** The request object the middleware decorates. */
  class Request {
    const authorization: Option<string>
    var user: Option<AuthContext>

    constructor (authorization: Option<string>)
      ensures this.authorization == authorization && user == None
    {
      this.authorization := authorization;
      user := None;
    }

    /** `verifyToken`: sets `req.user` to the decoded claims on success. */
    method VerifyToken(verifier: Verifier) returns (next: bool, status: int)
      modifies this`user
      ensures next <==> Authenticate(authorization, verifier).Authenticated?
      ensures next ==> user == Some(Authenticate(authorization, verifier).user)
      ensures !next ==> user == old(user)
      ensures !next ==> status == if Authenticate(authorization, verifier).NoHeader? then Unauthorized else Forbidden
    {
      if authorization.None? || authorization.value == "" {
        return false, Unauthorized;
      }
      var token := TokenOf(authorization.value);
      if token.None? {
        return false, Forbidden;
      }
      var decoded := verifier(token.value);
      if decoded.None? {
        return false, Forbidden;
      }
      user := decoded;
      next, status := true, Ok;
    }

    /** A role gate: `verifyToken` followed by the role test. A request
      * refused for its role keeps the `req.user` that `verifyToken` set. */
    method Check(g: Gate, verifier: Verifier) returns (next: bool, status: int)
      modifies this`user
      ensures next <==> Verify(g, authorization, verifier).Next?
      ensures next ==> user == Some(Verify(g, authorization, verifier).user)
      ensures !next ==> status == Verify(g, authorization, verifier).status
      ensures Authenticate(authorization, verifier).Authenticated? ==>
        user == Some(Authenticate(authorization, verifier).user)
      ensures !Authenticate(authorization, verifier).Authenticated? ==> user == old(user)
    {
      next, status := VerifyToken(verifier);
      if next {
        if !Admits(g, user.value.rol) {
          next, status := false, Forbidden;
        }
      }
    }
  }
}

=== FILE: links.dfy ===
/**
 * The cross-collection link updates the handlers issue (`$addToSet`,
 * `$pull` and `$unset` through `findByIdAndUpdate`, `updateOne` and
 * `updateMany`). Each leaves every document it does not target as it was
 * and never creates or removes a document; a target id that does not
 * exist is skipped.
 */
module Links {
  import opened Common
  import opened Store

  /** `Teacher.findByIdAndUpdate(t, { $addToSet: { classes: c } })`. */
  function TeacherAddClass(teachers: map<Id, TeacherDoc>, t: Id, c: Id): (r: map<Id, TeacherDoc>)
    ensures r.Keys == teachers.Keys
    ensures t in r ==> r[t] == teachers[t].(classes := AddToSet(teachers[t].classes, c))
    ensures forall k :: k in r && k != t ==> r[k] == teachers[k]
  {
    if t in teachers then teachers[t := teachers[t].(classes := AddToSet(teachers[t].classes, c))] else teachers
  }

  /** `Teacher.findByIdAndUpdate(t, { $pull: { classes: c } })`. */
  function TeacherPullClass(teachers: map<Id, TeacherDoc>, t: Id, c: Id): (r: map<Id, TeacherDoc>)
    ensures r.Keys == teachers.Keys
    ensures t in r ==> r[t] == teachers[t].(classes := Without(teachers[t].classes, c))
    ensures forall k :: k in r && k != t ==> r[k] == teachers[k]
  {
    if t in teachers then teachers[t := teachers[t].(classes := Without(teachers[t].classes, c))] else teachers
  }

  /** `Subject.updateMany({ _id: { $in: ids } }, { $addToSet: { classes: c } })`. */
  function SubjectsAddClass(subjects: map<Id, SubjectDoc>, ids: set<Id>, c: Id): (r: map<Id, SubjectDoc>)
    ensures r.Keys == subjects.Keys
    ensures forall k :: k in r && k in ids ==> r[k] == subjects[k].(classes := AddToSet(subjects[k].classes, c))
    ensures forall k :: k in r && k !in ids ==> r[k] == subjects[k]
  {
    map k | k in subjects :: if k in ids then subjects[k].(classes := AddToSet(subjects[k].classes, c)) else subjects[k]
  }

  /** `Subject.updateMany({ _id: { $in: ids } }, { $pull: { classes: c } })`. */
  function SubjectsPullClass(subjects: map<Id, SubjectDoc>, ids: set<Id>, c: Id): (r: map<Id, SubjectDoc>)
    ensures r.Keys == subjects.Keys
    ensures forall k :: k in r && k in ids ==> r[k] == subjects[k].(classes := Without(subjects[k].classes, c))
    ensures forall k :: k in r && k !in ids ==> r[k] == subjects[k]
  {
    map k | k in subjects :: if k in ids then subjects[k].(classes := Without(subjects[k].classes, c)) else subjects[k]
  }

  /** `Teacher.updateMany({ _id: { $in: ids } }, { $addToSet: { subjects: s } })`. */
  function TeachersAddSubject(teachers: map<Id, TeacherDoc>, ids: set<Id>, s: Id): (r: map<Id, TeacherDoc>)
    ensures r.Keys == teachers.Keys
    ensures forall k :: k in r && k in ids ==> r[k] == teachers[k].(subjects := AddToSet(teachers[k].subjects, s))
    ensures forall k :: k in r && k !in ids ==> r[k] == teachers[k]
  {
    map k | k in teachers :: if k in ids then teachers[k].(subjects := AddToSet(teachers[k].subjects, s)) else teachers[k]
  }

  /** `Teacher.updateMany({ _id: { $in: ids } }, { $pull: { subjects: s } })`. */
  function TeachersPullSubject(teachers: map<Id, TeacherDoc>, ids: set<Id>, s: Id): (r: map<Id, TeacherDoc>)
    ensures r.Keys == teachers.Keys
    ensures forall k :: k in r && k in ids ==> r[k] == teachers[k].(subjects := Without(teachers[k].subjects, s))
    ensures forall k :: k in r && k !in ids ==> r[k] == teachers[k]
  {
    map k | k in teachers :: if k in ids then teachers[k].(subjects := Without(teachers[k].subjects, s)) else teachers[k]
  }

  /** The ids of the teachers whose `subjects` list `s`. */
  function TeachersOfSubject(teachers: map<Id, TeacherDoc>, s: Id): (r: set<Id>)
    ensures forall k :: k in r <==> k in teachers && s in teachers[k].subjects
  {
    set k | k in teachers && s in teachers[k].subjects
  }

  /** `Subject.updateMany({ teachers: t }, { $pull: { teachers: t } })`. */
  function SubjectsPullTeacher(subjects: map<Id, SubjectDoc>, t: Id): (r: map<Id, SubjectDoc>)
    ensures r.Keys == subjects.Keys
    ensures forall k :: k in r ==> r[k] == subjects[k].(teachers := Without(subjects[k].teachers, t))
  {
    map k | k in subjects :: subjects[k].(teachers := Without(subjects[k].teachers, t))
  }

  /** `Student.updateMany({ _id: { $in: ids } }, { $unset: { class: "" } })`. */
  function StudentsUnsetClass(students: map<Id, StudentDoc>, ids: set<Id>): (r: map<Id, StudentDoc>)
    ensures r.Keys == students.Keys
    ensures forall k :: k in r && k in ids ==> r[k] == students[k].(classId := None)
    ensures forall k :: k in r && k !in ids ==> r[k] == students[k]
  {
    map k | k in students :: if k in ids then students[k].(classId := None) else students[k]
  }

  /** `Student.updateMany(filter, { $set: { parent: p } })` or `$unset`. */
  function StudentsSetParent(students: map<Id, StudentDoc>, ids: set<Id>, p: Option<Id>): (r: map<Id, StudentDoc>)
    ensures r.Keys == students.Keys
    ensures forall k :: k in r && k in ids ==> r[k] == students[k].(parent := p)
    ensures forall k :: k in r && k !in ids ==> r[k] == students[k]
  {
    map k | k in students :: if k in ids then students[k].(parent := p) else students[k]
  }

  /** `Student.updateMany(filter, { $unset: { transportation: "" } })`. */
  function StudentsUnsetTransport(students: map<Id, StudentDoc>, ids: set<Id>): (r: map<Id, StudentDoc>)
    ensures r.Keys == students.Keys
    ensures forall k :: k in r && k in ids ==> r[k] == students[k].(transportation := None)
    ensures forall k :: k in r && k !in ids ==> r[k] == students[k]
  {
    map k | k in students :: if k in ids then students[k].(transportation := None) else students[k]
  }

  /** `Activity.updateMany({ participants: s }, { $pull: { participants: s } })`. */
  function ActivitiesPullParticipant(activities: map<Id, ActivityDoc>, s: Id): (r: map<Id, ActivityDoc>)
    ensures r.Keys == activities.Keys
    ensures forall k :: k in r ==> r[k] == activities[k].(participants := Without(activities[k].participants, s))
  {
    map k | k in activities :: activities[k].(participants := Without(activities[k].participants, s))
  }

  /** `Driver.findByIdAndUpdate(d, { $addToSet: { vehicles: v } })`. */
  function DriverAddVehicle(drivers: map<Id, DriverDoc>, d: Id, v: Id): (r: map<Id, DriverDoc>)
    ensures r.Keys == drivers.Keys
    ensures d in r ==> r[d] == drivers[d].(vehicles := AddToSet(drivers[d].vehicles, v))
    ensures forall k :: k in r && k != d ==> r[k] == drivers[k]
  {
    if d in drivers then drivers[d := drivers[d].(vehicles := AddToSet(drivers[d].vehicles, v))] else drivers
  }

  /** `Driver.findByIdAndUpdate(d, { $pull: { vehicles: v } })`. */
  function DriverPullVehicle(drivers: map<Id, DriverDoc>, d: Id, v: Id): (r: map<Id, DriverDoc>)
    ensures r.Keys == drivers.Keys
    ensures d in r ==> r[d] == drivers[d].(vehicles := Without(drivers[d].vehicles, v))
    ensures forall k :: k in r && k != d ==> r[k] == drivers[k]
  {
    if d in drivers then drivers[d := drivers[d].(vehicles := Without(drivers[d].vehicles, v))] else drivers
  }

  /** `Transportation.updateMany({ _id: { $in: ids } }, { $unset: { driver: "" } })`. */
  function TransportsUnsetDriver(transports: map<Id, TransportDoc>, ids: set<Id>): (r: map<Id, TransportDoc>)
    ensures r.Keys == transports.Keys
    ensures forall k :: k in r && k in ids ==> r[k] == transports[k].(driver := None)
    ensures forall k :: k in r && k !in ids ==> r[k] == transports[k]
  {
    map k | k in transports :: if k in ids then transports[k].(driver := None) else transports[k]
  }

  /** `Class.updateMany({ _id: { $in: ids } }, { $unset: { cycle: "" } })`. */
  function ClassesUnsetCycle(classes: map<Id, ClassDoc>, ids: set<Id>): (r: map<Id, ClassDoc>)
    ensures r.Keys == classes.Keys
    ensures forall k :: k in r && k in ids ==> r[k] == classes[k].(cycle := None)
    ensures forall k :: k in r && k !in ids ==> r[k] == classes[k]
  {
    map k | k in classes :: if k in ids then classes[k].(cycle := None) else classes[k]
  }
}

=== FILE: parent_routes.dfy ===
/**
 * Parents: registration by a school with links to their children, profile,
 * deletion, adding a child, and the parent's views of a child's exams,
 * attendance and activities, each behind the `childId ∈ children` gate.
 */
module ParentRoutes {
  import opened Common
  import opened Jwt
  import opened Store
  import opened Links
  import AttendanceRoutes

  /** POST /parents. Emails are unique across all schools. Every listed
    * child that exists gets this parent, whatever its school and whatever
    * parent it had. */
  method Create(db: Db, user: AuthContext, email: string, children: Option<seq<Id>>, fields: Fields, newId: Id)
    returns (status: int)
    requires Admits(VerifySchool, user.rol)
    requires newId !in db.parents
    modifies db`parents, db`students
    ensures status == BadRequest <==> exists p :: p in old(db.parents) && old(db.parents)[p].email == email
    ensures status == BadRequest ==> db.parents == old(db.parents) && db.students == old(db.students)
    ensures status != BadRequest ==>
      status == Created
      && db.parents == old(db.parents)[newId := ParentDoc(user.id, email, children.GetOr([]), fields)]
      && db.students == StudentsSetParent(old(db.students), Elems(children.GetOr([])), Some(newId))
    ensures status != BadRequest ==>
      forall s :: s in db.students && s in children.GetOr([]) ==> db.students[s].parent == Some(newId)
  {
    if exists p :: p in db.parents && db.parents[p].email == email {
      return BadRequest;
    }
    var kids := children.GetOr([]);
    db.parents := db.parents[newId := ParentDoc(user.id, email, kids, fields)];
    db.students := StudentsSetParent(db.students, Elems(kids), Some(newId));
    return Created;
  }

  /** GET /parent/profile. */
  function Profile(parents: map<Id, ParentDoc>, user: AuthContext): (r: Outcome<ParentDoc>)
    requires Admits(VerifyParent, user.rol)
    ensures r.Done? <==> user.id in parents
    ensures r.Done? ==> r.value == parents[user.id]
    ensures r.Refused? ==> r.status == NotFound
  {
    if user.id in parents then Done(parents[user.id]) else Refused(NotFound)
  }

  const ProfileKeys: set<string> := {"firstName", "lastName", "phoneNumber", "address", "occupation", "image"}

  /** The `$set` of PUT /parent/profile: truthy fields only; an empty
    * email is not copied. */
  function ApplyProfile(p: ParentDoc, email: string, body: Fields): (r: ParentDoc)
    ensures r.email == (if email != "" then email else p.email)
    ensures r.school == p.school && r.children == p.children
    ensures forall k :: k in p.fields && !Provided(body, k, ProfileKeys, {}) ==> k in r.fields && r.fields[k] == p.fields[k]
    ensures forall k :: Provided(body, k, ProfileKeys, {}) ==> k in r.fields && r.fields[k] == body[k]
  {
    p.(email := if email != "" then email else p.email, fields := MergeFields(p.fields, body, ProfileKeys, {}))
  }

  /** PUT /parent/profile: a missing parent record is not an error. */
  method UpdateProfile(db: Db, user: AuthContext, email: string, body: Fields) returns (status: int)
    requires Admits(VerifyParent, user.rol)
    modifies db`parents
    ensures status == Ok
    ensures db.parents == if user.id in old(db.parents) then old(db.parents)[user.id := ApplyProfile(old(db.parents)[user.id], email, body)]
                          else old(db.parents)
  {
    if user.id in db.parents {
      db.parents := db.parents[user.id := ApplyProfile(db.parents[user.id], email, body)];
    }
    return Ok;
  }

  /** GET /parents: the caller's parents. */
  function List(parents: map<Id, ParentDoc>, user: AuthContext): (r: set<Id>)
    requires Admits(VerifySchool, user.rol)
    ensures forall p :: p in r <==> p in parents && parents[p].school == user.id
  {
    set p | p in parents && parents[p].school == user.id
  }

  /** The ids of the students whose `parent` is `p`. */
  function ChildrenOf(students: map<Id, StudentDoc>, p: Id): (r: set<Id>)
    ensures forall s :: s in r <==> s in students && students[s].parent == Some(p)
  {
    set s | s in students && students[s].parent == Some(p)
  }

  /** DELETE /parents/:id: every student that names the parent loses it. */
  method Delete(db: Db, user: AuthContext, id: Id) returns (status: int)
    requires Admits(VerifySchool, user.rol)
    modifies db`parents, db`students
    ensures status == Ok <==> id in old(db.parents) && old(db.parents)[id].school == user.id
    ensures status != Ok ==> status == NotFound && db.parents == old(db.parents) && db.students == old(db.students)
    ensures status == Ok ==>
      db.parents == old(db.parents) - {id}
      && db.students == StudentsSetParent(old(db.students), ChildrenOf(old(db.students), id), None)
      && (forall s :: s in db.students ==> db.students[s].parent != Some(id))
  {
    if !(id in db.parents && db.parents[id].school == user.id) {
      return NotFound;
    }
    db.parents := db.parents - {id};
    db.students := StudentsSetParent(db.students, ChildrenOf(db.students, id), None);
    return Ok;
  }

  /** POST /parents/:id/children. The student may belong to any school. A
    * child already listed is left as it is on both sides. */
  method AddChild(db: Db, user: AuthContext, id: Id, studentId: Option<Id>) returns (status: int)
    requires Admits(VerifySchool, user.rol)
    modifies db`parents, db`students
    ensures studentId.None? ==> status == BadRequest
    ensures status == Ok <==>
      studentId.Some? && id in old(db.parents) && old(db.parents)[id].school == user.id && studentId.value in old(db.students)
    ensures status == Ok && studentId.value !in old(db.parents)[id].children ==>
      db.parents == old(db.parents)[id := old(db.parents)[id].(children := old(db.parents)[id].children + [studentId.value])]
      && db.students == old(db.students)[studentId.value := old(db.students)[studentId.value].(parent := Some(id))]
    ensures status != Ok || studentId.value in old(db.parents)[id].children ==>
      db.parents == old(db.parents) && db.students == old(db.students)
    ensures status != Ok ==> status == BadRequest || status == NotFound
  {
    if studentId.None? {
      return BadRequest;
    }
    if !(id in db.parents && db.parents[id].school == user.id) {
      return NotFound;
    }
    var s := studentId.value;
    if s !in db.students {
      return NotFound;
    }
    var p := db.parents[id];
    if s !in p.children {
      db.parents := db.parents[id := p.(children := p.children + [s])];
      db.students := db.students[s := db.students[s].(parent := Some(id))];
    }
    return Ok;
  }

  /** GET /parent/children: the listed children that exist. */
  function Children(parents: map<Id, ParentDoc>, students: map<Id, StudentDoc>, user: AuthContext): (r: Outcome<set<Id>>)
    requires Admits(VerifyParent, user.rol)
    ensures user.id !in parents ==> r == Refused(NotFound)
    ensures user.id in parents ==> r.Done? && forall s :: s in r.value <==> s in students && s in parents[user.id].children
  {
    if user.id !in parents then Refused(NotFound)
    else Done(set s | s in students && s in parents[user.id].children)
  }

  /** The gate in front of the child views: a parent record that no longer
    * exists makes the handler fail with 500; a child that is not listed
    * gives 403. */
  function ChildRefusal(parents: map<Id, ParentDoc>, user: AuthContext, childId: Id): (r: Option<int>)
    ensures r.None? <==> user.id in parents && childId in parents[user.id].children
    ensures user.id !in parents ==> r == Some(ServerError)
    ensures user.id in parents && childId !in parents[user.id].children ==> r == Some(Forbidden)
  {
    if user.id !in parents then Some(ServerError)
    else if childId !in parents[user.id].children then Some(Forbidden)
    else None
  }

  /** The first result of `student` in an exam. */
  function FindResult(results: seq<ExamResult>, student: Id): (r: Option<ExamResult>)
    ensures r.None? <==> forall i :: 0 <= i < |results| ==> results[i].student != student
    ensures r.Some? ==>
      exists i :: 0 <= i < |results| && results[i] == r.value && results[i].student == student
                  && forall j :: 0 <= j < i ==> results[j].student != student
  {
    if results == [] then None
    else if results[0].student == student then Some(results[0])
    else
      var r := FindResult(results[1..], student);
      assert forall i :: 0 < i < |results| ==> results[1..][i - 1] == results[i];
      r
  }

  /** One line of GET /parent/children/:childId/exams; marks, status and
    * remarks are null when the exam holds no result for the child. */
  datatype ExamEntry = ExamEntry(subject: Id, teacher: Id, passingMarks: int,
                                 marks: Option<int>, status: Option<Grade>, remarks: Option<string>)

  function ExamEntryOf(exam: ExamDoc, child: Id): ExamEntry
  {
    var res := FindResult(exam.results, child);
    ExamEntry(exam.subject, exam.teacher, exam.passingMarks,
      if res.Some? then Some(res.value.marks) else None,
      if res.Some? then Some(res.value.status) else None,
      if res.Some? then res.value.remarks else None)
  }

  /** GET /parent/children/:childId/exams: one entry per exam holding a
    * result of the child, whatever school or subject it belongs to. */
  function ChildExams(parents: map<Id, ParentDoc>, exams: map<Id, ExamDoc>, user: AuthContext, childId: Id)
    : (r: Outcome<map<Id, ExamEntry>>)
    requires Admits(VerifyParent, user.rol)
    ensures ChildRefusal(parents, user, childId).Some? ==> r == Refused(ChildRefusal(parents, user, childId).value)
    ensures r.Done? ==> forall e :: e in r.value <==> e in exams && FindResult(exams[e].results, childId).Some?
    ensures r.Done? ==> forall e :: e in r.value ==> r.value[e] == ExamEntryOf(exams[e], childId)
  {
    var refusal := ChildRefusal(parents, user, childId);
    if refusal.Some? then Refused(refusal.value)
    else Done(map e | e in exams && FindResult(exams[e].results, childId).Some? :: ExamEntryOf(exams[e], childId))
  }

  /** The entry carries the mark and grade of one of the child's results
    * in the exam. */
  predicate ReportsResult(exam: ExamDoc, child: Id, entry: ExamEntry)
  {
    entry.marks.Some? && entry.status.Some?
    && exists i :: 0 <= i < |exam.results| && exam.results[i].student == child
                   && exam.results[i].marks == entry.marks.value && exam.results[i].status == entry.status.value
  }

  /** Since only exams holding a result of the child are listed, no entry
    * of the exam view is ever null. */
  lemma ExamEntriesNeverNull(parents: map<Id, ParentDoc>, exams: map<Id, ExamDoc>, user: AuthContext, childId: Id)
    requires Admits(VerifyParent, user.rol)
    requires ChildExams(parents, exams, user, childId).Done?
    ensures var r := ChildExams(parents, exams, user, childId).value;
      forall e :: e in r ==> ReportsResult(exams[e], childId, r[e])
  {
    var r := ChildExams(parents, exams, user, childId).value;
    forall e | e in r
      ensures ReportsResult(exams[e], childId, r[e])
    {
      var res := FindResult(exams[e].results, childId);
      assert res.Some?;
      assert r[e] == ExamEntryOf(exams[e], childId);
    }
  }

  /** GET /parent/children/:childId/attendance: one entry per sheet
    * listing the child, with the status and remarks of its first line. */
  function ChildAttendance(parents: map<Id, ParentDoc>, attendances: map<Id, AttendanceDoc>, user: AuthContext,
                           childId: Id): (r: Outcome<map<Id, AttendanceRoutes.HistoryEntry>>)
    requires Admits(VerifyParent, user.rol)
    ensures ChildRefusal(parents, user, childId).Some? ==> r == Refused(ChildRefusal(parents, user, childId).value)
    ensures r.Done? ==>
      forall a :: a in r.value <==> a in attendances && AttendanceRoutes.FindRecord(attendances[a].records, childId).Some?
    ensures r.Done? ==> forall a :: a in r.value ==> r.value[a] == AttendanceRoutes.EntryOf(attendances[a], childId)
  {
    var refusal := ChildRefusal(parents, user, childId);
    if refusal.Some? then Refused(refusal.value)
    else Done(map a | a in attendances && AttendanceRoutes.FindRecord(attendances[a].records, childId).Some?
                   :: AttendanceRoutes.EntryOf(attendances[a], childId))
  }

  /** GET /parent/children/:childId/activities: the child's listed
    * activities that exist; none when the child record is missing. */
  function ChildActivities(parents: map<Id, ParentDoc>, students: map<Id, StudentDoc>,
                           activities: map<Id, ActivityDoc>, user: AuthContext, childId: Id): (r: Outcome<set<Id>>)
    requires Admits(VerifyParent, user.rol)
    ensures ChildRefusal(parents, user, childId).Some? ==> r == Refused(ChildRefusal(parents, user, childId).value)
    ensures ChildRefusal(parents, user, childId).None? ==> r.Done?
    ensures r.Done? && childId !in students ==> r.value == {}
    ensures r.Done? && childId in students ==>
      forall a :: a in r.value <==> a in activities && a in students[childId].activities
  {
    var refusal := ChildRefusal(parents, user, childId);
    if refusal.Some? then Refused(refusal.value)
    else if childId !in students then Done({})
    else Done(set a | a in activities && a in students[childId].activities)
  }
}

=== FILE: schedule_routes.dfy ===
/**
 * Weekly class schedules: a schedule is one class's periods on one school
 * day. Start and end times follow the pattern `^([0-1]?[0-9]|2[0-3]):[0-5][0-9]$`,
 * and two schedules of a class on the same day may not share a start time.
 * This file never requires the Guard model, so a guard's request fails
 * with 500 when the tenant is resolved.
 */
module ScheduleRoutes {
  import opened Common
  import opened Jwt
  import opened Store
  import opened Tenant

  // ---------------------------------------------------------------------
  // Days and times

  /** The days of the Schedule schema and of the handlers' `validDays`. */
  predicate ValidDay(day: string)
  {
    day in ["Monday", "Tuesday", "Wednesday", "Thursday", "Friday"]
  }

  lemma WeekendRejected()
    ensures !ValidDay("Saturday") && !ValidDay("Sunday") && !ValidDay("monday")
  {
  }

  predicate IsDigit(c: char)
  {
    '0' <= c <= '9'
  }

  function DigitValue(c: char): (d: nat)
    requires IsDigit(c)
    ensures d <= 9
  {
    (c as int) - ('0' as int)
  }

  function DigitChar(d: nat): (c: char)
    requires d <= 9
    ensures IsDigit(c) && DigitValue(c) == d
  {
    (d + '0' as int) as char
  }

  /** The hour part `[0-1]?[0-9]|2[0-3]`. */
  predicate ValidHour(h: string)
  {
    (|h| == 1 && IsDigit(h[0]))
    || (|h| == 2 && '0' <= h[0] <= '1' && IsDigit(h[1]))
    || (|h| == 2 && h[0] == '2' && '0' <= h[1] <= '3')
  }

  /** `timeRegex.test(s)`: an hour part, a colon, then minutes `[0-5][0-9]`. */
  predicate ValidTime(s: string)
  {
    |s| >= 4 && s[|s| - 3] == ':' && '0' <= s[|s| - 2] <= '5' && IsDigit(s[|s| - 1])
    && ValidHour(s[..|s| - 3])
  }

  function HourOf(s: string): (h: nat)
    requires ValidTime(s)
    ensures h <= 23
  {
    var hh := s[..|s| - 3];
    if |hh| == 1 then DigitValue(hh[0]) else 10 * DigitValue(hh[0]) + DigitValue(hh[1])
  }

  function MinuteOf(s: string): (m: nat)
    requires ValidTime(s)
    ensures m <= 59
  {
    10 * DigitValue(s[|s| - 2]) + DigitValue(s[|s| - 1])
  }

  /** A number below 100 written with two digits. */
  function TwoDigits(n: nat): (r: string)
    requires n <= 99
    ensures |r| == 2
  {
    [DigitChar(n / 10), DigitChar(n % 10)]
  }

  /** The `HH:MM` spelling of a time of day. */
  function ClockTime(h: nat, m: nat): (r: string)
    requires h <= 23 && m <= 59
    ensures |r| == 5
  {
    TwoDigits(h) + ":" + TwoDigits(m)
  }

  /** Every time of day spelled `HH:MM` is accepted, and so is the
    * one-digit hour spelling `H:MM`. */
  lemma ClockTimeAccepted(h: nat, m: nat)
    requires h <= 23 && m <= 59
    ensures ValidTime(ClockTime(h, m))
    ensures HourOf(ClockTime(h, m)) == h && MinuteOf(ClockTime(h, m)) == m
    ensures h <= 9 ==> ValidTime([DigitChar(h)] + ":" + TwoDigits(m))
  {
    var s := ClockTime(h, m);
    assert s[..2] == TwoDigits(h);
    if h <= 9 {
      var t := [DigitChar(h)] + ":" + TwoDigits(m);
      assert t[..1] == [DigitChar(h)];
    }
  }

  /** An accepted time is one of those spellings of a time of day, read
    * back by `HourOf` and `MinuteOf`. */
  lemma AcceptedIsClockTime(s: string)
    requires ValidTime(s)
    ensures |s| == 5 ==> s == ClockTime(HourOf(s), MinuteOf(s))
    ensures |s| == 4 ==> s == [DigitChar(HourOf(s))] + ":" + TwoDigits(MinuteOf(s))
    ensures |s| == 4 || |s| == 5
  {
    var hh := s[..|s| - 3];
    assert |hh| == 1 || |hh| == 2;
    if |s| == 5 {
      var r := ClockTime(HourOf(s), MinuteOf(s));
      assert r[0] == s[0] && r[1] == s[1] && r[2] == s[2] && r[3] == s[3] && r[4] == s[4];
    } else {
      var r := [DigitChar(HourOf(s))] + ":" + TwoDigits(MinuteOf(s));
      assert r[0] == s[0] && r[1] == s[1] && r[2] == s[2] && r[3] == s[3];
    }
  }

  lemma OutOfRangeTimesRejected()
    ensures !ValidTime("24:00") && !ValidTime("12:60") && !ValidTime("7:5") && !ValidTime("123:45")
  {
    assert "24:00"[..2] == "24";
    assert "123:45"[..3] == "123";
  }

  // ---------------------------------------------------------------------
  // Periods

  /** The status the validation of one period stops with, if any: a
    * malformed time (400), a subject outside the school (404), or a given
    * teacher outside the school (404). */
  function PeriodError(p: Period, subjects: map<Id, SubjectDoc>, teachers: map<Id, TeacherDoc>, school: Id)
    : (r: Option<int>)
    ensures r.None? <==>
      ValidTime(p.startTime) && ValidTime(p.endTime)
      && p.subjectId in subjects && subjects[p.subjectId].school == school
      && (p.teacherId.Some? ==> p.teacherId.value in teachers && teachers[p.teacherId.value].school == school)
    ensures !(ValidTime(p.startTime) && ValidTime(p.endTime)) ==> r == Some(BadRequest)
    ensures r.Some? && r.value != BadRequest ==> r.value == NotFound
  {
    if !ValidTime(p.startTime) || !ValidTime(p.endTime) then Some(BadRequest)
    else if !(p.subjectId in subjects && subjects[p.subjectId].school == school) then Some(NotFound)
    else if p.teacherId.Some? && !(p.teacherId.value in teachers && teachers[p.teacherId.value].school == school)
    then Some(NotFound)
    else None
  }

  /** The status of the first period that fails, or None when all pass. */
  function FirstPeriodError(periods: seq<Period>, subjects: map<Id, SubjectDoc>, teachers: map<Id, TeacherDoc>,
                            school: Id)
    : (r: Option<int>)
    ensures r.None? <==> forall i :: 0 <= i < |periods| ==> PeriodError(periods[i], subjects, teachers, school).None?
    ensures r.Some? ==>
      exists i :: 0 <= i < |periods| && PeriodError(periods[i], subjects, teachers, school) == r
                  && forall j :: 0 <= j < i ==> PeriodError(periods[j], subjects, teachers, school).None?
  {
    if periods == [] then None
    else
      var e := PeriodError(periods[0], subjects, teachers, school);
      if e.Some? then e
      else
        var rest := FirstPeriodError(periods[1..], subjects, teachers, school);
        assert forall i :: 1 <= i < |periods| ==> periods[1..][i - 1] == periods[i];
        rest
  }

  /** The `for (const period of periods)` loop. */
  method CheckPeriods(periods: seq<Period>, subjects: map<Id, SubjectDoc>, teachers: map<Id, TeacherDoc>, school: Id)
    returns (error: Option<int>)
    ensures error == FirstPeriodError(periods, subjects, teachers, school)
  {
    var i := 0;
    while i < |periods|
      invariant 0 <= i <= |periods|
      invariant FirstPeriodError(periods[i..], subjects, teachers, school)
                == FirstPeriodError(periods, subjects, teachers, school)
    {
      var e := PeriodError(periods[i], subjects, teachers, school);
      if e.Some? {
        return e;
      }
      assert periods[i..][1..] == periods[i + 1..];
      i := i + 1;
    }
    return None;
  }

  /** The start times of a list of periods. */
  function StartTimes(periods: seq<Period>): (r: seq<string>)
    ensures |r| == |periods|
    ensures forall i :: 0 <= i < |periods| ==> r[i] == periods[i].startTime
  {
    if periods == [] then [] else [periods[0].startTime] + StartTimes(periods[1..])
  }

  /** Whether schedule `s` of a class on a day shares a start time with
    * `starts`. */
  predicate Clashes(s: ScheduleDoc, classId: Id, day: string, starts: seq<string>)
  {
    s.classId == classId && s.day == day && exists p :: p in s.periods && p.startTime in starts
  }

  /** The conflict query: another schedule (not `except`) of the class on
    * that day sharing a start time. */
  predicate Conflict(schedules: map<Id, ScheduleDoc>, classId: Id, day: string, starts: seq<string>, except: Option<Id>)
  {
    exists k :: k in schedules && Some(k) != except && Clashes(schedules[k], classId, day, starts)
  }

  /** No two schedules of a class on the same day share a start time. */
  predicate NoClashes(schedules: map<Id, ScheduleDoc>)
  {
    forall a, b :: a in schedules && b in schedules && a != b
      ==> !Clashes(schedules[a], schedules[b].classId, schedules[b].day, StartTimes(schedules[b].periods))
  }

  /** Sharing a start time is symmetric. */
  lemma ClashSymmetric(x: ScheduleDoc, y: ScheduleDoc)
    ensures Clashes(x, y.classId, y.day, StartTimes(y.periods)) ==> Clashes(y, x.classId, x.day, StartTimes(x.periods))
  {
    if Clashes(x, y.classId, y.day, StartTimes(y.periods)) {
      var p :| p in x.periods && p.startTime in StartTimes(y.periods);
      var i :| 0 <= i < |y.periods| && StartTimes(y.periods)[i] == p.startTime;
      var j :| 0 <= j < |x.periods| && x.periods[j] == p;
      assert StartTimes(x.periods)[j] == p.startTime;
      assert y.periods[i] in y.periods;
    }
  }

  /** A schedule added after a negative conflict query keeps the schedules
    * free of clashes. */
  lemma NoConflictKeepsNoClashes(schedules: map<Id, ScheduleDoc>, k: Id, s: ScheduleDoc)
    requires NoClashes(schedules) && k !in schedules
    requires !Conflict(schedules, s.classId, s.day, StartTimes(s.periods), None)
    ensures NoClashes(schedules[k := s])
  {
    var after := schedules[k := s];
    forall a, b | a in after && b in after && a != b
      ensures !Clashes(after[a], after[b].classId, after[b].day, StartTimes(after[b].periods))
    {
      if a == k {
        ClashSymmetric(s, schedules[b]);
        assert !Clashes(schedules[b], s.classId, s.day, StartTimes(s.periods));
      } else if b == k {
        assert !Clashes(schedules[a], s.classId, s.day, StartTimes(s.periods));
      }
    }
  }

  // ---------------------------------------------------------------------
  // Handlers

  predicate ClassOfSchool(classes: map<Id, ClassDoc>, classId: Id, school: Id)
  {
    classId in classes && classes[classId].school == school
  }

  /** POST /schedules. The checks run in this order: tenant, class of the
    * school (404), day (400), non-empty periods (400), each period, and
    * the conflict query (400). */
  method Create(db: Db, user: AuthContext, classId: Id, day: string, periods: seq<Period>, newId: Id)
    returns (status: int)
    requires Admits(VerifyGuardOrSchool, user.rol)
    requires newId !in db.schedules
    modifies db`schedules
    ensures user.rol == Guard ==> status == ServerError
    ensures status == Created <==>
      user.rol == School && ClassOfSchool(db.classes, classId, user.id)
      && ValidDay(day) && periods != []
      && (forall i :: 0 <= i < |periods| ==> PeriodError(periods[i], db.subjects, db.teachers, user.id).None?)
      && !Conflict(old(db.schedules), classId, day, StartTimes(periods), None)
    ensures status == Created ==> db.schedules == old(db.schedules)[newId := ScheduleDoc(classId, user.id, day, periods)]
    ensures status != Created ==> db.schedules == old(db.schedules)
    ensures status == Created && NoClashes(old(db.schedules)) ==> NoClashes(db.schedules)
    // the status of the first check that fails
    ensures user.rol == School && !ClassOfSchool(db.classes, classId, user.id) ==> status == NotFound
    ensures user.rol == School && ClassOfSchool(db.classes, classId, user.id) && !(ValidDay(day) && periods != []) ==>
      status == BadRequest
    ensures user.rol == School && ClassOfSchool(db.classes, classId, user.id) && ValidDay(day) && periods != []
      && FirstPeriodError(periods, db.subjects, db.teachers, user.id).Some?
      ==> status == FirstPeriodError(periods, db.subjects, db.teachers, user.id).value
    ensures user.rol == School && ClassOfSchool(db.classes, classId, user.id) && ValidDay(day) && periods != []
      && FirstPeriodError(periods, db.subjects, db.teachers, user.id).None?
      && Conflict(old(db.schedules), classId, day, StartTimes(periods), None)
      ==> status == BadRequest
  {
    var tenant := GetSchoolId(user, db.guards, false);
    if !tenant.InSchool? {
      return TenantError(tenant);
    }
    var school := tenant.school;
    if !ClassOfSchool(db.classes, classId, school) {
      return NotFound;
    }
    if !ValidDay(day) || periods == [] {
      return BadRequest;
    }
    var error := CheckPeriods(periods, db.subjects, db.teachers, school);
    if error.Some? {
      return error.value;
    }
    if Conflict(db.schedules, classId, day, StartTimes(periods), None) {
      return BadRequest;
    }
    if NoClashes(db.schedules) {
      NoConflictKeepsNoClashes(db.schedules, newId, ScheduleDoc(classId, school, day, periods));
    }
    db.schedules := db.schedules[newId := ScheduleDoc(classId, school, day, periods)];
    return Created;
  }

  predicate OwnSchedule(schedules: map<Id, ScheduleDoc>, id: Id, school: Id)
  {
    id in schedules && schedules[id].schoolId == school
  }

  /** PUT /schedules/:id. An empty `day` counts as not given. The conflict
    * query runs only when new periods are given, so moving a schedule to
    * another day alone is never checked for clashes. */
  method Update(db: Db, user: AuthContext, id: Id, day: string, periods: Option<seq<Period>>) returns (status: int)
    requires Admits(VerifyGuardOrSchool, user.rol)
    modifies db`schedules
    ensures user.rol == Guard ==> status == ServerError
    ensures status == Ok <==>
      user.rol == School && OwnSchedule(old(db.schedules), id, user.id)
      && (day != "" ==> ValidDay(day))
      && (periods.Some? ==>
            periods.value != []
            && (forall i :: 0 <= i < |periods.value| ==> PeriodError(periods.value[i], db.subjects, db.teachers, user.id).None?)
            && !Conflict(old(db.schedules), old(db.schedules)[id].classId,
                         if day != "" then day else old(db.schedules)[id].day, StartTimes(periods.value), Some(id)))
    ensures status == Ok ==>
      db.schedules == old(db.schedules)[id := old(db.schedules)[id].(
        day := if day != "" then day else old(db.schedules)[id].day,
        periods := periods.GetOr(old(db.schedules)[id].periods))]
    ensures status != Ok ==> db.schedules == old(db.schedules)
    // the status of the first check that fails
    ensures user.rol == School && !OwnSchedule(old(db.schedules), id, user.id) ==> status == NotFound
    ensures user.rol == School && OwnSchedule(old(db.schedules), id, user.id) && day != "" && !ValidDay(day) ==>
      status == BadRequest
    ensures user.rol == School && OwnSchedule(old(db.schedules), id, user.id) && (day != "" ==> ValidDay(day))
      && periods.Some?
      ==> var error := FirstPeriodError(periods.value, db.subjects, db.teachers, user.id);
      (periods.value == [] ==> status == BadRequest)
      && (periods.value != [] && error.Some? ==> status == error.value)
      && (periods.value != [] && error.None?
          && Conflict(old(db.schedules), old(db.schedules)[id].classId,
                      if day != "" then day else old(db.schedules)[id].day, StartTimes(periods.value), Some(id))
          ==> status == BadRequest)
  {
    var tenant := GetSchoolId(user, db.guards, false);
    if !tenant.InSchool? {
      return TenantError(tenant);
    }
    var school := tenant.school;
    if !OwnSchedule(db.schedules, id, school) {
      return NotFound;
    }
    var s := db.schedules[id];
    if day != "" && !ValidDay(day) {
      return BadRequest;
    }
    var newDay := if day != "" then day else s.day;
    if periods.Some? {
      if periods.value == [] {
        return BadRequest;
      }
      var error := CheckPeriods(periods.value, db.subjects, db.teachers, school);
      if error.Some? {
        return error.value;
      }
      if Conflict(db.schedules, s.classId, newDay, StartTimes(periods.value), Some(id)) {
        return BadRequest;
      }
    }
    db.schedules := db.schedules[id := s.(day := newDay, periods := periods.GetOr(s.periods))];
    return Ok;
  }

  /** GET /schedules: the tenant's schedules. */
  function List(schedules: map<Id, ScheduleDoc>, tenant: Tenant): (r: Outcome<set<Id>>)
    ensures !tenant.InSchool? ==> r == Refused(TenantError(tenant))
    ensures r.Done? ==> forall k :: k in r.value <==> OwnSchedule(schedules, k, tenant.school)
  {
    if !tenant.InSchool? then Refused(TenantError(tenant))
    else Done(set k | k in schedules && schedules[k].schoolId == tenant.school)
  }

  /** GET /schedules/class/:classId: 404 when the class has none. */
  function ForClass(schedules: map<Id, ScheduleDoc>, tenant: Tenant, classId: Id): (r: Outcome<set<Id>>)
    ensures !tenant.InSchool? ==> r == Refused(TenantError(tenant))
    ensures r.Done? ==> r.value != {}
    ensures r.Done? ==>
      forall k :: k in r.value <==> OwnSchedule(schedules, k, tenant.school) && schedules[k].classId == classId
    ensures tenant.InSchool? && r.Refused? ==>
      r.status == NotFound
      && forall k :: k in schedules ==> !(schedules[k].schoolId == tenant.school && schedules[k].classId == classId)
  {
    if !tenant.InSchool? then Refused(TenantError(tenant))
    else
      var found := set k | k in schedules && schedules[k].schoolId == tenant.school && schedules[k].classId == classId;
      if found == {} then
        assert forall k :: (k in schedules && schedules[k].schoolId == tenant.school && schedules[k].classId == classId)
                           ==> k in found;
        Refused(NotFound)
      else Done(found)
  }

  /** DELETE /schedules/:id. */
  method Delete(db: Db, user: AuthContext, id: Id) returns (status: int)
    requires Admits(VerifyGuardOrSchool, user.rol)
    modifies db`schedules
    ensures user.rol == Guard ==> status == ServerError
    ensures status == Ok <==> user.rol == School && OwnSchedule(old(db.schedules), id, user.id)
    ensures status == Ok ==> db.schedules == old(db.schedules) - {id}
    ensures status != Ok ==> db.schedules == old(db.schedules)
    ensures user.rol == School && !OwnSchedule(old(db.schedules), id, user.id) ==> status == NotFound
  {
    var tenant := GetSchoolId(user, db.guards, false);
    if !tenant.InSchool? {
      return TenantError(tenant);
    }
    if !OwnSchedule(db.schedules, id, tenant.school) {
      return NotFound;
    }
    db.schedules := db.schedules - {id};
    return Ok;
  }
}

=== FILE: staff_attendance.dfy ===
/**
 * Staff attendance: one sheet per school and date recording teachers,
 * guards, drivers and accompaniments, with a summary counting statuses and
 * staff types. All routes sit behind the guard-or-school gate and act for
 * the caller's tenant (see module Tenant).
 */
module StaffAttendanceRoutes {
  import opened Common
  import opened Jwt
  import opened Store
  import opened Tenant

  /** Which staff members exist, with the school each belongs to. */
  datatype Roster = Roster(
    teachers: map<Id, Id>, guards: map<Id, Id>, drivers: map<Id, Id>, accompaniments: map<Id, Id>)

  function RosterOf(db: Db): Roster
    reads db`teachers, db`guards, db`drivers, db`accompaniments
  {
    Roster(
      map t | t in db.teachers :: db.teachers[t].school,
      map g | g in db.guards :: db.guards[g].school,
      map d | d in db.drivers :: db.drivers[d].school,
      map a | a in db.accompaniments :: db.accompaniments[a].school)
  }

  /** The four staff types the routes and the schema accept. */
  predicate KnownType(t: StaffType)
  {
    !t.OtherStaff?
  }

  /** `<Model>.findOne({ _id: id, school })` for the model `t` names. */
  predicate Employs(roster: Roster, t: StaffType, id: Id, school: Id)
  {
    match t
    case TeacherStaff => id in roster.teachers && roster.teachers[id] == school
    case GuardStaff => id in roster.guards && roster.guards[id] == school
    case DriverStaff => id in roster.drivers && roster.drivers[id] == school
    case AccompanimentStaff => id in roster.accompaniments && roster.accompaniments[id] == school
    case OtherStaff(_) => false
  }

  /** Present and late staff must give a check-in time. */
  predicate NeedsCheckIn(r: StaffRecord)
  {
    r.status == Some(Present) || r.status == Some(Late)
  }

  /** The answer the validation loop gives for one record, None when it is
    * accepted. The create handler checks that the member belongs to the
    * school (`checkExists`); the update handler does not. */
  function StaffRecordError(r: StaffRecord, roster: Roster, school: Id, checkExists: bool): (e: Option<int>)
    ensures e.Some? ==> e.value == BadRequest || e.value == NotFound
    ensures e.None? ==> r.staffId.Some? && r.status.Some? && r.staffType.Some? && KnownType(r.staffType.value)
    ensures e.None? && checkExists ==> Employs(roster, r.staffType.value, r.staffId.value, school)
    ensures e.None? && NeedsCheckIn(r) ==> r.checkInTime.Some?
  {
    if r.staffId.None? || r.staffType.None? || r.status.None? then Some(BadRequest)
    else if !KnownType(r.staffType.value) then Some(BadRequest)
    else if checkExists && !Employs(roster, r.staffType.value, r.staffId.value, school) then Some(NotFound)
    else if NeedsCheckIn(r) && r.checkInTime.None? then Some(BadRequest)
    else None
  }

  predicate AllAccepted(records: seq<StaffRecord>, roster: Roster, school: Id, checkExists: bool)
  {
    forall i :: 0 <= i < |records| ==> StaffRecordError(records[i], roster, school, checkExists).None?
  }

  function CountStatus(records: seq<StaffRecord>, st: AttStatus): (n: nat)
    ensures n <= |records|
  {
    if records == [] then 0
    else CountStatus(records[..|records| - 1], st) + (if records[|records| - 1].status == Some(st) then 1 else 0)
  }

  function CountType(records: seq<StaffRecord>, t: StaffType): (n: nat)
    ensures n <= |records|
  {
    if records == [] then 0
    else CountType(records[..|records| - 1], t) + (if records[|records| - 1].staffType == Some(t) then 1 else 0)
  }

  /** The summary the loop accumulates over accepted records. */
  function StaffSummaryOf(records: seq<StaffRecord>): StaffSummary
  {
    StaffSummary(
      CountStatus(records, Present), CountStatus(records, Absent),
      CountStatus(records, Late), CountStatus(records, Excused),
      CountType(records, TeacherStaff), CountType(records, GuardStaff),
      CountType(records, DriverStaff), CountType(records, AccompanimentStaff))
  }

  /** The summary after the loop counts one more accepted record: one more
    * for its staff type and one more for its status (a status outside the
    * four named ones adds to none of them). */
  function Tallied(s: StaffSummary, r: StaffRecord): StaffSummary
  {
    StaffSummary(
      s.present + (if r.status == Some(Present) then 1 else 0),
      s.absent + (if r.status == Some(Absent) then 1 else 0),
      s.late + (if r.status == Some(Late) then 1 else 0),
      s.excused + (if r.status == Some(Excused) then 1 else 0),
      s.totalTeachers + (if r.staffType == Some(TeacherStaff) then 1 else 0),
      s.totalGuards + (if r.staffType == Some(GuardStaff) then 1 else 0),
      s.totalDrivers + (if r.staffType == Some(DriverStaff) then 1 else 0),
      s.totalAccompaniments + (if r.staffType == Some(AccompanimentStaff) then 1 else 0))
  }

  lemma TallyStep(records: seq<StaffRecord>, r: StaffRecord)
    ensures StaffSummaryOf(records + [r]) == Tallied(StaffSummaryOf(records), r)
  {
    assert (records + [r])[..|records|] == records;
  }

  function TypeTotal(s: StaffSummary): nat
  {
    s.totalTeachers + s.totalGuards + s.totalDrivers + s.totalAccompaniments
  }

  /** Every accepted record has one of the four staff types, so the type
    * totals of an accepted sheet add up to its number of records. */
  lemma {:induction false} TypeTotalsCoverRecords(records: seq<StaffRecord>, roster: Roster, school: Id, checkExists: bool)
    requires AllAccepted(records, roster, school, checkExists)
    ensures TypeTotal(StaffSummaryOf(records)) == |records|
  {
    if records != [] {
      var init := records[..|records| - 1];
      assert forall i :: 0 <= i < |init| ==> init[i] == records[i];
      TypeTotalsCoverRecords(init, roster, school, checkExists);
      assert StaffRecordError(records[|records| - 1], roster, school, checkExists).None?;
    }
  }

  function StatusTotal(s: StaffSummary): nat
  {
    s.present + s.absent + s.late + s.excused
  }

  /** Every record the schema accepts has one of the four statuses, so the
    * status counts of a stored sheet add up to its number of records. */
  lemma {:induction false} StatusTotalsCoverRecords(records: seq<StaffRecord>)
    requires SchemaStatuses(records)
    ensures StatusTotal(StaffSummaryOf(records)) == |records|
  {
    if records != [] {
      var init := records[..|records| - 1];
      assert forall i :: 0 <= i < |init| ==> init[i] == records[i];
      StatusTotalsCoverRecords(init);
      assert records[|records| - 1].status.Some?;
    }
  }

  /** The status of the first rejected record, or None when every record
    * is accepted. */
  function FirstStaffError(records: seq<StaffRecord>, roster: Roster, school: Id, checkExists: bool)
    : (r: Option<int>)
    ensures r.None? <==> AllAccepted(records, roster, school, checkExists)
    ensures r.Some? ==> r.value == BadRequest || r.value == NotFound
  {
    if records == [] then None
    else
      var e := StaffRecordError(records[0], roster, school, checkExists);
      if e.Some? then e
      else
        assert forall i :: 1 <= i < |records| ==> records[1..][i - 1] == records[i];
        FirstStaffError(records[1..], roster, school, checkExists)
  }

  /** The answer is the one of a rejected record all of whose predecessors
    * were accepted. */
  lemma {:induction false} FirstStaffErrorLocates(records: seq<StaffRecord>, roster: Roster, school: Id, checkExists: bool)
    requires FirstStaffError(records, roster, school, checkExists).Some?
    ensures exists i :: 0 <= i < |records| && AllAccepted(records[..i], roster, school, checkExists)
                        && StaffRecordError(records[i], roster, school, checkExists)
                           == FirstStaffError(records, roster, school, checkExists)
  {
    if StaffRecordError(records[0], roster, school, checkExists).Some? {
      assert AllAccepted(records[..0], roster, school, checkExists);
    } else {
      FirstStaffErrorLocates(records[1..], roster, school, checkExists);
      var j :| 0 <= j < |records[1..]| && AllAccepted(records[1..][..j], roster, school, checkExists)
               && StaffRecordError(records[1..][j], roster, school, checkExists)
                  == FirstStaffError(records[1..], roster, school, checkExists);
      assert records[..j + 1] == [records[0]] + records[1..][..j];
      assert AllAccepted(records[..j + 1], roster, school, checkExists);
    }
  }

  /** One step of the loop: past an accepted record, the first error of the
    * rest is the first error from that record on. */
  lemma FirstStaffErrorStep(records: seq<StaffRecord>, i: nat, roster: Roster, school: Id, checkExists: bool)
    requires i < |records| && StaffRecordError(records[i], roster, school, checkExists).None?
    ensures FirstStaffError(records[i..], roster, school, checkExists)
            == FirstStaffError(records[i + 1..], roster, school, checkExists)
  {
    assert records[i..][1..] == records[i + 1..];
  }

  /** The validation loop shared by create and update: it stops at the
    * first rejected record, and otherwise returns the summary. */
  method ValidateAndTally(records: seq<StaffRecord>, roster: Roster, school: Id, checkExists: bool)
    returns (error: Option<int>, summary: StaffSummary)
    ensures error == FirstStaffError(records, roster, school, checkExists)
    ensures error.None? ==> summary == StaffSummaryOf(records)
  {
    summary := StaffSummary(0, 0, 0, 0, 0, 0, 0, 0);
    var i := 0;
    while i < |records|
      invariant 0 <= i <= |records|
      invariant FirstStaffError(records[i..], roster, school, checkExists)
                == FirstStaffError(records, roster, school, checkExists)
      invariant summary == StaffSummaryOf(records[..i])
    {
      var r := records[i];
      error := StaffRecordError(r, roster, school, checkExists);
      if error.Some? {
        return;
      }
      FirstStaffErrorStep(records, i, roster, school, checkExists);
      TallyStep(records[..i], r);
      assert records[..i + 1] == records[..i] + [r];
      summary := Tallied(summary, r);
      i := i + 1;
    }
    assert records[..i] == records;
    assert records[i..] == [];
    error := None;
  }

  /** The schema's enum on `records.status`: saving a sheet with any other
    * status fails validation. */
  predicate SchemaStatuses(records: seq<StaffRecord>)
  {
    forall i :: 0 <= i < |records| ==> records[i].status.Some? && !records[i].status.value.OtherStatus?
  }

  /** POST /staff-attendance. */
  method Create(db: Db, user: AuthContext, date: Option<Day>, records: Option<seq<StaffRecord>>, newId: Id)
    returns (status: int)
    requires Admits(VerifyGuardOrSchool, user.rol)
    requires newId !in db.staffAttendances
    modifies db`staffAttendances
    ensures date.None? || records.None? || |records.value| == 0 ==> status == BadRequest
    ensures date.Some? && records.Some? && |records.value| > 0 && GetSchoolId(user, db.guards, true).Crash? ==>
      status == ServerError
    ensures status == Created <==>
      date.Some? && records.Some? && |records.value| > 0 && GetSchoolId(user, db.guards, true).InSchool?
      && AllAccepted(records.value, RosterOf(db), GetSchoolId(user, db.guards, true).school, true)
      && SchemaStatuses(records.value)
    ensures status == Created ==>
      db.staffAttendances == old(db.staffAttendances)[newId := StaffAttendanceDoc(date.value,
        GetSchoolId(user, db.guards, true).school, records.value, StaffSummaryOf(records.value), user.id, user.rol)]
    ensures status != Created ==> db.staffAttendances == old(db.staffAttendances)
    ensures status == Created ==>
      StatusTotal(db.staffAttendances[newId].summary) == |records.value|
      && TypeTotal(db.staffAttendances[newId].summary) == |records.value|
    // a rejected record answers its status; an accepted sheet the schema refuses answers 500
    ensures date.Some? && records.Some? && |records.value| > 0 && GetSchoolId(user, db.guards, true).InSchool?
      && !AllAccepted(records.value, RosterOf(db), GetSchoolId(user, db.guards, true).school, true)
      ==> status == FirstStaffError(records.value, RosterOf(db), GetSchoolId(user, db.guards, true).school, true).value
    ensures date.Some? && records.Some? && |records.value| > 0 && GetSchoolId(user, db.guards, true).InSchool?
      && AllAccepted(records.value, RosterOf(db), GetSchoolId(user, db.guards, true).school, true) && !SchemaStatuses(records.value)
      ==> status == ServerError
  {
    if date.None? || records.None? || |records.value| == 0 {
      return BadRequest;
    }
    var tenant := GetSchoolId(user, db.guards, true);
    if !tenant.InSchool? {
      return TenantError(tenant);
    }
    var error, summary := ValidateAndTally(records.value, RosterOf(db), tenant.school, true);
    if error.Some? {
      return error.value;
    }
    if !SchemaStatuses(records.value) {
      return ServerError;
    }
    StatusTotalsCoverRecords(records.value);
    TypeTotalsCoverRecords(records.value, RosterOf(db), tenant.school, true);
    db.staffAttendances := db.staffAttendances[newId := StaffAttendanceDoc(date.value, tenant.school,
      records.value, summary, user.id, user.rol)];
    return Created;
  }

  /** The sheet `id` exists and belongs to the caller's tenant. */
  predicate OwnSheet(sheets: map<Id, StaffAttendanceDoc>, id: Id, t: Tenant)
  {
    t.InSchool? && id in sheets && sheets[id].school == t.school
  }

  /** The second half of PUT /staff-attendance/:id, once the sheet is
    * found: validate the new records, then store them with their summary. */
  method ReplaceRecords(db: Db, id: Id, school: Id, records: seq<StaffRecord>) returns (status: int)
    requires id in db.staffAttendances
    modifies db`staffAttendances
    ensures status == Ok <==> AllAccepted(records, RosterOf(db), school, false) && SchemaStatuses(records)
    ensures !AllAccepted(records, RosterOf(db), school, false) ==>
      status == FirstStaffError(records, RosterOf(db), school, false).value
    ensures AllAccepted(records, RosterOf(db), school, false) && !SchemaStatuses(records) ==> status == ServerError
    ensures status == Ok ==>
      db.staffAttendances == old(db.staffAttendances)[id := old(db.staffAttendances)[id].(
        records := records, summary := StaffSummaryOf(records))]
      && StatusTotal(db.staffAttendances[id].summary) == |records|
      && TypeTotal(db.staffAttendances[id].summary) == |records|
    ensures status != Ok ==> db.staffAttendances == old(db.staffAttendances)
  {
    var error, summary := ValidateAndTally(records, RosterOf(db), school, false);
    if error.Some? {
      return error.value;
    }
    if !SchemaStatuses(records) {
      return ServerError;
    }
    StatusTotalsCoverRecords(records);
    TypeTotalsCoverRecords(records, RosterOf(db), school, false);
    db.staffAttendances := db.staffAttendances[id := db.staffAttendances[id].(records := records, summary := summary)];
    return Ok;
  }

  /** PUT /staff-attendance/:id: replaces the records of one of the
    * tenant's sheets. Unlike create it does not check that the staff
    * members exist. */
  method Update(db: Db, user: AuthContext, id: Id, records: Option<seq<StaffRecord>>)
    returns (status: int)
    requires Admits(VerifyGuardOrSchool, user.rol)
    modifies db`staffAttendances
    ensures records.None? ==> status == BadRequest
    ensures status == Ok <==>
      records.Some? && OwnSheet(old(db.staffAttendances), id, GetSchoolId(user, db.guards, true))
      && AllAccepted(records.value, RosterOf(db), GetSchoolId(user, db.guards, true).school, false)
      && SchemaStatuses(records.value)
    ensures status == Ok ==>
      db.staffAttendances == old(db.staffAttendances)[id := old(db.staffAttendances)[id].(
        records := records.value, summary := StaffSummaryOf(records.value))]
    ensures status != Ok ==> db.staffAttendances == old(db.staffAttendances)
    ensures records.Some? && !GetSchoolId(user, db.guards, true).InSchool? ==>
      status == TenantError(GetSchoolId(user, db.guards, true))
    ensures records.Some? && GetSchoolId(user, db.guards, true).InSchool?
      && !OwnSheet(old(db.staffAttendances), id, GetSchoolId(user, db.guards, true))
      ==> status == NotFound
    ensures status == Ok ==>
      StatusTotal(db.staffAttendances[id].summary) == |records.value|
      && TypeTotal(db.staffAttendances[id].summary) == |records.value|
    // a rejected record answers its status; an accepted sheet the schema refuses answers 500
    ensures records.Some? && OwnSheet(old(db.staffAttendances), id, GetSchoolId(user, db.guards, true))
      && !AllAccepted(records.value, RosterOf(db), GetSchoolId(user, db.guards, true).school, false)
      ==> status == FirstStaffError(records.value, RosterOf(db), GetSchoolId(user, db.guards, true).school, false).value
    ensures records.Some? && OwnSheet(old(db.staffAttendances), id, GetSchoolId(user, db.guards, true))
      && AllAccepted(records.value, RosterOf(db), GetSchoolId(user, db.guards, true).school, false)
      && !SchemaStatuses(records.value)
      ==> status == ServerError
  {
    if records.None? {
      return BadRequest;
    }
    var tenant := GetSchoolId(user, db.guards, true);
    if !tenant.InSchool? {
      return TenantError(tenant);
    }
    if !OwnSheet(db.staffAttendances, id, tenant) {
      return NotFound;
    }
    status := ReplaceRecords(db, id, tenant.school, records.value);
  }

  /** DELETE /staff-attendance/:id. */
  method Delete(db: Db, user: AuthContext, id: Id) returns (status: int)
    requires Admits(VerifyGuardOrSchool, user.rol)
    modifies db`staffAttendances
    ensures status == Ok <==>
      GetSchoolId(user, db.guards, true).InSchool? && id in old(db.staffAttendances)
      && old(db.staffAttendances)[id].school == GetSchoolId(user, db.guards, true).school
    ensures status == Ok ==> db.staffAttendances == old(db.staffAttendances) - {id}
    ensures status != Ok ==> db.staffAttendances == old(db.staffAttendances)
    ensures !GetSchoolId(user, db.guards, true).InSchool? ==> status == TenantError(GetSchoolId(user, db.guards, true))
    ensures GetSchoolId(user, db.guards, true).InSchool?
      && !(id in old(db.staffAttendances)
           && old(db.staffAttendances)[id].school == GetSchoolId(user, db.guards, true).school)
      ==> status == NotFound
  {
    var tenant := GetSchoolId(user, db.guards, true);
    if !tenant.InSchool? {
      return TenantError(tenant);
    }
    if !(id in db.staffAttendances && db.staffAttendances[id].school == tenant.school) {
      return NotFound;
    }
    db.staffAttendances := db.staffAttendances - {id};
    return Ok;
  }

  /** The query of GET /staff-attendance: the date range, or one day when
    * only `date` is given, and a staff type (the sheet lists at least one
    * member of that type). */
  predicate Queried(sheet: StaffAttendanceDoc, range: DateRange, day: Option<Day>, staffType: Option<StaffType>)
  {
    InRange(sheet.date, range)
    && (range.start.None? && range.end.None? && day.Some? ==> sheet.date == day.value)
    && (staffType.Some? ==> exists i :: 0 <= i < |sheet.records| && sheet.records[i].staffType == staffType)
  }

  /** GET /staff-attendance: the tenant's sheets that match the query. */
  function List(sheets: map<Id, StaffAttendanceDoc>, tenant: Tenant, range: DateRange, day: Option<Day>,
                staffType: Option<StaffType>)
    : (r: Outcome<set<Id>>)
    ensures !tenant.InSchool? ==> r == Refused(TenantError(tenant))
    ensures tenant.InSchool? ==> r.Done?
    ensures r.Done? ==> forall a :: a in r.value <==>
      a in sheets && sheets[a].school == tenant.school && Queried(sheets[a], range, day, staffType)
    ensures r.Done? && range.start.None? && range.end.None? && day.Some? ==>
      forall a :: a in r.value ==> sheets[a].date == day.value
    ensures r.Done? && staffType.Some? ==> forall a :: a in r.value ==>
      exists i :: 0 <= i < |sheets[a].records| && sheets[a].records[i].staffType == staffType
  {
    if !tenant.InSchool? then Refused(TenantError(tenant))
    else Done(set a | a in sheets && sheets[a].school == tenant.school && Queried(sheets[a], range, day, staffType))
  }

  /** GET /staff-attendance/date/:date: one of the tenant's sheets of that
    * day, 404 when there is none. */
  method ByDate(db: Db, user: AuthContext, date: Option<Day>) returns (status: int, sheet: Option<Id>)
    requires Admits(VerifyGuardOrSchool, user.rol)
    ensures date.None? ==> status == BadRequest
    ensures status == Ok <==>
      date.Some? && GetSchoolId(user, db.guards, true).InSchool?
      && exists a :: a in db.staffAttendances && db.staffAttendances[a].date == date.value
                     && db.staffAttendances[a].school == GetSchoolId(user, db.guards, true).school
    ensures status == Ok ==>
      sheet.Some? && sheet.value in db.staffAttendances
      && db.staffAttendances[sheet.value].date == date.value
      && db.staffAttendances[sheet.value].school == GetSchoolId(user, db.guards, true).school
    ensures status != Ok ==> sheet.None?
    ensures date.Some? && !GetSchoolId(user, db.guards, true).InSchool? ==>
      status == TenantError(GetSchoolId(user, db.guards, true))
    ensures date.Some? && GetSchoolId(user, db.guards, true).InSchool? && status != Ok ==> status == NotFound
  {
    if date.None? {
      return BadRequest, None;
    }
    var tenant := GetSchoolId(user, db.guards, true);
    if !tenant.InSchool? {
      return TenantError(tenant), None;
    }
    if a :| a in db.staffAttendances && db.staffAttendances[a].date == date.value
            && db.staffAttendances[a].school == tenant.school {
      return Ok, Some(a);
    }
    return NotFound, None;
  }

  /** `records.find(r => r.staffId == staffId && r.staffType == staffType)`. */
  function FindStaffRecord(records: seq<StaffRecord>, staffId: Id, t: StaffType): (r: Option<StaffRecord>)
    ensures r.None? <==>
      forall i :: 0 <= i < |records| ==> !(records[i].staffId == Some(staffId) && records[i].staffType == Some(t))
    ensures r.Some? ==>
      exists i :: 0 <= i < |records| && records[i] == r.value
                  && records[i].staffId == Some(staffId) && records[i].staffType == Some(t)
  {
    if records == [] then None
    else if records[0].staffId == Some(staffId) && records[0].staffType == Some(t) then Some(records[0])
    else
      assert forall i :: 0 < i < |records| ==> records[1..][i - 1] == records[i];
      FindStaffRecord(records[1..], staffId, t)
  }

  /** The query of the per-staff route: the sheet lists the id and the
    * type, not necessarily on the same record. */
  predicate Mentions(sheet: StaffAttendanceDoc, staffId: Id, t: StaffType)
  {
    (exists i :: 0 <= i < |sheet.records| && sheet.records[i].staffId == Some(staffId))
    && (exists j :: 0 <= j < |sheet.records| && sheet.records[j].staffType == Some(t))
  }

  datatype StaffEntry = StaffEntry(date: Day, status: Option<AttStatus>, checkInTime: Option<string>,
                                   checkOutTime: Option<string>, remarks: Option<string>)

  function StaffEntryOf(sheet: StaffAttendanceDoc, staffId: Id, t: StaffType): StaffEntry
  {
    var rec := FindStaffRecord(sheet.records, staffId, t);
    StaffEntry(sheet.date, if rec.Some? then rec.value.status else None,
      if rec.Some? then rec.value.checkInTime else None, if rec.Some? then rec.value.checkOutTime else None,
      if rec.Some? then rec.value.remarks else None)
  }

  /** GET /staff-attendance/staff/:staffId?staffType=... */
  function StaffHistory(sheets: map<Id, StaffAttendanceDoc>, roster: Roster, tenant: Tenant, staffId: Id,
                        staffType: Option<StaffType>, range: DateRange)
    : (r: Outcome<map<Id, StaffEntry>>)
    ensures staffType.None? || !KnownType(staffType.value) ==> r == Refused(BadRequest)
    ensures staffType.Some? && KnownType(staffType.value) && !tenant.InSchool? ==> r == Refused(TenantError(tenant))
    ensures r.Done? <==>
      staffType.Some? && KnownType(staffType.value) && tenant.InSchool?
      && Employs(roster, staffType.value, staffId, tenant.school)
    ensures staffType.Some? && KnownType(staffType.value) && tenant.InSchool?
      && !Employs(roster, staffType.value, staffId, tenant.school)
      ==> r == Refused(NotFound)
    ensures r.Done? ==> forall a :: a in r.value <==>
      a in sheets && sheets[a].school == tenant.school && Mentions(sheets[a], staffId, staffType.value)
      && InRange(sheets[a].date, range)
    ensures r.Done? ==> forall a :: a in r.value ==> r.value[a] == StaffEntryOf(sheets[a], staffId, staffType.value)
  {
    if staffType.None? || !KnownType(staffType.value) then Refused(BadRequest)
    else if !tenant.InSchool? then Refused(TenantError(tenant))
    else if !Employs(roster, staffType.value, staffId, tenant.school) then Refused(NotFound)
    else
      var t := staffType.value;
      Done(map a | a in sheets && sheets[a].school == tenant.school && Mentions(sheets[a], staffId, t)
                   && InRange(sheets[a].date, range) :: StaffEntryOf(sheets[a], staffId, t))
  }

  /** A sheet listing the member under another type while some other
    * member has the requested type matches the query, yet its entry has no
    * status: the two query conditions need not hold on the same record. */
  lemma LooseMatchGivesEmptyEntry(date: Day, school: Id, staffId: Id, other: Id, creator: Id)
    requires staffId != other
    ensures var sheet := StaffAttendanceDoc(date, school,
              [StaffRecord(Some(staffId), Some(DriverStaff), Some(Absent), None, None, None),
               StaffRecord(Some(other), Some(TeacherStaff), Some(Absent), None, None, None)],
              StaffSummary(0, 2, 0, 0, 1, 0, 1, 0), creator, School);
            Mentions(sheet, staffId, TeacherStaff) && StaffEntryOf(sheet, staffId, TeacherStaff).status.None?
  {
    var recs := [StaffRecord(Some(staffId), Some(DriverStaff), Some(Absent), None, None, None),
                 StaffRecord(Some(other), Some(TeacherStaff), Some(Absent), None, None, None)];
    assert recs[0].staffId == Some(staffId);
    assert recs[1].staffType == Some(TeacherStaff);
  }
}

=== FILE: store.dfy ===
/**
 * The collections the route handlers read and write, one map from id to
 * document per collection the routes use, with Attendance split in two
 * (subject sheets and daily per-student records). Documents keep the fields the routes read
 * or link by name (`school`, `teacher`, `subjects`, `students`, ...);
 * everything else a handler only copies is kept in `fields`.
 */
module Store {
  import opened Common
  import opened Jwt

  /** A student's attendance status; any other string is `OtherStatus`. */
  datatype AttStatus = Present | Absent | Late | Excused | OtherStatus(name: string)

  datatype ClassDoc = ClassDoc(
    school: Id,
    teacher: Option<Id>,
    subjects: seq<Id>,
    students: seq<Id>,
    capacity: Option<int>,
    cycle: Option<Id>,
    fields: Fields)

  datatype TeacherDoc = TeacherDoc(
    school: Id,
    email: string,
    status: string,
    classes: seq<Id>,
    subjects: seq<Id>,
    fields: Fields)

  datatype SubjectDoc = SubjectDoc(
    school: Id,
    code: string,
    teachers: seq<Id>,
    classes: seq<Id>,
    fields: Fields)

  datatype StudentDoc = StudentDoc(
    school: Id,
    email: string,
    classId: Option<Id>,
    parent: Option<Id>,
    transportation: Option<Id>,
    activities: seq<Id>,
    fields: Fields)

  datatype ParentDoc = ParentDoc(school: Id, email: string, children: seq<Id>, fields: Fields)

  datatype DriverDoc = DriverDoc(school: Id, email: string, vehicles: seq<Id>, fields: Fields)

  datatype TransportDoc = TransportDoc(
    school: Id,
    busNumber: string,
    driver: Option<Id>,
    student: Option<Id>,
    accompaniments: seq<Id>,
    status: string,
    fields: Fields)

  datatype AccompanimentDoc = AccompanimentDoc(school: Id, email: string, fields: Fields)

  datatype CycleDoc = CycleDoc(school: Id, classes: seq<Id>, fields: Fields)

  datatype ActivityDoc = ActivityDoc(
    school: Id,
    participants: seq<Id>,
    capacity: Option<int>,
    isActive: bool,
    category: Option<string>,
    endDate: Option<Day>,
    fields: Fields)

  datatype GuardDoc = GuardDoc(school: Id, email: string, fields: Fields)

  /** One student's line of a subject attendance sheet; None stands for a
    * missing (or empty) field of the request body. */
  datatype AttRecord = AttRecord(student: Option<Id>, status: Option<AttStatus>, remarks: Option<string>)

  datatype Summary = Summary(present: nat, absent: nat, late: nat, excused: nat)

  datatype AttendanceDoc = AttendanceDoc(
    date: Day,
    subject: Id,
    school: Id,
    teacher: Option<Id>,
    records: seq<AttRecord>,
    summary: Summary)

  datatype StaffType = TeacherStaff | GuardStaff | DriverStaff | AccompanimentStaff | OtherStaff(name: string)

  datatype StaffRecord = StaffRecord(
    staffId: Option<Id>,
    staffType: Option<StaffType>,
    status: Option<AttStatus>,
    checkInTime: Option<string>,
    checkOutTime: Option<string>,
    remarks: Option<string>)

  datatype StaffSummary = StaffSummary(
    present: nat, absent: nat, late: nat, excused: nat,
    totalTeachers: nat, totalGuards: nat, totalDrivers: nat, totalAccompaniments: nat)

  datatype StaffAttendanceDoc = StaffAttendanceDoc(
    date: Day,
    school: Id,
    records: seq<StaffRecord>,
    summary: StaffSummary,
    createdBy: Id,
    createdByRole: Role)

  datatype ExamStatus = Scheduled | Ongoing | Completed | Cancelled

  datatype Grade = Pass | Fail

  datatype ExamResult = ExamResult(student: Id, marks: int, status: Grade, remarks: Option<string>)

  datatype ExamDoc = ExamDoc(
    subject: Id,
    teacher: Id,
    school: Id,
    passingMarks: int,
    results: seq<ExamResult>,
    status: ExamStatus,
    fields: Fields)

  datatype Period = Period(startTime: string, endTime: string, subjectId: Id, teacherId: Option<Id>)

  datatype ScheduleDoc = ScheduleDoc(classId: Id, schoolId: Id, day: string, periods: seq<Period>)

  /** The per-student, per-day record kept by the guard routes. */
  datatype DailyAttendanceDoc = DailyAttendanceDoc(
    student: Id,
    classId: Id,
    school: Id,
    status: string,
    date: Day,
    remark: Option<string>)

  /** The database. */
  class Db {
    var classes: map<Id, ClassDoc>
    var teachers: map<Id, TeacherDoc>
    var subjects: map<Id, SubjectDoc>
    var students: map<Id, StudentDoc>
    var parents: map<Id, ParentDoc>
    var drivers: map<Id, DriverDoc>
    var transports: map<Id, TransportDoc>
    var accompaniments: map<Id, AccompanimentDoc>
    var cycles: map<Id, CycleDoc>
    var activities: map<Id, ActivityDoc>
    var guards: map<Id, GuardDoc>
    var attendances: map<Id, AttendanceDoc>
    var staffAttendances: map<Id, StaffAttendanceDoc>
    var exams: map<Id, ExamDoc>
    var schedules: map<Id, ScheduleDoc>
    var dailyAttendances: map<Id, DailyAttendanceDoc>

    constructor ()
      ensures classes == map[] && teachers == map[] && subjects == map[] && students == map[]
      ensures parents == map[] && drivers == map[] && transports == map[] && accompaniments == map[]
      ensures cycles == map[] && activities == map[] && guards == map[] && attendances == map[]
      ensures staffAttendances == map[] && exams == map[] && schedules == map[] && dailyAttendances == map[]
    {
      classes, teachers, subjects, students := map[], map[], map[], map[];
      parents, drivers, transports, accompaniments := map[], map[], map[], map[];
      cycles, activities, guards, attendances := map[], map[], map[], map[];
      staffAttendances, exams, schedules, dailyAttendances := map[], map[], map[], map[];
    }
  }
}

=== FILE: student_routes.dfy ===
/**
 * Students: registration by a school, profile reads and updates, activity
 * registration from the student's side, role-scoped listing and deletion.
 */
module StudentRoutes {
  import opened Common
  import opened Jwt
  import opened Store
  import opened Links
  import ActivityRoutes

  /** POST /student/register. Emails are unique across all schools; the
    * new student belongs to the calling school and starts unlinked. */
  method Register(db: Db, user: AuthContext, email: string, fields: Fields, newId: Id) returns (status: int)
    requires Admits(VerifySchool, user.rol)
    requires newId !in db.students
    modifies db`students
    ensures status == BadRequest <==> exists s :: s in old(db.students) && old(db.students)[s].email == email
    ensures status != BadRequest ==>
      status == Created && db.students == old(db.students)[newId := StudentDoc(user.id, email, None, None, None, [], fields)]
    ensures status == BadRequest ==> db.students == old(db.students)
  {
    if exists s :: s in db.students && db.students[s].email == email {
      return BadRequest;
    }
    db.students := db.students[newId := StudentDoc(user.id, email, None, None, None, [], fields)];
    return Created;
  }

  /** GET /student/profile. No middleware runs on this route, so `req.user`
    * is never set and the handler answers 500; `user` is None then. */
  function Profile(students: map<Id, StudentDoc>, user: Option<AuthContext>): (r: Outcome<StudentDoc>)
    ensures user.None? ==> r == Refused(ServerError)
    ensures user.Some? ==> (r.Done? <==> user.value.id in students)
    ensures r.Done? ==> r.value == students[user.value.id]
    ensures user.Some? && r.Refused? ==> r.status == NotFound
  {
    if user.None? then Refused(ServerError)
    else if user.value.id in students then Done(students[user.value.id])
    else Refused(NotFound)
  }

  /** The fields `updateStudentProfile` copies when truthy. A class id is
    * always truthy; an empty email is not. */
  datatype ProfilePatch = ProfilePatch(email: string, classId: Option<Id>, fields: Fields)

  const ProfileKeys: set<string> := {"firstName", "lastName", "dateOfBirth", "phoneNumber", "address", "image"}

  /** The `$set` of `updateStudentProfile`. Setting `class` here does not
    * touch the class's own `students` list. */
  function ApplyProfile(s: StudentDoc, p: ProfilePatch): (r: StudentDoc)
    ensures r.email == (if p.email != "" then p.email else s.email)
    ensures r.classId == (if p.classId.Some? then p.classId else s.classId)
    ensures r.school == s.school && r.parent == s.parent
    ensures r.transportation == s.transportation && r.activities == s.activities
    ensures forall k :: k in s.fields && !Provided(p.fields, k, ProfileKeys, {}) ==> k in r.fields && r.fields[k] == s.fields[k]
    ensures forall k :: Provided(p.fields, k, ProfileKeys, {}) ==> k in r.fields && r.fields[k] == p.fields[k]
  {
    s.(email := if p.email != "" then p.email else s.email,
       classId := if p.classId.Some? then p.classId else s.classId,
       fields := MergeFields(s.fields, p.fields, ProfileKeys, {}))
  }

  /** An empty patch changes nothing. */
  lemma EmptyPatchKeepsProfile(s: StudentDoc)
    ensures ApplyProfile(s, ProfilePatch("", None, map[])) == s
  {
    var f := MergeFields(s.fields, map[], ProfileKeys, {});
    assert f.Keys == s.fields.Keys;
  }

  /** `updateStudentProfile`: `findByIdAndUpdate` on a missing id updates
    * nothing and still answers 200. */
  method UpdateProfileOf(db: Db, id: Id, p: ProfilePatch) returns (status: int)
    modifies db`students
    ensures status == Ok
    ensures db.students == if id in old(db.students) then old(db.students)[id := ApplyProfile(old(db.students)[id], p)]
                           else old(db.students)
  {
    if id in db.students {
      db.students := db.students[id := ApplyProfile(db.students[id], p)];
    }
    return Ok;
  }

  /** PUT /student/profile: only a student, on its own record. */
  method UpdateOwnProfile(db: Db, user: AuthContext, p: ProfilePatch) returns (status: int)
    requires Admits(AnyToken, user.rol)
    modifies db`students
    ensures status == Ok <==> user.rol == Student
    ensures status != Ok ==> status == Forbidden && db.students == old(db.students)
    ensures status == Ok && user.id in old(db.students) ==>
      db.students == old(db.students)[user.id := ApplyProfile(old(db.students)[user.id], p)]
  {
    if user.rol != Student {
      return Forbidden;
    }
    status := UpdateProfileOf(db, user.id, p);
  }

  /** Whether PUT /students/:id lets `user` update student `id`. */
  function UpdateRefusal(students: map<Id, StudentDoc>, guards: map<Id, GuardDoc>, user: AuthContext, id: Id)
    : (r: Option<int>)
    ensures id !in students ==> r == Some(NotFound)
    ensures r.None? <==>
      id in students
      && ((user.rol == School && students[id].school == user.id)
          || (user.rol == Guard && user.id in guards && guards[user.id].school == students[id].school))
    ensures r.Some? && r.value != NotFound ==> r.value == Forbidden
    ensures id in students && user.rol == School && students[id].school != user.id ==> r == Some(Forbidden)
  {
    if id !in students then Some(NotFound)
    else if user.rol == School then
      if students[id].school != user.id then Some(Forbidden) else None
    else if user.rol == Guard then
      if user.id !in guards then Some(NotFound)
      else if students[id].school != guards[user.id].school then Some(Forbidden)
      else None
    else Some(Forbidden)
  }

  /** PUT /students/:id. A school or guard of another school gets 403, not
    * 404; students and every other role get 403. */
  method UpdateById(db: Db, user: AuthContext, id: Id, p: ProfilePatch) returns (status: int)
    requires Admits(AnyToken, user.rol)
    modifies db`students
    ensures status == Ok <==> UpdateRefusal(old(db.students), db.guards, user, id).None?
    ensures status != Ok ==>
      status == UpdateRefusal(old(db.students), db.guards, user, id).value && db.students == old(db.students)
    ensures status == Ok ==> db.students == old(db.students)[id := ApplyProfile(old(db.students)[id], p)]
  {
    var refusal := UpdateRefusal(db.students, db.guards, user, id);
    if refusal.Some? {
      return refusal.value;
    }
    status := UpdateProfileOf(db, id, p);
  }

  /** POST /student/activities/:activityId/register. The activity is saved
    * before the student is read: a token whose student no longer exists
    * leaves the activity listing it and answers 500. The student side is a
    * plain push. */
  method RegisterActivity(db: Db, user: AuthContext, activityId: Id) returns (status: int)
    requires Admits(VerifyStudent, user.rol)
    modifies db`activities, db`students
    ensures ActivityRoutes.RegisterRefusal(old(db.activities), activityId, user.id).Some? ==>
      status == ActivityRoutes.RegisterRefusal(old(db.activities), activityId, user.id).value
      && db.activities == old(db.activities) && db.students == old(db.students)
    ensures ActivityRoutes.RegisterRefusal(old(db.activities), activityId, user.id).None? ==>
      db.activities == old(db.activities)[activityId := ActivityRoutes.Joined(old(db.activities)[activityId], user.id)]
      && ActivityRoutes.WithinCapacity(db.activities[activityId])
      && (if user.id in old(db.students)
          then status == Ok && db.students == old(db.students)[user.id := old(db.students)[user.id].(
                 activities := old(db.students)[user.id].activities + [activityId])]
          else status == ServerError && db.students == old(db.students))
  {
    var refusal := ActivityRoutes.RegisterRefusal(db.activities, activityId, user.id);
    if refusal.Some? {
      return refusal.value;
    }
    ActivityRoutes.RegisterKeepsBounds(db.activities, activityId, user.id);
    db.activities := db.activities[activityId := ActivityRoutes.Joined(db.activities[activityId], user.id)];
    if user.id !in db.students {
      return ServerError;
    }
    var s := db.students[user.id];
    db.students := db.students[user.id := s.(activities := s.activities + [activityId])];
    return Ok;
  }

  /** POST /student/activities/:activityId/deregister. Succeeds whether or
    * not the student was registered. */
  method DeregisterActivity(db: Db, user: AuthContext, activityId: Id) returns (status: int)
    requires Admits(VerifyStudent, user.rol)
    modifies db`activities, db`students
    ensures activityId !in old(db.activities) ==>
      status == NotFound && db.activities == old(db.activities) && db.students == old(db.students)
    ensures activityId in old(db.activities) ==>
      db.activities == old(db.activities)[activityId := old(db.activities)[activityId].(
        participants := Without(old(db.activities)[activityId].participants, user.id))]
      && (if user.id in old(db.students)
          then status == Ok && db.students == old(db.students)[user.id := old(db.students)[user.id].(
                 activities := Without(old(db.students)[user.id].activities, activityId))]
          else status == ServerError && db.students == old(db.students))
    ensures status == Ok ==>
      user.id !in db.activities[activityId].participants && activityId !in db.students[user.id].activities
  {
    if activityId !in db.activities {
      return NotFound;
    }
    var a := db.activities[activityId];
    db.activities := db.activities[activityId := a.(participants := Without(a.participants, user.id))];
    if user.id !in db.students {
      return ServerError;
    }
    var s := db.students[user.id];
    db.students := db.students[user.id := s.(activities := Without(s.activities, activityId))];
    return Ok;
  }

  /** GET /students: a school sees its students, a guard its guard's
    * school's, an admin all; a teacher and other roles get 403. */
  function List(students: map<Id, StudentDoc>, guards: map<Id, GuardDoc>, user: AuthContext): (r: Outcome<set<Id>>)
    requires Admits(AnyToken, user.rol)
    ensures user.rol == Admin ==> r == Done(students.Keys)
    ensures user.rol == School ==> r.Done? && forall s :: s in r.value <==> s in students && students[s].school == user.id
    ensures user.rol == Guard && user.id !in guards ==> r == Refused(NotFound)
    ensures user.rol == Guard && user.id in guards ==>
      r.Done? && forall s :: s in r.value <==> s in students && students[s].school == guards[user.id].school
    ensures user.rol in {Teacher, Student, Parent} ==> r == Refused(Forbidden)
  {
    match user.rol
    case Admin => Done(students.Keys)
    case School => Done(set s | s in students && students[s].school == user.id)
    case Guard =>
      if user.id !in guards then Refused(NotFound)
      else Done(set s | s in students && students[s].school == guards[user.id].school)
    case _ => Refused(Forbidden)
  }

  /** GET /teacher/students: the students of the teacher's school whose
    * class lists one of the teacher's subjects. Populating `subjects`
    * drops the ids of subjects that no longer exist. */
  function TeacherStudents(teachers: map<Id, TeacherDoc>, subjects: map<Id, SubjectDoc>, classes: map<Id, ClassDoc>,
                           students: map<Id, StudentDoc>, user: AuthContext): (r: Outcome<set<Id>>)
    requires Admits(VerifyTeacher, user.rol)
    ensures user.id !in teachers ==> r == Refused(NotFound)
    ensures user.id in teachers ==> r.Done? && forall s :: s in r.value <==>
      s in students && students[s].school == teachers[user.id].school
      && students[s].classId.Some? && students[s].classId.value in classes
      && exists j :: j in teachers[user.id].subjects && j in subjects && j in classes[students[s].classId.value].subjects
  {
    if user.id !in teachers then Refused(NotFound)
    else
      var t := teachers[user.id];
      var taught := set c | c in classes && exists j :: j in t.subjects && j in subjects && j in classes[c].subjects;
      Done(set s | s in students && students[s].school == t.school && students[s].classId.Some?
                   && students[s].classId.value in taught)
  }

  /** DELETE /student/:id: a school only its own students, an admin any.
    * The student leaves every activity; classes, parents and vehicles
    * that reference the student keep doing so. */
  method Delete(db: Db, user: AuthContext, id: Id) returns (status: int)
    requires Admits(VerifySchoolOrAdmin, user.rol)
    modifies db`students, db`activities
    ensures status == Ok <==> id in old(db.students) && (user.rol == School ==> old(db.students)[id].school == user.id)
    ensures status != Ok ==> status == NotFound && db.students == old(db.students) && db.activities == old(db.activities)
    ensures status == Ok ==>
      db.students == old(db.students) - {id}
      && db.activities == ActivitiesPullParticipant(old(db.activities), id)
      && (forall a :: a in db.activities ==> id !in db.activities[a].participants)
    ensures db.classes == old(db.classes) && db.parents == old(db.parents) && db.transports == old(db.transports)
  {
    if !(id in db.students && (user.rol == School ==> db.students[id].school == user.id)) {
      return NotFound;
    }
    db.students := db.students - {id};
    db.activities := ActivitiesPullParticipant(db.activities, id);
    return Ok;
  }
}

=== FILE: subject_routes.dfy ===
/**
 * Subjects of a school and their teachers. `Subject.teachers` and
 * `Teacher.subjects` are kept as mirror images by create, update, assign
 * and remove. Deleting a subject leaves the classes that list it alone.
 */
module SubjectRoutes {
  import opened Common
  import opened Jwt
  import opened Store
  import opened Links

  datatype SubjectBody = SubjectBody(code: string, teachers: Option<seq<Id>>, fields: Fields)

  predicate CodeTaken(subjects: map<Id, SubjectDoc>, code: string, school: Id)
  {
    exists s :: s in subjects && subjects[s].code == code && subjects[s].school == school
  }

  predicate OwnedBy(subjects: map<Id, SubjectDoc>, id: Id, school: Id)
  {
    id in subjects && subjects[id].school == school
  }

  /** Every subject whose listed teacher exists appears among that
    * teacher's subjects. */
  predicate TeacherMirror(subjects: map<Id, SubjectDoc>, teachers: map<Id, TeacherDoc>)
  {
    forall s, t :: s in subjects && t in subjects[s].teachers && t in teachers ==> s in teachers[t].subjects
  }

  /** POST /subjects. Codes are unique within a school; the listed
    * teachers are linked without checking their school. */
  method Create(db: Db, user: AuthContext, body: SubjectBody, newId: Id) returns (status: int)
    requires Admits(VerifySchool, user.rol)
    requires newId !in db.subjects
    modifies db`subjects, db`teachers
    ensures CodeTaken(old(db.subjects), body.code, user.id) ==>
      status == BadRequest && db.subjects == old(db.subjects) && db.teachers == old(db.teachers)
    ensures !CodeTaken(old(db.subjects), body.code, user.id) ==>
      status == Created
      && db.subjects == old(db.subjects)[newId := SubjectDoc(user.id, body.code, body.teachers.GetOr([]), [], body.fields)]
      && db.teachers == TeachersAddSubject(old(db.teachers), Elems(body.teachers.GetOr([])), newId)
    ensures TeacherMirror(old(db.subjects), old(db.teachers)) ==> TeacherMirror(db.subjects, db.teachers)
  {
    if CodeTaken(db.subjects, body.code, user.id) {
      return BadRequest;
    }
    var teachers := body.teachers.GetOr([]);
    db.subjects := db.subjects[newId := SubjectDoc(user.id, body.code, teachers, [], body.fields)];
    db.teachers := TeachersAddSubject(db.teachers, Elems(teachers), newId);
    return Created;
  }

  /** GET /subjects: the school's subjects. */
  function List(subjects: map<Id, SubjectDoc>, school: Id): (r: set<Id>)
    ensures forall s :: s in r <==> OwnedBy(subjects, s, school)
  {
    set s | s in subjects && subjects[s].school == school
  }

  /** GET /subjects/:id: a teacher sees the subjects it is assigned to, a
    * school its own; both get 404 otherwise. */
  function Detail(subjects: map<Id, SubjectDoc>, user: AuthContext, id: Id): (r: Outcome<Id>)
    requires Admits(VerifySchoolOrTeacher, user.rol)
    ensures r.Done? <==> id in subjects && (if user.rol == Teacher then user.id in subjects[id].teachers
                                             else subjects[id].school == user.id)
    ensures r.Refused? ==> r.status == NotFound
    ensures r.Done? ==> r.value == id
  {
    var visible := id in subjects && (if user.rol == Teacher then user.id in subjects[id].teachers
                                      else subjects[id].school == user.id);
    if visible then Done(id) else Refused(NotFound)
  }

  const TextKeys: set<string> := {"name", "description", "gradeLevel", "credits"}
  const FlagKeys: set<string> := {"isActive"}

  /** The teachers after a teacher-list change of subject `s`. */
  function TeachersAfter(teachers: map<Id, TeacherDoc>, s: Id, before: seq<Id>, after: seq<Id>)
    : map<Id, TeacherDoc>
  {
    TeachersAddSubject(TeachersPullSubject(teachers, Elems(Minus(before, after)), s), Elems(Minus(after, before)), s)
  }

  /** Teachers newly listed gain the subject, dropped ones lose it. */
  lemma TeacherChangeRelinks(teachers: map<Id, TeacherDoc>, s: Id, before: seq<Id>, after: seq<Id>)
    ensures var r := TeachersAfter(teachers, s, before, after);
      r.Keys == teachers.Keys
      && (forall t :: t in teachers && t in after && t !in before ==> s in r[t].subjects)
      && (forall t :: t in teachers && t in before && t !in after ==> s !in r[t].subjects)
      && (forall t :: t in teachers && (t in before <==> t in after) ==> r[t] == teachers[t])
  {
  }

  /** PUT /subjects/:id. A teachers list, even an empty one, replaces the
    * old list. */
  method Update(db: Db, user: AuthContext, id: Id, teachers: Option<seq<Id>>, fields: Fields) returns (status: int)
    requires Admits(VerifySchool, user.rol)
    modifies db`subjects, db`teachers
    ensures status == Ok <==> OwnedBy(old(db.subjects), id, user.id)
    ensures status == Ok ==>
      var s := old(db.subjects)[id];
      db.subjects == old(db.subjects)[id := s.(
        teachers := if teachers.Some? then teachers.value else s.teachers,
        fields := MergeFields(s.fields, fields, TextKeys, FlagKeys))]
      && db.teachers == (if teachers.Some? then TeachersAfter(old(db.teachers), id, s.teachers, teachers.value)
                         else old(db.teachers))
    ensures status != Ok ==> status == NotFound && db.subjects == old(db.subjects) && db.teachers == old(db.teachers)
    ensures TeacherMirror(old(db.subjects), old(db.teachers)) ==> TeacherMirror(db.subjects, db.teachers)
  {
    if !OwnedBy(db.subjects, id, user.id) {
      return NotFound;
    }
    var s := db.subjects[id];
    if teachers.Some? {
      db.teachers := TeachersAfter(db.teachers, id, s.teachers, teachers.value);
    }
    db.subjects := db.subjects[id := s.(
      teachers := if teachers.Some? then teachers.value else s.teachers,
      fields := MergeFields(s.fields, fields, TextKeys, FlagKeys))];
    return Ok;
  }

  /** DELETE /subjects/:id. Teachers lose the subject; classes keep
    * listing it. */
  method Delete(db: Db, user: AuthContext, id: Id) returns (status: int)
    requires Admits(VerifySchool, user.rol)
    modifies db`subjects, db`teachers
    ensures status == Ok <==> OwnedBy(old(db.subjects), id, user.id)
    ensures status == Ok ==>
      db.subjects == old(db.subjects) - {id}
      && db.teachers == TeachersPullSubject(old(db.teachers), TeachersOfSubject(old(db.teachers), id), id)
      && (forall t :: t in db.teachers ==> id !in db.teachers[t].subjects)
    ensures status != Ok ==>
      status == NotFound && db.subjects == old(db.subjects) && db.teachers == old(db.teachers)
    ensures db.classes == old(db.classes)
  {
    if !OwnedBy(db.subjects, id, user.id) {
      return NotFound;
    }
    db.teachers := TeachersPullSubject(db.teachers, TeachersOfSubject(db.teachers, id), id);
    db.subjects := db.subjects - {id};
    return Ok;
  }

  /** POST /subjects/:id/teachers. Both sides gain the link, each only if
    * it did not already have it; a subject that already lists the teacher
    * is left as it is, and so is the teacher. */
  method AssignTeacher(db: Db, user: AuthContext, id: Id, teacherId: Option<Id>) returns (status: int)
    requires Admits(VerifySchool, user.rol)
    modifies db`subjects, db`teachers
    ensures teacherId.None? ==> status == BadRequest
    ensures status == Ok <==>
      teacherId.Some? && OwnedBy(old(db.subjects), id, user.id)
      && teacherId.value in old(db.teachers) && old(db.teachers)[teacherId.value].school == user.id
    ensures status == Ok && teacherId.value !in old(db.subjects)[id].teachers ==>
      db.subjects == old(db.subjects)[id := old(db.subjects)[id].(teachers := old(db.subjects)[id].teachers + [teacherId.value])]
      && db.teachers == old(db.teachers)[teacherId.value :=
           old(db.teachers)[teacherId.value].(subjects := AddToSet(old(db.teachers)[teacherId.value].subjects, id))]
    ensures status != Ok || teacherId.value in old(db.subjects)[id].teachers ==>
      db.subjects == old(db.subjects) && db.teachers == old(db.teachers)
    ensures teacherId.Some? && status != Ok ==> status == NotFound
    ensures status == Ok ==> teacherId.value in db.subjects[id].teachers
    ensures TeacherMirror(old(db.subjects), old(db.teachers)) ==> TeacherMirror(db.subjects, db.teachers)
  {
    if teacherId.None? {
      return BadRequest;
    }
    if !OwnedBy(db.subjects, id, user.id) {
      return NotFound;
    }
    var t := teacherId.value;
    if !(t in db.teachers && db.teachers[t].school == user.id) {
      return NotFound;
    }
    var s := db.subjects[id];
    if t !in s.teachers {
      db.subjects := db.subjects[id := s.(teachers := s.teachers + [t])];
      db.teachers := db.teachers[t := db.teachers[t].(subjects := AddToSet(db.teachers[t].subjects, id))];
    }
    return Ok;
  }

  /** DELETE /subjects/:id/teachers/:teacherId. */
  method RemoveTeacher(db: Db, user: AuthContext, id: Id, teacherId: Id) returns (status: int)
    requires Admits(VerifySchool, user.rol)
    modifies db`subjects, db`teachers
    ensures status == Ok <==> OwnedBy(old(db.subjects), id, user.id)
    ensures status == Ok ==>
      db.subjects == old(db.subjects)[id := old(db.subjects)[id].(teachers := Without(old(db.subjects)[id].teachers, teacherId))]
      && db.teachers == TeachersPullSubject(old(db.teachers), {teacherId}, id)
      && teacherId !in db.subjects[id].teachers
    ensures status != Ok ==>
      status == NotFound && db.subjects == old(db.subjects) && db.teachers == old(db.teachers)
    ensures TeacherMirror(old(db.subjects), old(db.teachers)) ==> TeacherMirror(db.subjects, db.teachers)
  {
    if !OwnedBy(db.subjects, id, user.id) {
      return NotFound;
    }
    var s := db.subjects[id];
    db.subjects := db.subjects[id := s.(teachers := Without(s.teachers, teacherId))];
    db.teachers := TeachersPullSubject(db.teachers, {teacherId}, id);
    return Ok;
  }
}

=== FILE: teacher_routes.dfy ===
/**
 * Teachers and their exams: registration by a school, profile, deletion,
 * exam creation on a subject the teacher is assigned to, the exam status
 * enumeration and the grading of results against the passing mark.
 */
module TeacherRoutes {
  import opened Common
  import opened Jwt
  import opened Store
  import opened Links

  /** POST /teachers. Emails are unique across all schools; a new teacher
    * belongs to the caller, is 'Active' and has no classes or subjects. */
  method Create(db: Db, user: AuthContext, email: string, fields: Fields, newId: Id) returns (status: int)
    requires Admits(VerifySchool, user.rol)
    requires newId !in db.teachers
    modifies db`teachers
    ensures status == BadRequest <==> exists t :: t in old(db.teachers) && old(db.teachers)[t].email == email
    ensures status != BadRequest ==>
      status == Created && db.teachers == old(db.teachers)[newId := TeacherDoc(user.id, email, "Active", [], [], fields)]
    ensures status == BadRequest ==> db.teachers == old(db.teachers)
  {
    if exists t :: t in db.teachers && db.teachers[t].email == email {
      return BadRequest;
    }
    db.teachers := db.teachers[newId := TeacherDoc(user.id, email, "Active", [], [], fields)];
    return Created;
  }

  /** GET /teacher/profile. */
  function Profile(teachers: map<Id, TeacherDoc>, user: AuthContext): (r: Outcome<TeacherDoc>)
    requires Admits(VerifyTeacher, user.rol)
    ensures r.Done? <==> user.id in teachers
    ensures r.Done? ==> r.value == teachers[user.id]
    ensures r.Refused? ==> r.status == NotFound
  {
    if user.id in teachers then Done(teachers[user.id]) else Refused(NotFound)
  }

  /** The truthy fields PUT /teacher/profile copies; an empty string is
    * not copied. */
  datatype TeacherPatch = TeacherPatch(email: string, status: string, fields: Fields)

  const ProfileKeys: set<string> := {
    "firstName", "firstName_ar", "lastName", "lastName_ar", "phoneNumber", "address", "address_ar",
    "dateOfBirth", "palaceOfBirth", "palaceOfBirth_ar", "cin", "nationality", "specialization", "image"}

  function ApplyProfile(t: TeacherDoc, p: TeacherPatch): (r: TeacherDoc)
    ensures r.email == (if p.email != "" then p.email else t.email)
    ensures r.status == (if p.status != "" then p.status else t.status)
    ensures r.school == t.school && r.classes == t.classes && r.subjects == t.subjects
    ensures forall k :: k in t.fields && !Provided(p.fields, k, ProfileKeys, {}) ==> k in r.fields && r.fields[k] == t.fields[k]
    ensures forall k :: Provided(p.fields, k, ProfileKeys, {}) ==> k in r.fields && r.fields[k] == p.fields[k]
  {
    t.(email := if p.email != "" then p.email else t.email,
       status := if p.status != "" then p.status else t.status,
       fields := MergeFields(t.fields, p.fields, ProfileKeys, {}))
  }

  /** PUT /teacher/profile: a missing teacher record is not an error. */
  method UpdateProfile(db: Db, user: AuthContext, p: TeacherPatch) returns (status: int)
    requires Admits(VerifyTeacher, user.rol)
    modifies db`teachers
    ensures status == Ok
    ensures db.teachers == if user.id in old(db.teachers) then old(db.teachers)[user.id := ApplyProfile(old(db.teachers)[user.id], p)]
                           else old(db.teachers)
  {
    if user.id in db.teachers {
      db.teachers := db.teachers[user.id := ApplyProfile(db.teachers[user.id], p)];
    }
    return Ok;
  }

  /** GET /teachers: the caller's teachers. */
  function List(teachers: map<Id, TeacherDoc>, user: AuthContext): (r: set<Id>)
    requires Admits(VerifySchool, user.rol)
    ensures forall t :: t in r <==> t in teachers && teachers[t].school == user.id
  {
    set t | t in teachers && teachers[t].school == user.id
  }

  /** DELETE /teachers/:id. The teacher leaves every subject; classes that
    * name the teacher keep naming it. */
  method Delete(db: Db, user: AuthContext, id: Id) returns (status: int)
    requires Admits(VerifySchool, user.rol)
    modifies db`teachers, db`subjects
    ensures status == Ok <==> id in old(db.teachers) && old(db.teachers)[id].school == user.id
    ensures status != Ok ==> status == NotFound && db.teachers == old(db.teachers) && db.subjects == old(db.subjects)
    ensures status == Ok ==>
      db.teachers == old(db.teachers) - {id}
      && db.subjects == SubjectsPullTeacher(old(db.subjects), id)
      && (forall s :: s in db.subjects ==> id !in db.subjects[s].teachers)
    ensures db.classes == old(db.classes)
  {
    if !(id in db.teachers && db.teachers[id].school == user.id) {
      return NotFound;
    }
    db.teachers := db.teachers - {id};
    db.subjects := SubjectsPullTeacher(db.subjects, id);
    return Ok;
  }

  /** GET /teacher/subjects: the subjects listing the caller. */
  function Subjects(subjects: map<Id, SubjectDoc>, user: AuthContext): (r: set<Id>)
    requires Admits(VerifyTeacher, user.rol)
    ensures forall s :: s in r <==> s in subjects && user.id in subjects[s].teachers
  {
    set s | s in subjects && user.id in subjects[s].teachers
  }

  /** The exam status names of the Exam schema. */
  function StatusName(s: ExamStatus): (r: string)
  {
    match s
    case Scheduled => "scheduled"
    case Ongoing => "ongoing"
    case Completed => "completed"
    case Cancelled => "cancelled"
  }

  /** The status test of PUT /exams/:id/status. */
  function ParseStatus(name: string): (r: Option<ExamStatus>)
    ensures r.Some? ==> StatusName(r.value) == name
  {
    if name == "scheduled" then Some(Scheduled)
    else if name == "ongoing" then Some(Ongoing)
    else if name == "completed" then Some(Completed)
    else if name == "cancelled" then Some(Cancelled)
    else None
  }

  /** Every status name is accepted and read back as that status, and the
    * names are distinct. */
  lemma StatusRoundTrip(s: ExamStatus)
    ensures ParseStatus(StatusName(s)) == Some(s)
  {
  }

  lemma StatusNamesDistinct(a: ExamStatus, b: ExamStatus)
    ensures StatusName(a) == StatusName(b) ==> a == b
  {
    if StatusName(a) == StatusName(b) {
      assert ParseStatus(StatusName(a)) == Some(a);
      assert ParseStatus(StatusName(b)) == Some(b);
    }
  }

  /** A name that is not one of the four is refused. */
  lemma ParseStatusComplete(name: string)
    ensures ParseStatus(name).None? <==> forall s: ExamStatus :: StatusName(s) != name
  {
    if ParseStatus(name).None? {
      forall s: ExamStatus ensures StatusName(s) != name {
        StatusRoundTrip(s);
      }
    }
  }

  /** The exam fields the body of POST /exams carries. */
  datatype ExamBody = ExamBody(subject: Id, passingMarks: int, fields: Fields)

  /** POST /exams: only on a subject listing the caller; the exam belongs
    * to the subject's school and starts 'scheduled'. */
  method CreateExam(db: Db, user: AuthContext, body: ExamBody, newId: Id) returns (status: int)
    requires Admits(VerifyTeacher, user.rol)
    requires newId !in db.exams
    modifies db`exams
    ensures status == Created <==> body.subject in db.subjects && user.id in db.subjects[body.subject].teachers
    ensures status != Created ==> status == Forbidden && db.exams == old(db.exams)
    ensures status == Created ==>
      db.exams == old(db.exams)[newId := ExamDoc(body.subject, user.id, db.subjects[body.subject].school,
                                                 body.passingMarks, [], Scheduled, body.fields)]
  {
    if !(body.subject in db.subjects && user.id in db.subjects[body.subject].teachers) {
      return Forbidden;
    }
    db.exams := db.exams[newId := ExamDoc(body.subject, user.id, db.subjects[body.subject].school,
                                          body.passingMarks, [], Scheduled, body.fields)];
    return Created;
  }

  /** GET /teacher/exams: the caller's exams. */
  function Exams(exams: map<Id, ExamDoc>, user: AuthContext): (r: set<Id>)
    requires Admits(VerifyTeacher, user.rol)
    ensures forall e :: e in r <==> e in exams && exams[e].teacher == user.id
  {
    set e | e in exams && exams[e].teacher == user.id
  }

  predicate OwnExam(exams: map<Id, ExamDoc>, id: Id, teacher: Id)
  {
    id in exams && exams[id].teacher == teacher
  }

  /** PUT /exams/:id/status. The name is checked before the exam is looked
    * up. */
  method UpdateStatus(db: Db, user: AuthContext, id: Id, name: string) returns (status: int)
    requires Admits(VerifyTeacher, user.rol)
    modifies db`exams
    ensures ParseStatus(name).None? ==> status == BadRequest
    ensures status == Ok <==> ParseStatus(name).Some? && OwnExam(old(db.exams), id, user.id)
    ensures status == Ok ==>
      db.exams == old(db.exams)[id := old(db.exams)[id].(status := ParseStatus(name).value)]
      && StatusName(db.exams[id].status) == name
    ensures status != Ok ==> db.exams == old(db.exams) && (status == BadRequest || status == NotFound)
    ensures ParseStatus(name).Some? && !OwnExam(old(db.exams), id, user.id) ==> status == NotFound
  {
    var parsed := ParseStatus(name);
    if parsed.None? {
      return BadRequest;
    }
    if !OwnExam(db.exams, id, user.id) {
      return NotFound;
    }
    db.exams := db.exams[id := db.exams[id].(status := parsed.value)];
    return Ok;
  }

  /** One entry of the `results` array of POST /exams/:id/results. */
  datatype ResultInput = ResultInput(student: Option<Id>, marks: JsValue, remarks: Option<string>)

  /** `result.student && result.marks && typeof result.marks === 'number'`:
    * a mark of 0 is refused like a missing one. */
  predicate Acceptable(r: ResultInput)
  {
    r.student.Some? && r.marks.JsNumber? && Truthy(r.marks)
  }

  lemma ZeroMarkRefused(student: Id)
    ensures !Acceptable(ResultInput(Some(student), JsNumber(0), None))
  {
  }

  /** Grades the results, or reports that one of them is not acceptable.
    * Each grade is 'pass' exactly when the mark reaches the passing
    * mark. */
  method GradeResults(inputs: seq<ResultInput>, passingMarks: int) returns (ok: bool, graded: seq<ExamResult>)
    ensures ok <==> forall i :: 0 <= i < |inputs| ==> Acceptable(inputs[i])
    ensures ok ==> |graded| == |inputs|
    ensures ok ==> forall i :: 0 <= i < |inputs| ==>
      graded[i].student == inputs[i].student.value && graded[i].marks == inputs[i].marks.n
      && graded[i].remarks == inputs[i].remarks
    ensures ok ==> forall i :: 0 <= i < |graded| ==> (graded[i].status == Pass <==> graded[i].marks >= passingMarks)
  {
    graded := [];
    var i := 0;
    while i < |inputs|
      invariant 0 <= i <= |inputs|
      invariant |graded| == i
      invariant forall k :: 0 <= k < i ==> Acceptable(inputs[k])
      invariant forall k :: 0 <= k < i ==>
        graded[k].student == inputs[k].student.value && graded[k].marks == inputs[k].marks.n
        && graded[k].remarks == inputs[k].remarks
        && (graded[k].status == Pass <==> graded[k].marks >= passingMarks)
    {
      var r := inputs[i];
      if !Acceptable(r) {
        return false, graded;
      }
      var grade := if r.marks.n >= passingMarks then Pass else Fail;
      graded := graded + [ExamResult(r.student.value, r.marks.n, grade, r.remarks)];
      i := i + 1;
    }
    return true, graded;
  }

  /** The number of passing results. */
  function Passed(results: seq<ExamResult>): (n: nat)
    ensures n <= |results|
  {
    if results == [] then 0
    else Passed(results[..|results| - 1]) + (if results[|results| - 1].status == Pass then 1 else 0)
  }

  /** Raising the passing mark never lets more results pass, when the
    * grades follow the mark. */
  lemma {:induction false} StricterMarkPassesFewer(results: seq<ExamResult>, low: int, high: int,
                                                   graded: seq<ExamResult>)
    requires low <= high && |graded| == |results|
    requires forall i :: 0 <= i < |results| ==> (results[i].status == Pass <==> results[i].marks >= low)
    requires forall i :: 0 <= i < |graded| ==>
      graded[i].marks == results[i].marks && (graded[i].status == Pass <==> graded[i].marks >= high)
    ensures Passed(graded) <= Passed(results)
  {
    if results != [] {
      var n := |results| - 1;
      StricterMarkPassesFewer(results[..n], low, high, graded[..n]);
    }
  }

  /** POST /exams/:id/results. The array check comes before the exam
    * lookup; on success the results are replaced wholesale and the exam is
    * 'completed'. */
  method PostResults(db: Db, user: AuthContext, id: Id, results: Option<seq<ResultInput>>) returns (status: int)
    requires Admits(VerifyTeacher, user.rol)
    modifies db`exams
    ensures results.None? || results.value == [] ==> status == BadRequest
    ensures status == Ok <==>
      results.Some? && results.value != [] && OwnExam(old(db.exams), id, user.id)
      && forall i :: 0 <= i < |results.value| ==> Acceptable(results.value[i])
    ensures status != Ok ==> db.exams == old(db.exams) && (status == BadRequest || status == NotFound)
    // past the array check: a foreign or missing exam is 404, then any unacceptable result is 400
    ensures results.Some? && results.value != [] && !OwnExam(old(db.exams), id, user.id) ==> status == NotFound
    ensures results.Some? && results.value != [] && OwnExam(old(db.exams), id, user.id)
      && (exists i :: 0 <= i < |results.value| && !Acceptable(results.value[i]))
      ==> status == BadRequest
    ensures status == Ok ==>
      id in db.exams && db.exams.Keys == old(db.exams).Keys
      && (forall e :: e in db.exams && e != id ==> db.exams[e] == old(db.exams)[e])
      && var exam := db.exams[id];
         exam == old(db.exams)[id].(results := exam.results, status := Completed)
         && |exam.results| == |results.value|
         && forall i :: 0 <= i < |exam.results| ==>
              exam.results[i].student == results.value[i].student.value
              && exam.results[i].marks == results.value[i].marks.n
              && (exam.results[i].status == Pass <==> exam.results[i].marks >= exam.passingMarks)
  {
    if results.None? || results.value == [] {
      return BadRequest;
    }
    if !OwnExam(db.exams, id, user.id) {
      return NotFound;
    }
    var exam := db.exams[id];
    var ok, graded := GradeResults(results.value, exam.passingMarks);
    if !ok {
      return BadRequest;
    }
    db.exams := db.exams[id := exam.(results := graded, status := Completed)];
    return Ok;
  }
}

=== FILE: tenant.dfy ===
/**
 * The effective school ("tenant") of a request, as the `getSchoolId`
 * helper copied into the attendance, staff-attendance, class,
 * accompaniment and schedule route files computes it: a school acts for
 * itself, a guard for the school it belongs to, anyone else for no school.
 */
module Tenant {
  import opened Common
  import opened Jwt
  import opened Store

  datatype Tenant =
    | InSchool(school: Id)
    /** `getSchoolId` returned null: the handlers answer 404. */
    | NoSchool
    /** `getSchoolId` threw: the handlers' catch answers 500. */
    | Crash

  /** `getSchoolId(req)`. `guardModelLoaded` is false in the schedule
    * routes, which call `Guard.findById` without requiring the Guard model,
    * so every guard request there raises a ReferenceError. */
  function GetSchoolId(user: AuthContext, guards: map<Id, GuardDoc>, guardModelLoaded: bool): (t: Tenant)
    ensures user.rol == School ==> t == InSchool(user.id)
    ensures user.rol == Guard && guardModelLoaded && user.id in guards ==> t == InSchool(guards[user.id].school)
    ensures t.Crash? <==> user.rol == Guard && (!guardModelLoaded || user.id !in guards)
    ensures t.NoSchool? <==> user.rol != School && user.rol != Guard
  {
    match user.rol
    case School => InSchool(user.id)
    case Guard =>
      if !guardModelLoaded || user.id !in guards then Crash else InSchool(guards[user.id].school)
    case _ => NoSchool
  }

  /** The error status a handler answers with when no tenant was found. */
  function TenantError(t: Tenant): (status: int)
    requires !t.InSchool?
    ensures status == NotFound <==> t.NoSchool?
    ensures status == ServerError <==> t.Crash?
  {
    if t.NoSchool? then NotFound else ServerError
  }

  /** Only a school or one of its guards ever acts for a school, and then
    * for that school alone: no request acts for a school it does not
    * belong to. */
  lemma TenantIsOwnSchool(user: AuthContext, guards: map<Id, GuardDoc>, loaded: bool, s: Id)
    requires GetSchoolId(user, guards, loaded) == InSchool(s)
    ensures user.rol == School ==> s == user.id
    ensures user.rol == Guard ==> user.id in guards && guards[user.id].school == s
    ensures user.rol == School || user.rol == Guard
  {
  }
}

=== FILE: transportation_routes.dfy ===
/**
 * A school's vehicles. A vehicle names its driver, and the driver lists
 * the vehicle in `vehicles`; bus numbers are unique within a school.
 */
module TransportationRoutes {
  import opened Common
  import opened Jwt
  import opened Store
  import opened Links

  /** Every vehicle whose driver exists is listed by that driver. */
  predicate VehicleLinks(transports: map<Id, TransportDoc>, drivers: map<Id, DriverDoc>)
  {
    forall v :: v in transports && transports[v].driver.Some? && transports[v].driver.value in drivers
      ==> v in drivers[transports[v].driver.value].vehicles
  }

  predicate BusNumberTaken(transports: map<Id, TransportDoc>, busNumber: string, school: Id, except: Option<Id>)
  {
    exists v :: v in transports && Some(v) != except && transports[v].busNumber == busNumber && transports[v].school == school
  }

  predicate OwnVehicle(transports: map<Id, TransportDoc>, id: Id, school: Id)
  {
    id in transports && transports[id].school == school
  }

  /** The drivers after the driver of vehicle `v` changes from `before` to
    * `after`: the old driver drops the vehicle and the new one lists it.
    * Nothing happens when the driver stays the same. */
  function DriversAfter(drivers: map<Id, DriverDoc>, v: Id, before: Option<Id>, after: Option<Id>): (r: map<Id, DriverDoc>)
    ensures r.Keys == drivers.Keys
    ensures before == after ==> r == drivers
    ensures before != after && after.Some? && after.value in r ==> v in r[after.value].vehicles
    ensures before != after && before.Some? && before.value in drivers ==> v !in r[before.value].vehicles
    ensures forall d, w :: d in drivers && w != v ==> (w in r[d].vehicles <==> w in drivers[d].vehicles)
  {
    if before == after then drivers
    else
      var pulled := if before.Some? then DriverPullVehicle(drivers, before.value, v) else drivers;
      if after.Some? then DriverAddVehicle(pulled, after.value, v) else pulled
  }

  /** POST /transportation. The vehicle starts 'active' with no student; a
    * driver, of any school, gets the vehicle in its list. */
  method Create(db: Db, user: AuthContext, busNumber: string, driver: Option<Id>, fields: Fields, newId: Id)
    returns (status: int)
    requires Admits(VerifySchool, user.rol)
    requires newId !in db.transports
    modifies db`transports, db`drivers
    ensures status == BadRequest <==> BusNumberTaken(old(db.transports), busNumber, user.id, None)
    ensures status == BadRequest ==> db.transports == old(db.transports) && db.drivers == old(db.drivers)
    ensures status != BadRequest ==>
      status == Created
      && db.transports == old(db.transports)[newId := TransportDoc(user.id, busNumber, driver, None, [], "active", fields)]
      && db.drivers == (if driver.Some? then DriverAddVehicle(old(db.drivers), driver.value, newId) else old(db.drivers))
    ensures VehicleLinks(old(db.transports), old(db.drivers)) ==> VehicleLinks(db.transports, db.drivers)
  {
    if BusNumberTaken(db.transports, busNumber, user.id, None) {
      return BadRequest;
    }
    db.transports := db.transports[newId := TransportDoc(user.id, busNumber, driver, None, [], "active", fields)];
    if driver.Some? {
      db.drivers := DriverAddVehicle(db.drivers, driver.value, newId);
    }
    return Created;
  }

  /** GET /transportation: the caller's vehicles. */
  function List(transports: map<Id, TransportDoc>, user: AuthContext): (r: set<Id>)
    requires Admits(VerifySchool, user.rol)
    ensures forall v :: v in r <==> OwnVehicle(transports, v, user.id)
  {
    set v | v in transports && transports[v].school == user.id
  }

  /** GET /transportation/:id. */
  function Detail(transports: map<Id, TransportDoc>, user: AuthContext, id: Id): (r: Outcome<TransportDoc>)
    requires Admits(VerifySchool, user.rol)
    ensures r.Done? <==> OwnVehicle(transports, id, user.id)
    ensures r.Done? ==> r.value == transports[id]
    ensures r.Refused? ==> r.status == NotFound
  {
    if OwnVehicle(transports, id, user.id) then Done(transports[id]) else Refused(NotFound)
  }

  /** The body of PUT /transportation/:id. An empty string is a field not
    * given; `driver` is None when absent, Some(None) when null or empty. */
  datatype TransportPatch = TransportPatch(busNumber: string, driver: Option<Option<Id>>, status: string, fields: Fields)

  const TextKeys: set<string> := {"name", "type", "capacity"}
  const DefinedKeys: set<string> := {"notes"}

  function Patched(t: TransportDoc, p: TransportPatch): (r: TransportDoc)
    ensures r.busNumber == (if p.busNumber != "" then p.busNumber else t.busNumber)
    ensures r.driver == (if p.driver.Some? then p.driver.value else t.driver)
    ensures r.status == (if p.status != "" then p.status else t.status)
    ensures r.school == t.school && r.student == t.student && r.accompaniments == t.accompaniments
    ensures forall k :: k in t.fields && !Provided(p.fields, k, TextKeys, DefinedKeys) ==> k in r.fields && r.fields[k] == t.fields[k]
    ensures forall k :: Provided(p.fields, k, TextKeys, DefinedKeys) ==> k in r.fields && r.fields[k] == p.fields[k]
  {
    t.(busNumber := if p.busNumber != "" then p.busNumber else t.busNumber,
       driver := if p.driver.Some? then p.driver.value else t.driver,
       status := if p.status != "" then p.status else t.status,
       fields := MergeFields(t.fields, p.fields, TextKeys, DefinedKeys))
  }

  /** PUT /transportation/:id. */
  method Update(db: Db, user: AuthContext, id: Id, p: TransportPatch) returns (status: int)
    requires Admits(VerifySchool, user.rol)
    modifies db`transports, db`drivers
    ensures !OwnVehicle(old(db.transports), id, user.id) ==> status == NotFound
    ensures status == Ok <==>
      OwnVehicle(old(db.transports), id, user.id)
      && !(p.busNumber != "" && p.busNumber != old(db.transports)[id].busNumber
           && BusNumberTaken(old(db.transports), p.busNumber, user.id, Some(id)))
    ensures status != Ok ==> db.transports == old(db.transports) && db.drivers == old(db.drivers)
    ensures status == Ok ==>
      db.transports == old(db.transports)[id := Patched(old(db.transports)[id], p)]
      && db.drivers == (if p.driver.Some? then DriversAfter(old(db.drivers), id, old(db.transports)[id].driver, p.driver.value)
                        else old(db.drivers))
    ensures VehicleLinks(old(db.transports), old(db.drivers)) ==> VehicleLinks(db.transports, db.drivers)
  {
    if !OwnVehicle(db.transports, id, user.id) {
      return NotFound;
    }
    var t := db.transports[id];
    if p.busNumber != "" && p.busNumber != t.busNumber && BusNumberTaken(db.transports, p.busNumber, user.id, Some(id)) {
      return BadRequest;
    }
    if p.driver.Some? {
      db.drivers := DriversAfter(db.drivers, id, t.driver, p.driver.value);
    }
    db.transports := db.transports[id := Patched(t, p)];
    return Ok;
  }

  /** The ids of the students riding vehicle `v`. */
  function RidersOf(students: map<Id, StudentDoc>, v: Id): (r: set<Id>)
    ensures forall s :: s in r <==> s in students && students[s].transportation == Some(v)
  {
    set s | s in students && students[s].transportation == Some(v)
  }

  /** DELETE /transportation/:id. */
  method Delete(db: Db, user: AuthContext, id: Id) returns (status: int)
    requires Admits(VerifySchool, user.rol)
    modifies db`transports, db`drivers, db`students
    ensures status == Ok <==> OwnVehicle(old(db.transports), id, user.id)
    ensures status != Ok ==>
      status == NotFound && db.transports == old(db.transports) && db.drivers == old(db.drivers)
      && db.students == old(db.students)
    ensures status == Ok ==>
      db.transports == old(db.transports) - {id}
      && db.drivers == (if old(db.transports)[id].driver.Some?
                        then DriverPullVehicle(old(db.drivers), old(db.transports)[id].driver.value, id)
                        else old(db.drivers))
      && db.students == StudentsUnsetTransport(old(db.students), RidersOf(old(db.students), id))
      && (forall s :: s in db.students ==> db.students[s].transportation != Some(id))
    ensures VehicleLinks(old(db.transports), old(db.drivers)) ==> VehicleLinks(db.transports, db.drivers)
  {
    if !OwnVehicle(db.transports, id, user.id) {
      return NotFound;
    }
    var t := db.transports[id];
    if t.driver.Some? {
      db.drivers := DriverPullVehicle(db.drivers, t.driver.value, id);
    }
    db.students := StudentsUnsetTransport(db.students, RidersOf(db.students, id));
    db.transports := db.transports - {id};
    return Ok;
  }

  /** POST /transportation/:id/students. Both the vehicle and the student
    * must belong to the caller. A student who already rides a vehicle is
    * first `$pull`ed from it; `student` is a single reference, not an
    * array, so the database either rejects that update (the handler then
    * answers 500 before writing anything) or leaves the document as it is.
    * `pullAccepted` is the database's answer. */
  method AssignStudent(db: Db, user: AuthContext, id: Id, studentId: Option<Id>, pullAccepted: bool)
    returns (status: int)
    requires Admits(VerifySchool, user.rol)
    modifies db`transports, db`students
    ensures studentId.None? ==> status == BadRequest
    ensures studentId.Some? && !(OwnVehicle(old(db.transports), id, user.id)
                                 && studentId.value in old(db.students)
                                 && old(db.students)[studentId.value].school == user.id)
      ==> status == NotFound
    ensures status == Ok <==>
      studentId.Some? && OwnVehicle(old(db.transports), id, user.id)
      && studentId.value in old(db.students) && old(db.students)[studentId.value].school == user.id
      && (old(db.students)[studentId.value].transportation.Some? ==> pullAccepted)
    ensures status != Ok && status != NotFound && status != BadRequest ==> status == ServerError
    ensures status != Ok ==> db.transports == old(db.transports) && db.students == old(db.students)
    ensures status == Ok ==>
      db.students == old(db.students)[studentId.value := old(db.students)[studentId.value].(transportation := Some(id))]
      && db.transports == old(db.transports)[id := old(db.transports)[id].(student := studentId)]
  {
    if studentId.None? {
      return BadRequest;
    }
    if !OwnVehicle(db.transports, id, user.id) {
      return NotFound;
    }
    var s := studentId.value;
    if !(s in db.students && db.students[s].school == user.id) {
      return NotFound;
    }
    if db.students[s].transportation.Some? && !pullAccepted {
      return ServerError;
    }
    db.students := db.students[s := db.students[s].(transportation := Some(id))];
    db.transports := db.transports[id := db.transports[id].(student := Some(s))];
    return Ok;
  }

  /** DELETE /transportation/:id/students/:studentId. The student, of any
    * school and riding any vehicle, loses its vehicle; this vehicle loses
    * its student, whoever it was. */
  method RemoveStudent(db: Db, user: AuthContext, id: Id, studentId: Id) returns (status: int)
    requires Admits(VerifySchool, user.rol)
    modifies db`transports, db`students
    ensures status == Ok <==> OwnVehicle(old(db.transports), id, user.id)
    ensures status != Ok ==> status == NotFound && db.transports == old(db.transports) && db.students == old(db.students)
    ensures status == Ok ==>
      db.students == StudentsUnsetTransport(old(db.students), {studentId})
      && db.transports == old(db.transports)[id := old(db.transports)[id].(student := None)]
  {
    if !OwnVehicle(db.transports, id, user.id) {
      return NotFound;
    }
    db.students := StudentsUnsetTransport(db.students, {studentId});
    db.transports := db.transports[id := db.transports[id].(student := None)];
    return Ok;
  }
}
